=== FILE: README.md ===
# Grahplet backend core in Dafny

Grahplet is a note-board service. Users log in, own workspaces, and put notes,
tags and relations between notes in them. A WebSocket endpoint lets everyone
who has a workspace open share a *live session*:

- the session announces who joins and who leaves;
- it keeps one connection per user;
- it hands out note locks, so only one user edits a note at a time.

This project models that core as pure functions over immutable data and proves
what the code promises:

- **Live session** (`LiveSession`, `SessionProperties`). The per-workspace
  serial processor of Connect, Disconnect and client actions, and what it sends
  to each connection's outbox. Proved:
  - "one connection per user" holds after any event sequence;
  - a held lock is never handed to another user;
  - lock holders stay connected along well-formed traces;
  - a concrete trace in which a lock outlives its holder.
- **Session registry** (`SessionRegistry`). One session per workspace, created
  on first use and cancelled on removal or shutdown.
- **Connection handler** (`SessionClient`):
  - the first-frame authentication, with its exact rejection reasons;
  - the message loop and the heartbeat;
  - assembly of fragmented frames under the 8 KiB buffer and the 256 KiB limit;
  - the teardown rule that every authenticated connection posts exactly one
    Disconnect.
- **Wire messages** (`Messages`). The twelve-kind polymorphic JSON union,
  with a decode-after-encode round trip.
- **Repositories**:
  - the dictionary-backed auth, workspace, tag and note repositories
    (`InMemory*`, on the shared `OwnedStore` shape);
  - the database mapping helpers (`AccessLevelHelper`, `EfMap`), including
    the tag colour text round trip.
- **Password hashing** (`PasswordHasher`). The "v1$iterations$salt$key"
  format, with a hash-then-verify round trip.
- **Configuration** (`Configuration`). The keys that override the defaults,
  proved idempotent.
- **Authentication middleware** (`AuthenticationMiddleware`). Bearer-token
  binding, linked to the in-memory auth repository.

Model conventions:

- A Guid is a number below 2^128, and the empty Guid is 0.
- A time is a count of 100 ns DateTime ticks.
- Anything the code obtains from outside is a parameter of the function that
  needs it:
  - fresh Guids, the clock, random salt bytes;
  - PBKDF2 and Base64;
  - `IPAddress.TryParse`;
  - the repositories' token and workspace lookups;
  - the JSON decoder of a received frame.
- Three behaviours of the code that the model keeps:
  - an undecodable frame, or one of unknown type, reads as null, and a null
    message ends the message loop (WebSockets/SessionClient.cs:154-158);
  - a ping timeout closes with NormalClosure
    (WebSockets/SessionClient.cs:218);
  - a refused Lock is answered with "Note <id> is already locked"
    (WebSockets/LiveSession.cs:166-176).
- The .NET string helpers the code uses are in `Text`: white-space tests,
  `Split`/`Join` and `int.TryParse`.

## Model

| member | source | states |
|---|---|---|
| Messages.KindOfDiscriminator | backend/Grahplet/Grahplet/WebSockets/Messages.cs:8-20 | a discriminator names at most one kind, and the kind it names carries that discriminator |
| Messages.TwelveKinds | backend/Grahplet/Grahplet/WebSockets/Messages.cs:8-20 | the union has exactly the twelve registered kinds |
| Messages.DiscriminatorsIdentifyKinds | backend/Grahplet/Grahplet/WebSockets/Messages.cs:8-20 | each kind's discriminator is distinct and maps back to that kind |
| Messages.Decode | backend/Grahplet/Grahplet/WebSockets/Messages.cs:8-57 | a decoded message has exactly the "type" discriminator of its kind |
| Messages.Encode | backend/Grahplet/Grahplet/WebSockets/Messages.cs:8-57 | the serialized object carries the kind's discriminator in "type" |
| Messages.DecodeEncode | backend/Grahplet/Grahplet/WebSockets/Messages.cs:8-57 | every message survives serialize-then-deserialize unchanged |
| LiveSession.HandleConnect | backend/Grahplet/Grahplet/WebSockets/LiveSession.cs:80-124 | the newcomer becomes its user's active connection; an older connection of the same user that is still a client is dropped from the clients and sent a ServerError "New connection from same user" (its socket is not closed); the newcomer alone gets a SessionInfo listing every present user once plus the locks; every other client gets UserJoined; locks and other users are untouched |
| LiveSession.HandleDisconnect | backend/Grahplet/Grahplet/WebSockets/LiveSession.cs:126-151 | an unknown connection changes nothing; otherwise it leaves the clients and the remaining clients are told UserLeft; its user's entry goes only when it is that user's active connection, but every lock of its user goes whichever of the user's connections leaves; no lock is ever added |
| LiveSession.HandleAction | backend/Grahplet/Grahplet/WebSockets/LiveSession.cs:153-197 | a Lock on a note another user holds is refused with a ServerError to the sender only; otherwise Lock records the sender as holder, Unlock frees a note the sender holds, and the action is relayed to every other client; membership never changes |
| LiveSession.SortedIds | backend/Grahplet/Grahplet/WebSockets/LiveSession.cs:108-120 | the SessionInfo user list contains each present user exactly once |
| LiveSession.ReceivedAppend | backend/Grahplet/Grahplet/WebSockets/LiveSession.cs:199-214 | a connection's outbox receives the deliveries of consecutive steps in order |
| SessionProperties.ProcessKeepsOneConnectionPerUser | backend/Grahplet/Grahplet/WebSockets/LiveSession.cs:58-151 | after any event every client is its user's recorded active connection |
| SessionProperties.RunKeepsOneConnectionPerUser | backend/Grahplet/Grahplet/WebSockets/LiveSession.cs:30-56 | the one-connection-per-user invariant holds after any sequence of events |
| SessionProperties.NoUserTwice | backend/Grahplet/Grahplet/WebSockets/LiveSession.cs:83-103 | under the invariant no two clients belong to the same user |
| SessionProperties.HeldLocksAreNeverTaken | backend/Grahplet/Grahplet/WebSockets/LiveSession.cs:140-189 | a held lock keeps its holder, and disappears exactly on the holder's Unlock or on a Disconnect, from any current client, that carries the holder's id |
| SessionProperties.LockIsIdempotent | backend/Grahplet/Grahplet/WebSockets/LiveSession.cs:160-180 | locking the same note twice leaves the same locks as locking once |
| SessionProperties.ProcessKeepsHealthy | backend/Grahplet/Grahplet/WebSockets/LiveSession.cs:58-197 | with well-formed events, every lock holder keeps an active connection that is a client |
| SessionProperties.RunKeepsHealthy | backend/Grahplet/Grahplet/WebSockets/LiveSession.cs:30-56 | along a well-formed trace every lock holder stays connected |
| SessionProperties.EvictedConnectionLeavesStaleLock | backend/Grahplet/Grahplet/WebSockets/LiveSession.cs:83-98 | an evicted connection that still sends a Lock leaves a lock that no later disconnect releases |
| SessionProperties.ConnectClientCount | backend/Grahplet/Grahplet/WebSockets/LiveSession.cs:216 | a Connect with a new connection id adds one client, or none when it evicts the user's previous connection |
| SessionProperties.TwoClientsContendForANote | backend/Grahplet/Grahplet/WebSockets/LiveSession.cs:80-214 | two users join; one locks a note and the other sees the Lock; the other's competing Lock is refused to it alone; when the holder leaves, the note is free and the other sees UserLeft |
| SessionRegistry.GetOrCreate | backend/Grahplet/Grahplet/WebSockets/SessionDictionary.cs:22-47 | a present workspace keeps its session; an absent one gets a new session filed under it, growing the registry by one |
| SessionRegistry.GetOrCreateIsStable | backend/Grahplet/Grahplet/WebSockets/SessionDictionary.cs:22-47 | a second lookup of the same workspace returns the first lookup's session |
| SessionRegistry.Remove | backend/Grahplet/Grahplet/WebSockets/SessionDictionary.cs:52-77 | removing an absent workspace does nothing; a present one is dropped, its session cancelled, and every other entry kept |
| SessionRegistry.ActiveSessionCount | backend/Grahplet/Grahplet/WebSockets/SessionDictionary.cs:79 | the count is the number of registered workspaces, zero exactly when none is registered |
| SessionRegistry.ActiveSessionCountFollowsRegistry | backend/Grahplet/Grahplet/WebSockets/SessionDictionary.cs:22-79 | creating a session for an absent workspace raises the count by one, finding one leaves it; removing a present workspace lowers it by one, removing an absent one leaves it |
| SessionRegistry.RemoveUndoesCreate | backend/Grahplet/Grahplet/WebSockets/SessionDictionary.cs:22-77 | removing a workspace just created restores the registry and cancels exactly the new session |
| SessionRegistry.StopAll | backend/Grahplet/Grahplet/WebSockets/SessionDictionary.cs:95-103 | shutdown empties the registry and cancels exactly the registered sessions |
| SessionClient.CloseCode | backend/Grahplet/Grahplet/WebSockets/SessionClient.cs:298-311 | NormalClosure is 1000 and PolicyViolation is 1008, each the only status with its code, as section 7.4.1 of RFC 6455 assigns them |
| SessionClient.Authenticate | backend/Grahplet/Grahplet/WebSockets/SessionClient.cs:90-136 | accepted exactly when the first frame is an Auth with a non-blank token and a non-empty workspace, the token resolves, and the user can see the workspace; each failure has its own reason text, and a resolved user who cannot see the workspace gets "Workspace not found or access denied" |
| SessionClient.HandleClientMessage | backend/Grahplet/Grahplet/WebSockets/SessionClient.cs:181-209 | Pong clears the wait; Ping is answered with Pong; Disconnect closes normally; Lock, Unlock and Custom go to the session stamped with this connection and user; anything else is ignored |
| SessionClient.PingTick | backend/Grahplet/Grahplet/WebSockets/SessionClient.cs:211-235 | a tick while a pong is more than 10 s overdue closes with "Ping timeout"; any other tick sends a Ping and records its time |
| SessionClient.PingTickKeepingFirst | backend/Grahplet/Grahplet/WebSockets/SessionClient.cs:211-235 | as PingTick, except that a tick while still waiting keeps the first unanswered ping's time |
| SessionClient.SilentClientIsNeverTimedOut | backend/Grahplet/Grahplet/WebSockets/SessionClient.cs:211-235 | the heartbeat as written (`HandlePingTimerAsync` alone) never closes a client that never answers while ticks come at most 10 s apart |
| SessionClient.RegularTicksNeverTimeOut | backend/Grahplet/Grahplet/WebSockets/SessionClient.cs:24-25 | with the 5 s timer, such a client stays open for any number of ticks |
| SessionClient.SilentClientTimesOut | backend/Grahplet/Grahplet/WebSockets/SessionClient.cs:211-235 | with the first ping's time kept, a silent client is closed at the first tick more than 10 s after that ping |
| SessionClient.SilentClientTimesOutFromStart | backend/Grahplet/Grahplet/WebSockets/SessionClient.cs:211-235 | from a handler with no ping outstanding, the same holds after the first tick |
| SessionClient.SendAll | backend/Grahplet/Grahplet/WebSockets/SessionClient.cs:162-173 | every message read from the session's channel is sent, in order |
| SessionClient.LoopStep | backend/Grahplet/Grahplet/WebSockets/SessionClient.cs:138-179 | an empty receive or an abort ends the loop with no effect; outbound messages are sent as they are; a tick closes with "Ping timeout" once a pong is more than 10 s overdue and otherwise sends a Ping, recording its time unless the first unanswered ping's time is kept; nothing reaches the session except this connection's own actions |
| SessionClient.LoopSubmitsOnlyOwnActions | backend/Grahplet/Grahplet/WebSockets/SessionClient.cs:138-209 | over any run of the loop every event posted to the session is an action carrying this connection and user |
| SessionClient.LoopStopsForGood | backend/Grahplet/Grahplet/WebSockets/SessionClient.cs:140 | once the loop has ended, further events change nothing |
| SessionClient.LoopOfTicks | backend/Grahplet/Grahplet/WebSockets/SessionClient.cs:140-179 | a loop that sees only timer ticks behaves exactly as the bare heartbeat run over the same times |
| SessionClient.SilentClientInTheLoop | backend/Grahplet/Grahplet/WebSockets/SessionClient.cs:140-235 | in the modelled loop, where every wake-up is a whole event, the heartbeat as written never closes a silent client while ticks come at most 10 s apart, and with the first ping's time kept it closes that client once a tick comes more than 10 s after that ping |
| SessionClient.Lifecycle | backend/Grahplet/Grahplet/WebSockets/SessionClient.cs:41-88 | a rejected first frame closes with a policy violation and posts nothing |
| SessionClient.DisconnectsAppend | backend/Grahplet/Grahplet/WebSockets/SessionClient.cs:72-86 | Disconnect counts add up over concatenated effects |
| SessionClient.NoDisconnectsWithoutOne | backend/Grahplet/Grahplet/WebSockets/SessionClient.cs:72-86 | effects that post no Disconnect count zero |
| SessionClient.Teardown | backend/Grahplet/Grahplet/WebSockets/SessionClient.cs:41-88 | a finished connection posts exactly one Disconnect, as its last effect, if and only if it was authenticated; a rejected one posts nothing; every posted event carries this connection and user; Connect comes first |
| SessionClient.AssembledSizeBound | backend/Grahplet/Grahplet/WebSockets/SessionClient.cs:239-268 | an assembled message is at most 256 KiB plus one 8 KiB buffer, because the limit is checked after the end-of-message test |
| SessionClient.ReceiveMessage | backend/Grahplet/Grahplet/WebSockets/SessionClient.cs:237-282 | the receive loop yields exactly the reference assembly: the bytes up to the end of message, or null on close, failure or growth past 256 KiB |
| SessionClient.AssemblyUsesReceipts | backend/Grahplet/Grahplet/WebSockets/SessionClient.cs:243-269 | a message is complete or null only after at least one receive, and never after more receives than there were |
| SessionClient.Receive | backend/Grahplet/Grahplet/WebSockets/SessionClient.cs:237-282 | a null assembly is a null message; a complete one is handed to the decoder |
| AccessLevelHelper.IndexOf | backend/Grahplet/Grahplet/Repositories/EfRepositories.cs:11-20 | the first position of the name, or -1 exactly when it is absent |
| AccessLevelHelper.MeetsMinimum | backend/Grahplet/Grahplet/Repositories/EfRepositories.cs:11-20 | no minimum, or a minimum that names no level, always passes |
| AccessLevelHelper.MeetsMinimumFollowsOrder | backend/Grahplet/Grahplet/Repositories/EfRepositories.cs:11-20 | against a named level the check is exactly "at least as strong" in Read < Write < Admin < Owner |
| AccessLevelHelper.Parse | backend/Grahplet/Grahplet/Repositories/EfRepositories.cs:22-32 | an unknown name reads as Read |
| AccessLevelHelper.ParseName | backend/Grahplet/Grahplet/Repositories/EfRepositories.cs:22-32 | parsing a level's own name gives the level back |
| EfMap.ColorToString | backend/Grahplet/Grahplet/Repositories/EfRepositories.cs:262 | a null colour is written as "0,0,0" |
| EfMap.TagToModel | backend/Grahplet/Grahplet/Repositories/EfRepositories.cs:46-52 | the model colour always has three components, and a null colour reads as [0, 0, 0] |
| EfMap.ColorTextParts | backend/Grahplet/Grahplet/Repositories/EfRepositories.cs:48-51 | a colour's text splits back into its numbers' texts |
| EfMap.ColorRoundTrip | backend/Grahplet/Grahplet/Repositories/EfRepositories.cs:46-52 | writing a colour and reading it back gives its first three numbers, padded with 0; a three-number colour comes back exactly |
| EfMap.NoteToModel | backend/Grahplet/Grahplet/Repositories/EfRepositories.cs:53-76 | the model has a file exactly when the row has a file id or a non-empty file name, with the row's file columns |
| EfMap.ApplyCreate | backend/Grahplet/Grahplet/Repositories/EfRepositories.cs:78-95 | the row takes the request's fields and workspace, keeps a non-empty id, and has file columns exactly when a file is supplied |
| EfMap.CreateReadsBack | backend/Grahplet/Grahplet/Repositories/EfRepositories.cs:53-95 | a created note reads back with the request's fields, positions and file |
| EfMap.ApplyUpdate | backend/Grahplet/Grahplet/Repositories/EfRepositories.cs:97-111 | only supplied fields change; blank names and kinds are ignored; id and workspace never change |
| EfMap.EmptyUpdateChangesNothing | backend/Grahplet/Grahplet/Repositories/EfRepositories.cs:97-111 | an update that supplies nothing leaves the row as it was |
| EfMap.UpdateIsIdempotent | backend/Grahplet/Grahplet/Repositories/EfRepositories.cs:97-111 | applying an update twice equals applying it once |
| EfMap.UpdatedFileIsVisible | backend/Grahplet/Grahplet/Repositories/EfRepositories.cs:53-111 | after an update that supplies a file, the note reads back with that file |
| InMemoryAuthRepository.Initial | backend/Grahplet/Grahplet/Repositories/InMemoryRepositories.cs:10-23 | a new store holds only the demo user and no tokens |
| InMemoryAuthRepository.FindUser | backend/Grahplet/Grahplet/Repositories/InMemoryRepositories.cs:27 | the user found is the first in enumeration order with the credentials; none found means no user has them |
| InMemoryAuthRepository.LoginUser | backend/Grahplet/Grahplet/Repositories/InMemoryRepositories.cs:25-36 | a failed login changes nothing and returns an empty token; a login succeeds exactly when a user with the credentials is found, and then records a 36-character token mapping to the first such user's id, keeping every other token |
| InMemoryAuthRepository.LoginSucceedsIffCredentialsMatch | backend/Grahplet/Grahplet/Repositories/InMemoryRepositories.cs:25-53 | login succeeds exactly when some user has the credentials, and its token then validates and resolves to that user |
| InMemoryAuthRepository.Logout | backend/Grahplet/Grahplet/Repositories/InMemoryRepositories.cs:38-42 | the token is gone, every other token is kept with its user, no token is added, and users are untouched |
| InMemoryAuthRepository.GetUserIdFromToken | backend/Grahplet/Grahplet/Repositories/InMemoryRepositories.cs:49-53 | an id comes back exactly for a known token mapped to a non-empty Guid |
| InMemoryAuthRepository.LogoutInvalidates | backend/Grahplet/Grahplet/Repositories/InMemoryRepositories.cs:38-53 | a logged-out token neither validates nor resolves |
| InMemoryAuthRepository.CreateUser | backend/Grahplet/Grahplet/Repositories/InMemoryRepositories.cs:55-72 | a clashing email or username gives null and no change; a key already stored is an error; otherwise the user is stored with empty picture URL, its key goes last in the enumeration order, and tokens are untouched |
| InMemoryAuthRepository.GetUser | backend/Grahplet/Grahplet/Repositories/InMemoryRepositories.cs:74-78 | the stored user, or null exactly for an unknown id |
| InMemoryAuthRepository.UpdateUser | backend/Grahplet/Grahplet/Repositories/InMemoryRepositories.cs:80-85 | an unknown id gives null and no change; a known one is replaced |
| InMemoryAuthRepository.UpdateUserKeepsValid | backend/Grahplet/Grahplet/Repositories/InMemoryRepositories.cs:74-85 | replacing a user keeps every key listed once in the order, and the replacement is what a lookup then finds |
| InMemoryAuthRepository.CreatedUserIsStored | backend/Grahplet/Grahplet/Repositories/InMemoryRepositories.cs:55-78 | a created user can be fetched and the store stays consistent; a refused one leaves it unchanged |
| OwnedStore.All | backend/Grahplet/Grahplet/Repositories/InMemoryRepositories.cs:93-106 | a listing holds exactly the stored items the owner's list names |
| OwnedStore.Get | backend/Grahplet/Grahplet/Repositories/InMemoryRepositories.cs:108-117 | an item is found exactly when its owner lists it and it is still stored |
| OwnedStore.Add | backend/Grahplet/Grahplet/Repositories/InMemoryRepositories.cs:119-132 | the item is stored and appended to its owner's list |
| OwnedStore.AddThenGet | backend/Grahplet/Grahplet/Repositories/InMemoryRepositories.cs:119-132 | an added item is found through its owner |
| OwnedStore.Delete | backend/Grahplet/Grahplet/Repositories/InMemoryRepositories.cs:150-160 | an unlisted id is refused with no change; a listed one leaves the store and its owner's list |
| OwnedStore.DeletedIsGone | backend/Grahplet/Grahplet/Repositories/InMemoryRepositories.cs:150-160 | a deleted item is found through no owner |
| OwnedStore.DeleteUnlists | backend/Grahplet/Grahplet/Repositories/InMemoryRepositories.cs:150-160 | with repeat-free lists the id leaves its owner's list entirely and lists stay repeat-free |
| InMemoryWorkspaceRepository.GetWorkspace | backend/Grahplet/Grahplet/Repositories/InMemoryRepositories.cs:108-117 | a workspace is found exactly when it is on the user's list and still stored, and it is the stored one |
| InMemoryWorkspaceRepository.CreateWorkspace | backend/Grahplet/Grahplet/Repositories/InMemoryRepositories.cs:119-132 | the new workspace is stored and appended to the creator's list |
| InMemoryWorkspaceRepository.CreateThenGet | backend/Grahplet/Grahplet/Repositories/InMemoryRepositories.cs:108-132 | the creator finds a created workspace |
| InMemoryWorkspaceRepository.UpdateWorkspace | backend/Grahplet/Grahplet/Repositories/InMemoryRepositories.cs:134-148 | an invisible workspace gives null; a visible one is renamed unless the name is null or empty |
| InMemoryWorkspaceRepository.UpdateWorkspaceThenGet | backend/Grahplet/Grahplet/Repositories/InMemoryRepositories.cs:108-148 | the user reads back the updated workspace, and repeating the update changes nothing |
| InMemoryWorkspaceRepository.DeleteWorkspace | backend/Grahplet/Grahplet/Repositories/InMemoryRepositories.cs:150-160 | an unlisted id is refused with no change; a listed one leaves the store and its first occurrence leaves the owner's list, and nothing else changes |
| InMemoryWorkspaceRepository.DeleteRemovesEverywhere | backend/Grahplet/Grahplet/Repositories/InMemoryRepositories.cs:150-160 | after deletion nobody can fetch the workspace |
| InMemoryTagRepository.GetTag | backend/Grahplet/Grahplet/Repositories/InMemoryRepositories.cs:168-178 | a tag is found exactly when it is listed for the user and workspace and still stored, and it is the stored one |
| InMemoryTagRepository.CreateTag | backend/Grahplet/Grahplet/Repositories/InMemoryRepositories.cs:196-210 | the store is the old one with the tag added and appended to its user and workspace's list, nothing else changing, and the created tag is found there |
| InMemoryTagRepository.UpdateTag | backend/Grahplet/Grahplet/Repositories/InMemoryRepositories.cs:212-231 | an invisible tag gives null; a visible one takes a non-empty name and a supplied colour |
| InMemoryTagRepository.UpdateTagThenGet | backend/Grahplet/Grahplet/Repositories/InMemoryRepositories.cs:168-231 | the user reads back the updated tag, and repeating the update changes nothing |
| InMemoryTagRepository.DeleteTag | backend/Grahplet/Grahplet/Repositories/InMemoryRepositories.cs:233-244 | an unlisted id is refused with no change; a listed one leaves the store and its first occurrence leaves the user and workspace's list, and nothing else changes |
| InMemoryTagRepository.DeleteTagRemovesEverywhere | backend/Grahplet/Grahplet/Repositories/InMemoryRepositories.cs:168-244 | after deletion no user finds the tag in any workspace, and with repeat-free lists it is off the owner's list |
| InMemoryNoteRepository.GetNote | backend/Grahplet/Grahplet/Repositories/InMemoryRepositories.cs:271-280 | a note is found exactly when it is on the user's list and still stored, and it is the stored one |
| InMemoryNoteRepository.CreateNote | backend/Grahplet/Grahplet/Repositories/InMemoryRepositories.cs:282-305 | the new note has the request's fields, position (0, 0), the empty workspace and no tags or relations; the notes are the old ones with it added and appended to the creator's list, tag links and relations are untouched, and the creator finds it |
| InMemoryNoteRepository.UpdateNote | backend/Grahplet/Grahplet/Repositories/InMemoryRepositories.cs:307-336 | an invisible note gives null; a visible one takes only the supplied fields and never its position |
| InMemoryNoteRepository.UpdateNoteThenGet | backend/Grahplet/Grahplet/Repositories/InMemoryRepositories.cs:271-336 | the user reads back the updated note, and repeating the update changes nothing |
| InMemoryNoteRepository.DeleteNote | backend/Grahplet/Grahplet/Repositories/InMemoryRepositories.cs:338-348 | an unlisted id is refused with no change; a listed one leaves the notes and its first occurrence leaves the owner's list, while tag links and relations stay as they were |
| InMemoryNoteRepository.DeleteNoteRemovesEverywhere | backend/Grahplet/Grahplet/Repositories/InMemoryRepositories.cs:271-348 | after deletion no user finds the note or reads any of its relations, which stay stored, and with repeat-free lists it is off the owner's list |
| InMemoryNoteRepository.AttachTag | backend/Grahplet/Grahplet/Repositories/InMemoryRepositories.cs:350-368 | the link is recorded; a note lacking a tag with that id gets a placeholder tag (empty name, colour 0,0,0) appended and is otherwise unchanged, and a note that has one is left as it was; relations are untouched |
| InMemoryNoteRepository.AttachIsIdempotent | backend/Grahplet/Grahplet/Repositories/InMemoryRepositories.cs:350-368 | attaching the same tag twice is attaching it once |
| InMemoryNoteRepository.WithoutTag | backend/Grahplet/Grahplet/Repositories/InMemoryRepositories.cs:370-381 | exactly the tags with other ids remain |
| InMemoryNoteRepository.DetachTag | backend/Grahplet/Grahplet/Repositories/InMemoryRepositories.cs:370-381 | the link and every tag of that id leave the note and relations are untouched; the answer is whether a link was removed or any tag remains |
| InMemoryNoteRepository.DetachReportsUnattachedTag | backend/Grahplet/Grahplet/Repositories/InMemoryRepositories.cs:370-381 | detaching a never-attached tag still reports success when the note has another tag |
| InMemoryNoteRepository.GetRelation | backend/Grahplet/Grahplet/Repositories/InMemoryRepositories.cs:383-399 | a relation is found only under a note the user can see |
| InMemoryNoteRepository.CreateRelation | backend/Grahplet/Grahplet/Repositories/InMemoryRepositories.cs:401-429 | a relation from the note to the other note is always stored under the note |
| InMemoryNoteRepository.CreateRelationVisibility | backend/Grahplet/Grahplet/Repositories/InMemoryRepositories.cs:401-429 | a relation created for a note the user cannot see is stored, but that user cannot read it back |
| InMemoryNoteRepository.UpdateRelation | backend/Grahplet/Grahplet/Repositories/InMemoryRepositories.cs:431-445 | an unreachable relation gives null; a reachable one is renamed |
| InMemoryNoteRepository.UpdateRelationThenGet | backend/Grahplet/Grahplet/Repositories/InMemoryRepositories.cs:383-445 | the user reads back the updated relation, and repeating the update changes nothing |
| InMemoryNoteRepository.DeleteRelation | backend/Grahplet/Grahplet/Repositories/InMemoryRepositories.cs:447-464 | only a relation listed under a note the user can see is deleted: it leaves the relations and its first occurrence leaves the note's list, and notes and tag links are untouched; anything else is refused with no change |
| InMemoryNoteRepository.DeleteRelationRemovesEverywhere | backend/Grahplet/Grahplet/Repositories/InMemoryRepositories.cs:383-464 | after deletion nobody reads the relation through any note, and with repeat-free lists it is off the note's list |
| PasswordHasher.Derive | backend/Grahplet/Grahplet/Security/PasswordHasher.cs:19-24 | key derivation fails exactly for a non-positive iteration count or length |
| PasswordHasher.Hash | backend/Grahplet/Grahplet/Security/PasswordHasher.cs:13-27 | a hash is "v1", the iteration count, the Base64 salt and the Base64 32-byte key, joined with '$'; a non-positive count is an error |
| PasswordHasher.Verify | backend/Grahplet/Grahplet/Security/PasswordHasher.cs:29-49 | blank, wrongly shaped, wrong-version or non-numeric hashes are a mismatch; bad Base64 is an error; otherwise a non-positive count or an empty stored key is an out-of-range error, and the answer is whether the key derived with the stored salt, count and key length equals the stored key |
| PasswordHasher.FormatSplits | backend/Grahplet/Grahplet/Security/PasswordHasher.cs:26-33 | a stored hash splits back into its four fields |
| PasswordHasher.VerifyHash | backend/Grahplet/Grahplet/Security/PasswordHasher.cs:13-49 | a password verifies against its own hash for every positive iteration count |
| PasswordHasher.VerifyOtherPassword | backend/Grahplet/Grahplet/Security/PasswordHasher.cs:13-49 | another password verifies exactly when it derives the same key |
| Text.ParseFormatInt32 | backend/Grahplet/Grahplet/Security/PasswordHasher.cs:26-36 | the iteration count written into a hash parses back to itself |
| Configuration.ParseServiceType | backend/Grahplet/Grahplet/Configuration.cs:80-84 | a non-blank child value, trimmed of white space, is recognised when it is a member name in any letter case or the decimal text of a member's value 0, 1 or 2; when nothing is recognised, no name and no value matches |
| Configuration.ServiceTypes | backend/Grahplet/Grahplet/Configuration.cs:74-90 | a type is kept exactly when some child names it, at most one per child |
| Configuration.ServiceTypesKeepsOrder | backend/Grahplet/Grahplet/Configuration.cs:77-86 | the types come out in the children's order: those of two runs of children are the first run's followed by the second's |
| Configuration.ParseNumericName | backend/Grahplet/Grahplet/Configuration.cs:81 | the text "2" names SESSION_WORKER |
| Configuration.ServiceTypesExample | backend/Grahplet/Grahplet/Configuration.cs:74-90 | ["api", " Event ", null, "  ", "worker"] yields [API, EVENT] |
| Configuration.Load | backend/Grahplet/Grahplet/Configuration.cs:52-103 | a null configuration is an error; each setting changes only to a usable value from its key, and a usable value always takes effect |
| Configuration.LoadKeepsValid | backend/Grahplet/Grahplet/Configuration.cs:30-103 | the defaults and every load keep a positive port and session length and at least one service type |
| Configuration.LoadIsIdempotent | backend/Grahplet/Grahplet/Configuration.cs:52-103 | loading the same configuration twice equals loading it once |
| Configuration.EmptySourceChangesNothing | backend/Grahplet/Grahplet/Configuration.cs:52-103 | a configuration without the keys leaves every setting alone |
| AuthenticationMiddleware.TokenOf | backend/Grahplet/Grahplet/Middleware/AuthenticationMiddleware.cs:27 | the token is the header without a leading "Bearer ", or the whole header |
| AuthenticationMiddleware.TokenOfBearer | backend/Grahplet/Grahplet/Middleware/AuthenticationMiddleware.cs:27 | a token sent as "Bearer <token>" comes back unchanged |
| AuthenticationMiddleware.Invoke | backend/Grahplet/Grahplet/Middleware/AuthenticationMiddleware.cs:14-41 | a user id is bound exactly when the path is outside /api/login, the first Authorization value is non-empty, and its token validates and resolves |
| AuthenticationMiddleware.LoginPathExamples | backend/Grahplet/Grahplet/Middleware/AuthenticationMiddleware.cs:17 | the login path and its sub-paths match in any letter case; "/api/logins" does not |
| AuthenticationMiddleware.LoggedInRequestIsBound | backend/Grahplet/Grahplet/Middleware/AuthenticationMiddleware.cs:23-37 | against the in-memory auth repository, a freshly logged-in token binds its user, and after logout the same request is anonymous |

## Left out

- Asynchrony is modelled as functions over event sequences:
  - tasks, channels, cancellation tokens and `Task.WhenAny`;
  - the session's run loop is a fold over the events it dequeues.
- Overlapping receives are not modelled. The message loop starts a new
  `ReceiveMessageAsync` on every iteration (WebSockets/SessionClient.cs:144)
  and awaits it only when it is the task that completes. After an iteration
  woken by a timer tick or by outbound messages, the earlier receive
  (WebSockets/SessionClient.cs:237-282) is still pending. The WebSocket queues
  a second receive behind it, so the connection stays open, but that earlier
  receive probably takes the next client frame and nobody reads its result.
  So after every tick or outbound wake-up, the next frame (the Pong answering
  that Ping, or a Lock) is probably lost. The model's loop treats every
  wake-up as a whole event and loses no frame. One consequence for the
  heartbeat: with only the first-ping correction, a client whose only frames
  are Pongs could still be timed out, because each Pong may be swallowed.
- `ConcurrentDictionary.GetOrAdd` may run its factory more than once under
  contention, starting a session that is then discarded. The registry is
  modelled one call at a time.
- Sessions are never removed when their last client leaves. Only shutdown
  removes them, as in the code.
- Foreign code is a parameter or is left abstract:
  - JSON text, UTF-8 and `System.Text.Json` parsing;
  - Base64, PBKDF2 and `RandomNumberGenerator`;
  - `IPAddress.TryParse`;
  - the clock.
  `CryptographicOperations.FixedTimeEquals` is sequence equality, and its
  timing is not modelled.
- Send failures are not modelled. A failed Ping send, which the code only
  logs, does not appear.
- Logging (`Console.WriteLine` and `ILogger`) is not modelled.
- Culture is ignored, so the model is culture-neutral and compares ordinally:
  - the culture-sensitive `string.StartsWith("Bearer ")`;
  - `int.TryParse` under the current culture;
  - the non-ASCII case folding of `OrdinalIgnoreCase`.
- Configuration.ParseServiceType: numbers other than 0, 1 and 2, which
  `Enum.TryParse` accepts as undefined enum values, and comma-separated
  combinations of names are not recognised.
- The EF Core repositories' queries and the HTTP controllers are not part of
  this model. Only the mapping helpers of the EF repository file are modelled.
- The `DbNote` entity declared in the entity file has no workspace or
  position columns. The mapping helpers read and write them, so the model's
  row has them.
- The `AccessLevel` enum declaration is not part of this model. Its four
  members Read, Write, Admin and Owner are taken from the level names that
  `Parse` recognises.
- Note positions are 32-bit floats. They are kept as uninterpreted `bv32`
  values and are only copied.
- Messages.Decode: property names are matched exactly. The handler's
  serializer options (WebSockets/SessionClient.cs:15-18) match them in any
  letter case, so a frame spelling a property in another case is modelled as
  lacking it. A JSON object is modelled as an unordered map, so "type" is
  accepted anywhere in the frame. System.Text.Json by default requires the
  discriminator to be the first property when reading the abstract message
  type, and fails otherwise; the handler reads that failure as null, which
  rejects a first frame and ends the loop for a later one.
- Messages.Encode: models serialization through the polymorphic base record,
  discriminator included. The handler passes outgoing messages typed as
  `object` (WebSockets/SessionClient.cs:284-288); how System.Text.Json writes
  those, likely by runtime type and without "type", is not modelled.
- LiveSession.SortedIds: the SessionInfo user list follows `Dictionary`
  enumeration order in the code. The model lists users in ascending id order
  and states only that every present user appears exactly once.
- PasswordHasher.VerifyHash: assumes Base64 decodes what it encodes, within
  its own alphabet, and PBKDF2 returns the requested length. These are the
  standard guarantees of RFC 4648 and RFC 8018, not proved here.

## Findings

| source | as written | input that shows it | evidently intended | confidence | as-written member | corrected member |
|---|---|---|---|---|---|---|
| backend/Grahplet/Grahplet/WebSockets/SessionClient.cs:211-235 | every heartbeat tick that does not time out sends a Ping and overwrites the last-ping time, even while an earlier ping is unanswered | a client that never sends Pong, with the timer ticking every 5 s: at each tick only 5 s have passed since the previous ping, never more than 10 s, so `HandlePingTimerAsync` alone never times it out (the overlapping receive described under Left out swallows frames but does not close the connection either) | close a client whose first unanswered ping is more than 10 s old | high; not executed | SessionClient.PingTick, SessionClient.SilentClientIsNeverTimedOut, SessionClient.SilentClientInTheLoop | SessionClient.PingTickKeepingFirst, SessionClient.SilentClientTimesOut |

The message loop takes the heartbeat as a flag: `SessionClient.Loop` and
`SessionClient.Lifecycle` with `keepFirst` false are the handler as written,
and with `keepFirst` true the corrected handler. The teardown rule holds for
both.

=== FILE: auth_middleware.dfy ===
/** The request filter that binds the caller's user id from a bearer token.
    It never rejects a request: it only decides whether the handler that runs
    next sees a user id. */
module AuthenticationMiddleware {
  import opened Wrappers
  import opened Ids
  import opened Text
  import InMemoryAuthRepository

  const LoginPath := "/api/login"
  const BearerPrefix := "Bearer "

  /** `PathString.StartsWithSegments`: the path begins with `segments`,
      ignoring letter case, and either ends there or continues with '/'. */
  predicate StartsWithSegments(path: string, segments: string) {
    && |segments| <= |path|
    && EqualsIgnoreCase(path[..|segments|], segments)
    && (|path| == |segments| || path[|segments|] == '/')
  }

  /** The token of an Authorization header: the text after "Bearer " when the
      header starts with it (letter case counts), else the whole header. */
  function TokenOf(header: string): (r: string)
    ensures StartsWith(header, BearerPrefix) ==> BearerPrefix + r == header
    ensures !StartsWith(header, BearerPrefix) ==> r == header
  {
    if StartsWith(header, BearerPrefix) then header[|BearerPrefix|..] else header
  }

  /** A token sent with the prefix comes back unchanged. */
  lemma TokenOfBearer(token: string)
    ensures TokenOf(BearerPrefix + token) == token
  {
    assert (BearerPrefix + token)[..|BearerPrefix|] == BearerPrefix;
  }

  /** One request through the filter: its path and the values of its
      Authorization header. The result is the user id bound for the next
      handler, if any; `validate` and `resolve` are the auth repository's token
      check and token-to-id lookup. The next handler always runs. */
  function Invoke(path: string, authorization: seq<string>,
                  validate: string -> bool, resolve: string -> Option<UserId>): (r: Option<UserId>)
    ensures StartsWithSegments(path, LoginPath) ==> r.None?
    ensures (|authorization| == 0 || |authorization[0]| == 0) ==> r.None?
    ensures r.Some? <==>
              && !StartsWithSegments(path, LoginPath)
              && |authorization| > 0 && |authorization[0]| > 0
              && validate(TokenOf(authorization[0]))
              && resolve(TokenOf(authorization[0])).Some?
    ensures r.Some? ==> r == resolve(TokenOf(authorization[0]))
  {
    if StartsWithSegments(path, LoginPath) then None
    else if |authorization| == 0 || IsNullOrEmpty(Some(authorization[0])) then None
    else
      var token := TokenOf(authorization[0]);
      if validate(token) then resolve(token) else None
  }

  /** The login endpoint and everything under it is let through anonymously,
      in any letter case; a path that merely shares the prefix is not. */
  lemma LoginPathExamples()
    ensures StartsWithSegments("/api/login", LoginPath)
    ensures StartsWithSegments("/API/Login/refresh", LoginPath)
    ensures !StartsWithSegments("/api/logins", LoginPath)
    ensures !StartsWithSegments("/api", LoginPath)
  {
    assert ("/API/Login/refresh")[..10] == "/API/Login";
    assert ("/api/logins")[10] == 's';
  }

  /** Against the in-memory auth repository: after a successful login, a
      request outside the login path carrying "Bearer <token>" is bound to the
      user's id (unless that id is the empty Guid); once the token is logged
      out the same request is anonymous. */
  lemma LoggedInRequestIsBound(s: InMemoryAuthRepository.AuthStore, email: string, password: string, newId: Guid, path: string)
    requires InMemoryAuthRepository.Valid(s)
    requires !StartsWithSegments(path, LoginPath)
    ensures var login := InMemoryAuthRepository.LoginUser(s, email, password, newId);
            var store := login.store;
            var header := [BearerPrefix + login.token];
            && (login.success ==>
                  Invoke(path, header, t => InMemoryAuthRepository.ValidateToken(store, t),
                         t => InMemoryAuthRepository.GetUserIdFromToken(store, t))
                  == InMemoryAuthRepository.GetUserIdFromToken(store, login.token))
            && (login.success && store.tokens[login.token] != EmptyGuid ==>
                  Invoke(path, header, t => InMemoryAuthRepository.ValidateToken(store, t),
                         t => InMemoryAuthRepository.GetUserIdFromToken(store, t))
                  == Some(store.tokens[login.token]))
            && var gone := InMemoryAuthRepository.Logout(store, login.token);
               Invoke(path, header, t => InMemoryAuthRepository.ValidateToken(gone, t),
                      t => InMemoryAuthRepository.GetUserIdFromToken(gone, t)).None?
  {
    var login := InMemoryAuthRepository.LoginUser(s, email, password, newId);
    TokenOfBearer(login.token);
    InMemoryAuthRepository.LoginSucceedsIffCredentialsMatch(s, email, password, newId);
    InMemoryAuthRepository.LogoutInvalidates(login.store, login.token);
  }
}

=== FILE: configuration.dfy ===
/** The process-wide settings and how they are read from the host's
    configuration keys. Each key overrides its default only when it holds a
    usable value; anything else leaves the current value in place. */
module Configuration {
  import opened Wrappers
  import opened Text

  /** The roles a process may be started in. */
  datatype ServiceType = Api | Event | SessionWorker

  /** The enum member names, as the configuration spells them. */
  function ServiceTypeName(t: ServiceType): string {
    match t
    case Api => "API"
    case Event => "EVENT"
    case SessionWorker => "SESSION_WORKER"
  }

  /** The enum members' underlying values, in declaration order. */
  function Ordinal(t: ServiceType): int {
    match t
    case Api => 0
    case Event => 1
    case SessionWorker => 2
  }

  /** An IP address, as its bytes (4 for IPv4, 16 for IPv6). */
  datatype IpAddress = IpAddress(bytes: seq<bv8>)

  const Loopback := IpAddress([127, 0, 0, 1])

  datatype Settings = Settings(
    hostAddress: IpAddress,
    port: int,
    allowedServiceTypes: seq<ServiceType>,
    natsUrl: string,
    connectionString: string,
    sessionLengthDays: int)

  const Defaults := Settings(Loopback, 5000, [Api], "", "", 7)

  /** The configuration keys: flat values by key ("Port", "Nats:Url", ...), and
      the "AllowedServiceTypes" section, if it exists, as its children's values
      (a child without a value is null). */
  datatype Source = Source(values: map<string, string>, allowedSection: Option<seq<Option<string>>>)

  function Lookup(c: Source, key: string): Option<string> {
    if key in c.values then Some(c.values[key]) else None
  }

  /** What every settings instance satisfies: a positive port and session
      length, and at least one allowed service type. */
  predicate Valid(s: Settings) {
    s.port > 0 && s.sessionLengthDays > 0 && |s.allowedServiceTypes| > 0
  }

  // ---------------------------------------------------------------------------
  // Service types
  // ---------------------------------------------------------------------------

  function TrimWhiteStart(s: string): (r: string)
    ensures |r| <= |s|
    decreases |s|
  {
    if |s| > 0 && IsWhiteSpace(s[0]) then TrimWhiteStart(s[1..]) else s
  }

  function TrimWhite(s: string): (r: string)
    decreases |s|
  {
    var t := TrimWhiteStart(s);
    if |t| > 0 && IsWhiteSpace(t[|t| - 1]) then TrimWhite(t[..|t| - 1]) else t
  }

  /** `Enum.TryParse<ServiceType>(value, ignoreCase: true)` behind the
      null-or-white-space guard: a member name, in any letter case, with any
      surrounding white space, or the decimal text of a member's underlying
      value (0, 1 or 2, signs and surrounding white space allowed). */
  function ParseServiceType(value: Option<string>): (r: Option<ServiceType>)
    ensures r.Some? ==>
              && !IsNullOrWhiteSpace(value)
              && (|| EqualsIgnoreCase(TrimWhite(value.value), ServiceTypeName(r.value))
                  || TryParseInt32(Some(TrimWhite(value.value))) == Some(Ordinal(r.value)))
    ensures r.None? ==>
              || IsNullOrWhiteSpace(value)
              || forall t: ServiceType ::
                   && !EqualsIgnoreCase(TrimWhite(value.value), ServiceTypeName(t))
                   && TryParseInt32(Some(TrimWhite(value.value))) != Some(Ordinal(t))
  {
    if IsNullOrWhiteSpace(value) then None
    else
      var v := TrimWhite(value.value);
      if EqualsIgnoreCase(v, "API") then Some(Api)
      else if EqualsIgnoreCase(v, "EVENT") then Some(Event)
      else if EqualsIgnoreCase(v, "SESSION_WORKER") then Some(SessionWorker)
      else match TryParseInt32(Some(v))
        case Some(0) => Some(Api)
        case Some(1) => Some(Event)
        case Some(2) => Some(SessionWorker)
        case _ => None
  }

  /** The recognised children of the section: a type is in the result exactly
      when some child names it, and no child yields more than one entry. */
  function ServiceTypes(children: seq<Option<string>>): (r: seq<ServiceType>)
    ensures |r| <= |children|
    ensures forall t :: t in r <==> exists i :: 0 <= i < |children| && ParseServiceType(children[i]) == Some(t)
    decreases |children|
  {
    if |children| == 0 then []
    else
      var rest := ServiceTypes(children[1..]);
      assert forall i :: 1 <= i < |children| ==> children[i] == children[1..][i - 1];
      match ParseServiceType(children[0])
      case Some(t) => [t] + rest
      case None => rest
  }

  /** The result lists the recognised children in the order they appear: the
      types of two runs of children, one after the other, are the types of the
      first run followed by those of the second. */
  lemma {:induction false} ServiceTypesKeepsOrder(a: seq<Option<string>>, b: seq<Option<string>>)
    ensures ServiceTypes(a + b) == ServiceTypes(a) + ServiceTypes(b)
    decreases |a|
  {
    if |a| == 0 {
      assert a + b == b;
    } else {
      assert (a + b)[0] == a[0];
      assert (a + b)[1..] == a[1..] + b;
      ServiceTypesKeepsOrder(a[1..], b);
    }
  }

  lemma ParseLowerCaseName()
    ensures ParseServiceType(Some("api")) == Some(Api)
  {
    assert !IsWhiteSpace("api"[0]);
    assert TrimWhite("api") == "api";
    assert EqualsIgnoreCase("api", "API") by {
      assert UpperAscii('a') == 'A' && UpperAscii('p') == 'P' && UpperAscii('i') == 'I';
    }
  }

  lemma ParsePaddedName()
    ensures ParseServiceType(Some(" Event ")) == Some(Event)
  {
    assert !IsWhiteSpace(" Event "[1]);
    assert TrimWhite(" Event ") == "Event" by {
      assert TrimWhiteStart(" Event ") == "Event ";
      assert ("Event ")[..5] == "Event";
      assert TrimWhiteStart("Event") == "Event";
    }
    assert !EqualsIgnoreCase("Event", "API");
    assert EqualsIgnoreCase("Event", "EVENT") by {
      assert UpperAscii('v') == 'V' && UpperAscii('e') == 'E' && UpperAscii('n') == 'N' && UpperAscii('t') == 'T';
    }
  }

  lemma ParseUnknownName()
    ensures ParseServiceType(Some("worker")) == None
  {
    assert !IsWhiteSpace("worker"[0]);
    assert TrimWhite("worker") == "worker";
    assert UpperAscii("worker"[0]) == 'W';
  }

  /** The numeric text of a member's value names it too. */
  lemma ParseNumericName()
    ensures ParseServiceType(Some("2")) == Some(SessionWorker)
  {
    assert !IsWhiteSpace("2"[0]);
    assert TrimWhite("2") == "2";
    assert TryParseInt32(Some("2")) == Some(2) by {
      assert TrimEnd(TrimStart("2")) == "2";
      assert AllDigits("2");
      assert DigitsValue("2") == 2;
    }
  }

  /** Names in any letter case and with surrounding blanks are recognised;
      blanks, nulls and unknown names are skipped. */
  lemma ServiceTypesExample()
    ensures ServiceTypes([Some("api"), Some(" Event "), None, Some("  "), Some("worker")]) == [Api, Event]
  {
    ParseLowerCaseName();
    ParsePaddedName();
    ParseUnknownName();
    assert ParseServiceType(Some("  ")) == None by { assert IsWhiteSpace("  "[0]) && IsWhiteSpace("  "[1]); }
    var cs := [Some("api"), Some(" Event "), None, Some("  "), Some("worker")];
    assert ServiceTypes(cs[4..]) == [];
    assert cs[3..][1..] == cs[4..];
    assert ServiceTypes(cs[3..]) == [];
    assert cs[2..][1..] == cs[3..];
    assert ServiceTypes(cs[2..]) == [];
    assert cs[1..][1..] == cs[2..];
    assert ServiceTypes(cs[1..]) == [Event];
    assert cs[1..] == cs[1..];
  }

  // ---------------------------------------------------------------------------
  // Loading
  // ---------------------------------------------------------------------------

  /** An `int.TryParse` result that is positive. */
  function PositiveInt(value: Option<string>): (r: Option<int>)
    ensures r.Some? <==> TryParseInt32(value).Some? && TryParseInt32(value).value > 0
    ensures r.Some? ==> r == TryParseInt32(value)
  {
    match TryParseInt32(value)
    case Some(n) => if n > 0 then Some(n) else None
    case None => None
  }

  /** A value that is not null or white space. */
  function NonBlank(value: Option<string>): (r: Option<string>)
    ensures r.Some? <==> !IsNullOrWhiteSpace(value)
    ensures r.Some? ==> r == value
  {
    if IsNullOrWhiteSpace(value) then None else value
  }

  /** Applies a configuration to the current settings. A null configuration is
      an error. `parseIp` is `IPAddress.TryParse`. Each setting is replaced
      only by a usable value: a parsable, non-blank host address; a positive
      int port and session length; a section naming at least one known
      service type; a non-blank NATS URL and connection string. */
  function Load(prev: Settings, config: Option<Source>, parseIp: string -> Option<IpAddress>): (r: Result<Settings, string>)
    ensures r.Err? <==> config.None?
    ensures r.Ok? ==>
              var c := config.value;
              var host := NonBlank(Lookup(c, "HostAddress"));
              && (host.Some? && parseIp(host.value).Some? ==> r.value.hostAddress == parseIp(host.value).value)
              && (r.value.hostAddress != prev.hostAddress ==> host.Some? && parseIp(host.value) == Some(r.value.hostAddress))
    ensures r.Ok? ==>
              var c := config.value;
              && (r.value.port != prev.port ==> TryParseInt32(Lookup(c, "Port")) == Some(r.value.port) && r.value.port > 0)
              && (PositiveInt(Lookup(c, "Port")).Some? ==> r.value.port == PositiveInt(Lookup(c, "Port")).value)
              && (r.value.sessionLengthDays != prev.sessionLengthDays ==>
                    TryParseInt32(Lookup(c, "SessionLengthDays")) == Some(r.value.sessionLengthDays) && r.value.sessionLengthDays > 0)
              && (PositiveInt(Lookup(c, "SessionLengthDays")).Some? ==>
                    r.value.sessionLengthDays == PositiveInt(Lookup(c, "SessionLengthDays")).value)
    ensures r.Ok? ==>
              var c := config.value;
              && (r.value.allowedServiceTypes != prev.allowedServiceTypes ==>
                    c.allowedSection.Some? && r.value.allowedServiceTypes == ServiceTypes(c.allowedSection.value))
              && (c.allowedSection.Some? && |ServiceTypes(c.allowedSection.value)| > 0 ==>
                    r.value.allowedServiceTypes == ServiceTypes(c.allowedSection.value))
    ensures r.Ok? ==>
              var c := config.value;
              && (r.value.natsUrl != prev.natsUrl ==> Lookup(c, "Nats:Url") == Some(r.value.natsUrl) && !IsNullOrWhiteSpace(Some(r.value.natsUrl)))
              && (!IsNullOrWhiteSpace(Lookup(c, "Nats:Url")) ==> Some(r.value.natsUrl) == Lookup(c, "Nats:Url"))
              && (r.value.connectionString != prev.connectionString ==>
                    Lookup(c, "Database:ConnectionString") == Some(r.value.connectionString) &&
                    !IsNullOrWhiteSpace(Some(r.value.connectionString)))
              && (!IsNullOrWhiteSpace(Lookup(c, "Database:ConnectionString")) ==>
                    Some(r.value.connectionString) == Lookup(c, "Database:ConnectionString"))
  {
    if config.None? then Err("configuration")
    else
      var c := config.value;
      var host := match NonBlank(Lookup(c, "HostAddress"))
        case Some(h) => parseIp(h).GetOr(prev.hostAddress)
        case None => prev.hostAddress;
      var port := PositiveInt(Lookup(c, "Port")).GetOr(prev.port);
      var days := PositiveInt(Lookup(c, "SessionLengthDays")).GetOr(prev.sessionLengthDays);
      var types := match c.allowedSection
        case Some(children) =>
          var parsed := ServiceTypes(children);
          if |parsed| > 0 then parsed else prev.allowedServiceTypes
        case None => prev.allowedServiceTypes;
      var nats := NonBlank(Lookup(c, "Nats:Url")).GetOr(prev.natsUrl);
      var conn := NonBlank(Lookup(c, "Database:ConnectionString")).GetOr(prev.connectionString);
      Ok(Settings(host, port, types, nats, conn, days))
  }

  /** Loading never breaks the settings invariant, starting from the defaults
      or from any earlier load. */
  lemma LoadKeepsValid(prev: Settings, config: Option<Source>, parseIp: string -> Option<IpAddress>)
    requires Valid(prev)
    ensures Valid(Defaults)
    ensures Load(prev, config, parseIp).Ok? ==> Valid(Load(prev, config, parseIp).value)
  {
  }

  /** Loading the same configuration twice is the same as loading it once. */
  lemma LoadIsIdempotent(prev: Settings, c: Source, parseIp: string -> Option<IpAddress>)
    ensures var once := Load(prev, Some(c), parseIp).value;
            Load(once, Some(c), parseIp) == Ok(once)
  {
  }

  /** A configuration without any of the keys leaves every setting alone. */
  lemma EmptySourceChangesNothing(prev: Settings, parseIp: string -> Option<IpAddress>)
    ensures Load(prev, Some(Source(map[], None)), parseIp) == Ok(prev)
  {
  }
}

=== FILE: ef_helpers.dfy ===
// The pure helpers of the Entity Framework repositories: access-level
// comparison and parsing, and the mapping between stored rows and models
// for tags (with their "r,g,b" colour text) and notes.

module AccessLevelHelper {
  import opened Wrappers

  datatype AccessLevel = Read | Write | Admin | Owner

  /** The enum member's name, as `ToString` gives it. */
  function Name(l: AccessLevel): string {
    match l
    case Read => "Read"
    case Write => "Write"
    case Admin => "Admin"
    case Owner => "Owner"
  }

  /** The levels from weakest to strongest. */
  const LevelNames: seq<string> := ["Read", "Write", "Admin", "Owner"]

  /** Position in the order Read < Write < Admin < Owner. */
  function Rank(l: AccessLevel): nat {
    match l
    case Read => 0
    case Write => 1
    case Admin => 2
    case Owner => 3
  }

  /** `Array.IndexOf`: the first position holding `s`, or -1. */
  function IndexOf(names: seq<string>, s: string): (r: int)
    ensures -1 <= r < |names|
    ensures r == -1 <==> s !in names
    ensures r >= 0 ==> names[r] == s && forall j :: 0 <= j < r ==> names[j] != s
    decreases |names|
  {
    if |names| == 0 then -1
    else if names[0] == s then 0
    else
      var i := IndexOf(names[1..], s);
      if i == -1 then -1 else i + 1
  }

  /** Whether `current` is at least `minimum`. No minimum (null or empty) is
      always met; a minimum naming no level sits below every level. */
  function MeetsMinimum(current: AccessLevel, minimum: Option<string>): (r: bool)
    ensures minimum.None? || minimum.value == "" ==> r
    ensures minimum.Some? && minimum.value !in LevelNames ==> r
  {
    if minimum.None? || minimum.value == "" then true
    else IndexOf(LevelNames, Name(current)) >= IndexOf(LevelNames, minimum.value)
  }

  /** A stored level name: the four names exactly, anything else reads as Read. */
  function Parse(level: string): (r: AccessLevel)
    ensures level !in LevelNames ==> r == Read
  {
    match level
    case "Read" => Read
    case "Write" => Write
    case "Admin" => Admin
    case "Owner" => Owner
    case _ => Read
  }

  lemma IndexOfName(l: AccessLevel)
    ensures IndexOf(LevelNames, Name(l)) == Rank(l)
  {
    match l
    case Read =>
    case Write => assert LevelNames[1..] == ["Write", "Admin", "Owner"];
    case Admin =>
      assert LevelNames[1..][1..] == ["Admin", "Owner"];
    case Owner =>
      assert LevelNames[1..][1..][1..] == ["Owner"];
  }

  /** Comparing against a named level follows the order of the levels:
      Owner meets every level, and Read meets only Read. */
  lemma MeetsMinimumFollowsOrder(current: AccessLevel, minimum: AccessLevel)
    ensures MeetsMinimum(current, Some(Name(minimum))) <==> Rank(current) >= Rank(minimum)
    ensures MeetsMinimum(Owner, Some(Name(minimum)))
    ensures MeetsMinimum(Read, Some(Name(minimum))) <==> minimum == Read
  {
    IndexOfName(current);
    IndexOfName(minimum);
    IndexOfName(Owner);
    IndexOfName(Read);
  }

  /** Parsing a level's own name gives the level back; the names are exactly
      the four listed. */
  lemma ParseName(l: AccessLevel)
    ensures Parse(Name(l)) == l
    ensures Name(l) in LevelNames
  {
  }
}

module EfMap {
  import opened Wrappers
  import opened Ids
  import opened Text

  // ---------------------------------------------------------------------------
  // Tags and their colour text
  // ---------------------------------------------------------------------------

  /** A stored tag; the colour is kept as text. */
  datatype DbTag = DbTag(id: TagId, name: string, color: Option<string>)

  /** A tag as the API sees it; the colour is an array of ints, RGB. */
  datatype Tag = Tag(id: TagId, name: string, color: seq<Int32>)

  function FormatAll(color: seq<Int32>): (r: seq<string>)
    ensures |r| == |color| && forall i :: 0 <= i < |color| ==> r[i] == FormatInt(color[i])
  {
    seq(|color|, i requires 0 <= i < |color| => FormatInt(color[i]))
  }

  /** The tag repository's colour text: the numbers joined with commas, and
      "0,0,0" for a null array. */
  function ColorToString(color: Option<seq<Int32>>): (r: string)
    ensures color.None? ==> r == "0,0,0"
  {
    var parts := FormatAll(color.GetOr([0, 0, 0]));
    if color.None? then
      ZeroColorText();
      "0,0,0"
    else Join(parts, ',')
  }

  /** The colour text of [0, 0, 0], and its parts. */
  lemma ZeroColorText()
    ensures Join(FormatAll([0, 0, 0]), ',') == "0,0,0"
    ensures Split("0,0,0", ',') == ["0", "0", "0"]
  {
    var parts := FormatAll([0, 0, 0]);
    assert FormatInt(0) == "0";
    assert parts == ["0", "0", "0"];
    assert Join(parts[2..], ',') == "0";
    assert Join(parts[1..], ',') == "0,0";
    assert Join(parts, ',') == "0,0,0";
    SplitJoin(parts, ',');
  }

  /** Component `i` of a colour text split at commas: the part parsed as an
      int, or 0 when it is missing or does not parse. */
  function Component(parts: seq<string>, i: nat): (r: Int32)
    ensures i < |parts| && TryParseInt32(Some(parts[i])).Some? ==> r == TryParseInt32(Some(parts[i])).value
    ensures i >= |parts| || TryParseInt32(Some(parts[i])).None? ==> r == 0
  {
    if i < |parts| then TryParseInt32(Some(parts[i])).GetOr(0) else 0
  }

  /** A stored tag as a model: a null colour is "0,0,0", the text is split at
      commas and the first three parts become the colour. */
  function TagToModel(e: DbTag): (r: Tag)
    ensures r.id == e.id && r.name == e.name && |r.color| == 3
    ensures e.color.None? ==> r.color == [0, 0, 0]
  {
    var parts := Split(e.color.GetOr("0,0,0"), ',');
    ZeroColorText();
    assert TryParseInt32(Some("0")) == Some(0) by {
      ParseFormatInt32(0);
    }
    Tag(e.id, e.name, [Component(parts, 0), Component(parts, 1), Component(parts, 2)])
  }

  lemma NoCommaInFormatted(color: seq<Int32>)
    ensures forall i :: 0 <= i < |color| ==> ',' !in FormatAll(color)[i]
  {
    forall i | 0 <= i < |color| ensures ',' !in FormatAll(color)[i] {
      var f := FormatInt(color[i]);
      assert forall k :: 0 <= k < |f| ==> f[k] != ',';
    }
  }

  /** A colour's text splits back into the numbers' own texts. */
  lemma ColorTextParts(color: seq<Int32>)
    ensures |color| == 0 ==> Split(ColorToString(Some(color)), ',') == [""]
    ensures |color| > 0 ==> Split(ColorToString(Some(color)), ',') == FormatAll(color)
  {
    if |color| == 0 {
      assert ColorToString(Some(color)) == "";
    } else {
      NoCommaInFormatted(color);
      SplitJoin(FormatAll(color), ',');
    }
  }

  /** Storing a colour and reading it back gives its first three numbers, and
      0 for any the array does not have. In particular every 3-element colour
      survives the round trip. */
  lemma ColorRoundTrip(id: TagId, name: string, color: seq<Int32>)
    ensures var back := TagToModel(DbTag(id, name, Some(ColorToString(Some(color))))).color;
            forall i :: 0 <= i < 3 ==> back[i] == if i < |color| then color[i] else 0
    ensures |color| == 3 ==> TagToModel(DbTag(id, name, Some(ColorToString(Some(color))))).color == color
  {
    var parts := Split(ColorToString(Some(color)), ',');
    var back := TagToModel(DbTag(id, name, Some(ColorToString(Some(color))))).color;
    assert back == [Component(parts, 0), Component(parts, 1), Component(parts, 2)];
    ColorTextParts(color);
    ComponentOfText(color, 0);
    ComponentOfText(color, 1);
    ComponentOfText(color, 2);
  }

  /** Component `i` of a colour's text is the colour's number `i`, or 0. */
  lemma ComponentOfText(color: seq<Int32>, i: nat)
    requires Split(ColorToString(Some(color)), ',') == (if |color| == 0 then [""] else FormatAll(color))
    ensures Component(Split(ColorToString(Some(color)), ','), i) == if i < |color| then color[i] else 0
  {
    var parts := Split(ColorToString(Some(color)), ',');
    if |color| == 0 {
      assert TryParseInt32(Some(parts[0])) == None;
    } else if i < |color| {
      ParseFormatInt32(color[i]);
    }
  }

  // ---------------------------------------------------------------------------
  // Notes
  // ---------------------------------------------------------------------------

  /** A note position coordinate: a 32-bit float, kept opaque. */
  type Float = bv32

  datatype FileInfo = FileInfo(id: Guid, filename: string, contentType: string, contentUrl: string)

  datatype NoteRelation = NoteRelation(id: Guid, connection: seq<NoteId>, name: string)

  /** A stored note: the file is flattened into four nullable columns. */
  datatype DbNote = DbNote(id: NoteId, name: string, kind: string, value: Option<string>,
                           fileId: Option<Guid>, fileFilename: Option<string>,
                           fileContentType: Option<string>, fileContentUrl: Option<string>,
                           workspaceId: WorkspaceId, positionX: Float, positionY: Float)

  /** A new, empty row. */
  const NewDbNote := DbNote(EmptyGuid, "", "", None, None, None, None, None, EmptyGuid, 0, 0)

  datatype Note = Note(id: NoteId, name: string, kind: string, value: Option<string>,
                       file: Option<FileInfo>, workspaceId: WorkspaceId,
                       positionX: Float, positionY: Float,
                       tags: seq<Tag>, relations: seq<NoteRelation>)

  datatype NoteCreate = NoteCreate(name: string, kind: string, value: Option<string>,
                                   file: Option<FileInfo>, positionX: Float, positionY: Float,
                                   tags: Option<seq<TagId>>)

  datatype NoteUpdate = NoteUpdate(name: Option<string>, kind: Option<string>, value: Option<string>,
                                   file: Option<FileInfo>,
                                   positionX: Option<Float>, positionY: Option<Float>)

  /** A stored note has a file when it has a file id or a non-empty file name. */
  predicate HasFile(n: DbNote) {
    n.fileId.Some? || !IsNullOrEmpty(n.fileFilename)
  }

  /** A stored note as a model, with its tags and relations supplied. A file is
      attached iff the row has one; its missing columns read as empty. */
  function NoteToModel(n: DbNote, tags: seq<Tag>, relations: seq<NoteRelation>): (r: Note)
    ensures r.file.Some? <==> HasFile(n)
    ensures r.file.Some? ==>
              && r.file.value.id == n.fileId.GetOr(EmptyGuid)
              && r.file.value.filename == n.fileFilename.GetOr("")
              && r.file.value.contentType == n.fileContentType.GetOr("")
              && r.file.value.contentUrl == n.fileContentUrl.GetOr("")
    ensures && r.id == n.id && r.name == n.name && r.kind == n.kind && r.value == n.value
            && r.workspaceId == n.workspaceId && r.positionX == n.positionX && r.positionY == n.positionY
            && r.tags == tags && r.relations == relations
  {
    var file := if HasFile(n)
      then Some(FileInfo(n.fileId.GetOr(EmptyGuid), n.fileFilename.GetOr(""),
                         n.fileContentType.GetOr(""), n.fileContentUrl.GetOr("")))
      else None;
    Note(n.id, n.name, n.kind, n.value, file, n.workspaceId, n.positionX, n.positionY, tags, relations)
  }

  /** The file columns written for a supplied file. */
  function WithFile(e: DbNote, f: FileInfo, id: Guid): DbNote {
    e.(fileId := Some(id), fileFilename := Some(f.filename),
       fileContentType := Some(f.contentType), fileContentUrl := Some(f.contentUrl))
  }

  /** A create request written into a row: the row keeps its id unless it has
      none (then `freshNote`), every field is taken from the request, and a
      supplied file gets `freshFile` when its own id is empty. `freshNote` and
      `freshFile` stand for the new Guids the code draws. */
  function ApplyCreate(e: DbNote, m: NoteCreate, workspace: WorkspaceId, freshNote: Guid, freshFile: Guid): (r: DbNote)
    ensures r.id == (if e.id == EmptyGuid then freshNote else e.id)
    ensures && r.name == m.name && r.kind == m.kind && r.value == m.value
            && r.workspaceId == workspace && r.positionX == m.positionX && r.positionY == m.positionY
    ensures m.file.None? ==>
              && r.fileId == e.fileId && r.fileFilename == e.fileFilename
              && r.fileContentType == e.fileContentType && r.fileContentUrl == e.fileContentUrl
    ensures m.file.Some? ==>
              r.fileId == Some(if m.file.value.id == EmptyGuid then freshFile else m.file.value.id)
  {
    var e1 := e.(id := if e.id == EmptyGuid then freshNote else e.id,
                 name := m.name, kind := m.kind, value := m.value);
    var e2 := if m.file.Some?
      then WithFile(e1, m.file.value, if m.file.value.id == EmptyGuid then freshFile else m.file.value.id)
      else e1;
    e2.(workspaceId := workspace, positionX := m.positionX, positionY := m.positionY)
  }

  /** A created note reads back as the request: same text fields, positions and
      workspace, and the requested file (with its id filled in) or none. */
  lemma CreateReadsBack(m: NoteCreate, workspace: WorkspaceId, freshNote: Guid, freshFile: Guid,
                        tags: seq<Tag>, relations: seq<NoteRelation>)
    ensures var n := NoteToModel(ApplyCreate(NewDbNote, m, workspace, freshNote, freshFile), tags, relations);
            && n.id == freshNote && n.name == m.name && n.kind == m.kind && n.value == m.value
            && n.workspaceId == workspace && n.positionX == m.positionX && n.positionY == m.positionY
            && n.file == if m.file.None? then None
                         else Some(m.file.value.(id := if m.file.value.id == EmptyGuid then freshFile
                                                       else m.file.value.id))
  {
  }

  /** A partial update: name and kind only when not blank, value only when
      given, the file columns only when a file is given (an empty file id keeps
      the stored one, or draws `freshFile` if there is none), and each position
      only when given. Nothing else changes. */
  function ApplyUpdate(e: DbNote, m: NoteUpdate, freshFile: Guid): (r: DbNote)
    ensures r.name == (if !IsNullOrWhiteSpace(m.name) then m.name.value else e.name)
    ensures r.kind == (if !IsNullOrWhiteSpace(m.kind) then m.kind.value else e.kind)
    ensures r.value == (if m.value.Some? then m.value else e.value)
    ensures r.positionX == m.positionX.GetOr(e.positionX) && r.positionY == m.positionY.GetOr(e.positionY)
    ensures m.file.None? ==>
              && r.fileId == e.fileId && r.fileFilename == e.fileFilename
              && r.fileContentType == e.fileContentType && r.fileContentUrl == e.fileContentUrl
    ensures m.file.Some? ==>
              && r.fileId == Some(if m.file.value.id != EmptyGuid then m.file.value.id
                                  else e.fileId.GetOr(freshFile))
              && r.fileFilename == Some(m.file.value.filename)
              && r.fileContentType == Some(m.file.value.contentType)
              && r.fileContentUrl == Some(m.file.value.contentUrl)
    ensures r.id == e.id && r.workspaceId == e.workspaceId
  {
    var fileRow := if m.file.Some?
      then WithFile(e, m.file.value,
                    if m.file.value.id == EmptyGuid then e.fileId.GetOr(freshFile) else m.file.value.id)
      else e;
    fileRow.(name := if !IsNullOrWhiteSpace(m.name) then m.name.value else e.name,
             kind := if !IsNullOrWhiteSpace(m.kind) then m.kind.value else e.kind,
             value := if m.value.Some? then m.value else e.value,
             positionX := m.positionX.GetOr(e.positionX),
             positionY := m.positionY.GetOr(e.positionY))
  }

  /** An update that supplies nothing leaves the row as it was. */
  lemma EmptyUpdateChangesNothing(e: DbNote, freshFile: Guid)
    ensures ApplyUpdate(e, NoteUpdate(None, None, None, None, None, None), freshFile) == e
  {
  }

  /** Applying the same update twice is applying it once, even when the second
      application would draw a different file id. */
  lemma UpdateIsIdempotent(e: DbNote, m: NoteUpdate, fresh1: Guid, fresh2: Guid)
    ensures ApplyUpdate(ApplyUpdate(e, m, fresh1), m, fresh2) == ApplyUpdate(e, m, fresh1)
  {
  }

  /** After an update that supplies a file, the note has a file, and it is the
      supplied one except possibly for its id. */
  lemma UpdatedFileIsVisible(e: DbNote, m: NoteUpdate, freshFile: Guid,
                             tags: seq<Tag>, relations: seq<NoteRelation>)
    requires m.file.Some?
    ensures var n := NoteToModel(ApplyUpdate(e, m, freshFile), tags, relations);
            && n.file.Some?
            && n.file.value.(id := m.file.value.id) == m.file.value
            && (m.file.value.id != EmptyGuid ==> n.file.value == m.file.value)
  {
  }
}

=== FILE: ids.dfy ===
/** Identifiers. Every id in the system is a 128-bit Guid. */
module Ids {

  const GuidBound: nat := 0x1_0000_0000_0000_0000_0000_0000_0000_0000

  /** A Guid as the 128-bit number spelled by its 32 hex digits. */
  type Guid = g: nat | g < GuidBound

  /** `Guid.Empty`, the all-zero id used as "no id" throughout the source. */
  const EmptyGuid: Guid := 0

  type UserId = Guid
  type ConnectionId = Guid
  type NoteId = Guid
  type WorkspaceId = Guid
  type TagId = Guid

  function HexDigit(d: nat): char
    requires d < 16
  {
    if d < 10 then '0' + d as char else 'a' + (d - 10) as char
  }

  /** The `width` lowest hex digits of `n`, most significant first. */
  function Hex(n: nat, width: nat): (r: string)
    ensures |r| == width
  {
    if width == 0 then [] else Hex(n / 16, width - 1) + [HexDigit(n % 16)]
  }

  /** The "D" format of a Guid: 8-4-4-4-12 lower-case hex digits. */
  function FormatGuid(g: Guid): (r: string)
    ensures |r| == 36
  {
    var h := Hex(g, 32);
    h[..8] + "-" + h[8..12] + "-" + h[12..16] + "-" + h[16..20] + "-" + h[20..]
  }
}

=== FILE: in_memory_repositories.dfy ===
// The dictionary-backed repositories: users and tokens, workspaces, tags and
// notes (with their tag links and relations). Fresh Guids and the clock are
// parameters; every operation returns the new store with its result.

module InMemoryAuthRepository {
  import opened Wrappers
  import opened Ids
  import opened Lists

  datatype User = User(id: UserId, username: string, profilePicUrl: string,
                       email: string, password: string, lastSeen: int)

  /** Users by key, the order keys were first added in (the order a lookup
      enumerates them, since users are never removed), and tokens. */
  datatype AuthStore = AuthStore(users: map<Guid, User>, order: seq<Guid>, tokens: map<string, UserId>)

  /** The order lists each stored key exactly once. */
  ghost predicate Valid(s: AuthStore) {
    NoDuplicates(s.order) && (forall k :: k in s.order <==> k in s.users)
  }

  /** A new store holds the demo user under `demoId`, last seen at `now`. */
  function Initial(demoId: Guid, now: int): (r: AuthStore)
    ensures Valid(r) && r.tokens == map[]
    ensures r.users == map[demoId := User(demoId, "demo", "https://example.com/pic.jpg", "demo@example.com", "demo", now)]
  {
    AuthStore(map[demoId := User(demoId, "demo", "https://example.com/pic.jpg", "demo@example.com", "demo", now)],
              [demoId], map[])
  }

  predicate Matches(u: User, email: string, password: string) {
    u.email == email && u.password == password
  }

  /** The key at position `i` of the order holds a user with these
      credentials and no earlier key does. */
  predicate FirstMatchAt(users: map<Guid, User>, order: seq<Guid>, email: string, password: string, i: nat)
    requires i < |order|
  {
    && order[i] in users && Matches(users[order[i]], email, password)
    && forall j :: 0 <= j < i ==> !(order[j] in users && Matches(users[order[j]], email, password))
  }

  /** The first user, in enumeration order, with these credentials. */
  function FindUser(users: map<Guid, User>, order: seq<Guid>, email: string, password: string): (r: Option<User>)
    ensures r.Some? ==> Matches(r.value, email, password)
    ensures r.Some? ==> exists i :: 0 <= i < |order| && FirstMatchAt(users, order, email, password, i) && users[order[i]] == r.value
    ensures r.None? ==> forall k :: k in order && k in users ==> !Matches(users[k], email, password)
    decreases |order|
  {
    if |order| == 0 then None
    else
      assert forall k :: k in order <==> k == order[0] || k in order[1..];
      if order[0] in users && Matches(users[order[0]], email, password) then
        assert FirstMatchAt(users, order, email, password, 0);
        Some(users[order[0]])
      else
        var r := FindUser(users, order[1..], email, password);
        if r.Some? then
          var i :| 0 <= i < |order| - 1 && FirstMatchAt(users, order[1..], email, password, i) && users[order[1..][i]] == r.value;
          assert FirstMatchAt(users, order, email, password, i + 1);
          r
        else r
  }

  datatype Login = Login(store: AuthStore, success: bool, token: string)

  /** A login with matching credentials issues the text of the Guid `newId` as
      a token for that user's id; otherwise it fails with an empty token. */
  function LoginUser(s: AuthStore, email: string, password: string, newId: Guid): (r: Login)
    ensures !r.success ==> r == Login(s, false, "")
    ensures r.success ==> |r.token| == 36 && r.store.users == s.users && r.store.order == s.order
    ensures r.success ==>
              && r.token in r.store.tokens
              && exists k :: k in s.users && Matches(s.users[k], email, password) && r.store.tokens[r.token] == s.users[k].id
    ensures r.success <==> FindUser(s.users, s.order, email, password).Some?
    ensures r.success ==> r.store.tokens == s.tokens[r.token := FindUser(s.users, s.order, email, password).value.id]
  {
    match FindUser(s.users, s.order, email, password)
    case None => Login(s, false, "")
    case Some(u) =>
      var token := FormatGuid(newId);
      Login(s.(tokens := s.tokens[token := u.id]), true, token)
  }

  function Logout(s: AuthStore, token: string): (r: AuthStore)
    ensures token !in r.tokens && r.users == s.users && r.order == s.order
    ensures r.tokens.Keys == s.tokens.Keys - {token}
    ensures forall t :: t != token && t in s.tokens ==> t in r.tokens && r.tokens[t] == s.tokens[t]
  {
    s.(tokens := s.tokens - {token})
  }

  /** A token is valid while it is recorded, whatever id it maps to. */
  predicate ValidateToken(s: AuthStore, token: string) {
    token in s.tokens
  }

  /** The id behind a token; an unknown token, or one mapped to the empty
      Guid, gives null. */
  function GetUserIdFromToken(s: AuthStore, token: string): (r: Option<UserId>)
    ensures r.Some? <==> ValidateToken(s, token) && s.tokens[token] != EmptyGuid
    ensures r.Some? ==> r.value == s.tokens[token]
  {
    if token in s.tokens && s.tokens[token] != EmptyGuid then Some(s.tokens[token]) else None
  }

  /** Login succeeds exactly when some user has these credentials, and the
      issued token then validates and resolves to that user's id (an empty id
      resolves to nothing). */
  lemma LoginSucceedsIffCredentialsMatch(s: AuthStore, email: string, password: string, newId: Guid)
    requires Valid(s)
    ensures var r := LoginUser(s, email, password, newId);
            && (r.success <==> exists k :: k in s.users && Matches(s.users[k], email, password))
            && (r.success ==> ValidateToken(r.store, r.token))
            && (r.success ==> exists k :: (k in s.users && Matches(s.users[k], email, password) &&
                  GetUserIdFromToken(r.store, r.token) == (if s.users[k].id == EmptyGuid then None else Some(s.users[k].id))))
  {
    var r := LoginUser(s, email, password, newId);
    if !r.success {
      assert forall k :: k in s.users ==> k in s.order;
    }
  }

  /** After logging a token out it neither validates nor resolves. */
  lemma LogoutInvalidates(s: AuthStore, token: string)
    ensures !ValidateToken(Logout(s, token), token)
    ensures GetUserIdFromToken(Logout(s, token), token).None?
  {
  }

  predicate Clashes(s: AuthStore, username: string, email: string) {
    exists k :: k in s.users && (s.users[k].email == email || s.users[k].username == username)
  }

  datatype Creation = Creation(store: AuthStore, user: Option<User>)

  /** A new user, stored under the Guid `key`. An existing user with the same
      email or username refuses it (null, nothing changes). Adding a key that
      is already stored throws, which is the error case. */
  function CreateUser(s: AuthStore, username: string, email: string, password: string, key: Guid): (r: Result<Creation, string>)
    ensures Clashes(s, username, email) ==> r == Ok(Creation(s, None))
    ensures !Clashes(s, username, email) && key in s.users ==> r.Err?
    ensures !Clashes(s, username, email) && key !in s.users ==>
              && r.Ok? && r.value.user == Some(User(key, username, "", email, password, 0))
              && r.value.store.users == s.users[key := r.value.user.value]
              && r.value.store.order == s.order + [key]
              && r.value.store.tokens == s.tokens
  {
    if Clashes(s, username, email) then Ok(Creation(s, None))
    else if key in s.users then Err("An item with the same key has already been added.")
    else
      var u := User(key, username, "", email, password, 0);
      Ok(Creation(AuthStore(s.users[key := u], s.order + [key], s.tokens), Some(u)))
  }

  function GetUser(s: AuthStore, id: Guid): (r: Option<User>)
    ensures r.Some? <==> id in s.users
    ensures r.Some? ==> r.value == s.users[id]
  {
    if id in s.users then Some(s.users[id]) else None
  }

  /** Replaces a stored user, keeping its place in the order; an unknown id
      changes nothing and gives null. */
  function UpdateUser(s: AuthStore, id: Guid, user: User): (r: Creation)
    ensures id !in s.users ==> r == Creation(s, None)
    ensures id in s.users ==> r.user == Some(user) && r.store == s.(users := s.users[id := user])
  {
    if id in s.users then Creation(s.(users := s.users[id := user]), Some(user)) else Creation(s, None)
  }

  /** Replacing a stored user keeps the store valid and the replacement is
      what a lookup by that id then finds. */
  lemma UpdateUserKeepsValid(s: AuthStore, id: Guid, user: User)
    requires Valid(s)
    ensures var r := UpdateUser(s, id, user);
            && Valid(r.store)
            && (id in s.users ==> GetUser(r.store, id) == Some(user))
  {
    var r := UpdateUser(s, id, user);
    assert forall k :: k in r.store.users <==> k in s.users;
  }

  /** A created user can be fetched by its key, and the store stays valid; a
      refused one leaves the store as it was. */
  lemma CreatedUserIsStored(s: AuthStore, username: string, email: string, password: string, key: Guid)
    requires Valid(s)
    ensures var r := CreateUser(s, username, email, password, key);
            r.Ok? ==>
              && Valid(r.value.store)
              && (r.value.user.Some? ==> GetUser(r.value.store, key) == r.value.user)
              && (r.value.user.None? ==> r.value.store == s)
  {
    var r := CreateUser(s, username, email, password, key);
    if r.Ok? && r.value.user.Some? {
      var order := s.order + [key];
      forall i, j | 0 <= i < j < |order| ensures order[i] != order[j] {
        if j == |order| - 1 {
          assert order[i] in s.order;
        }
      }
    }
  }
}

module InMemoryWorkspaceRepository {
  import opened Wrappers
  import opened Lists
  import opened Ids
  import opened Text
  import opened OwnedStore

  datatype Workspace = Workspace(id: WorkspaceId, name: string)

  /** Workspaces by id, and for each user the ids they created. */
  type WorkspaceStore = Store<UserId, Workspace>

  function GetWorkspaces(s: WorkspaceStore, user: UserId): seq<Workspace> {
    All(s, user)
  }

  /** A workspace the user has on their list and that still exists. */
  function GetWorkspace(s: WorkspaceStore, user: UserId, id: WorkspaceId): (r: Option<Workspace>)
    ensures r.Some? <==> Listed(s, user, id) && id in s.items
    ensures r.Some? ==> r.value == s.items[id]
  {
    Get(s, user, id)
  }

  datatype Created = Created(store: WorkspaceStore, workspace: Workspace)

  /** A new workspace under the Guid `newId`, added to the creator's list. */
  function CreateWorkspace(s: WorkspaceStore, user: UserId, name: string, newId: Guid): (r: Created)
    ensures r.workspace == Workspace(newId, name)
    ensures r.store == Add(s, user, newId, r.workspace)
  {
    Created(Add(s, user, newId, Workspace(newId, name)), Workspace(newId, name))
  }

  /** The creator finds a created workspace. */
  lemma CreateThenGet(s: WorkspaceStore, user: UserId, name: string, newId: Guid)
    ensures var c := CreateWorkspace(s, user, name, newId);
            GetWorkspace(c.store, user, newId) == Some(Workspace(newId, name))
  {
    AddThenGet(s, user, newId, Workspace(newId, name));
  }

  datatype Updated = Updated(store: WorkspaceStore, workspace: Option<Workspace>)

  /** Renames a workspace the user can see; an empty or null name keeps the
      stored one (a blank but non-empty name is applied). */
  function UpdateWorkspace(s: WorkspaceStore, user: UserId, id: WorkspaceId, name: Option<string>): (r: Updated)
    ensures GetWorkspace(s, user, id).None? ==> r == Updated(s, None)
    ensures GetWorkspace(s, user, id).Some? ==>
              && r.workspace.Some?
              && r.workspace.value.id == s.items[id].id
              && r.workspace.value.name == (if IsNullOrEmpty(name) then s.items[id].name else name.value)
              && r.store == Replace(s, id, r.workspace.value)
  {
    match GetWorkspace(s, user, id)
    case None => Updated(s, None)
    case Some(w) =>
      var w' := if !IsNullOrEmpty(name) then w.(name := name.value) else w;
      Updated(Replace(s, id, w'), Some(w'))
  }

  /** After an update the user reads back the updated workspace, and the
      same update applied again changes nothing further. */
  lemma UpdateWorkspaceThenGet(s: WorkspaceStore, user: UserId, id: WorkspaceId, name: Option<string>)
    ensures var r := UpdateWorkspace(s, user, id, name);
            && GetWorkspace(r.store, user, id) == r.workspace
            && UpdateWorkspace(r.store, user, id, name) == r
  {
    var r := UpdateWorkspace(s, user, id, name);
    if r.workspace.Some? {
      assert GetWorkspace(r.store, user, id) == r.workspace;
      assert Replace(r.store, id, r.workspace.value) == r.store;
    }
  }

  /** Deletes a workspace on the user's list; anyone else's request is refused. */
  function DeleteWorkspace(s: WorkspaceStore, user: UserId, id: WorkspaceId): (r: Deletion<UserId, Workspace>)
    ensures !Listed(s, user, id) ==> r == Deletion(s, false)
    ensures Listed(s, user, id) ==>
              && r.deleted
              && r.store.items == s.items - {id}
              && r.store.index == s.index[user := RemoveFirst(s.index[user], id)]
  {
    Delete(s, user, id)
  }

  /** After a deletion nobody can fetch the workspace, and with repeat-free
      lists it is off the owner's list too. */
  lemma DeleteRemovesEverywhere(s: WorkspaceStore, user: UserId, id: WorkspaceId, anyone: UserId)
    requires Listed(s, user, id) && ListsAreSets(s)
    ensures GetWorkspace(DeleteWorkspace(s, user, id).store, anyone, id).None?
    ensures !Listed(DeleteWorkspace(s, user, id).store, user, id)
  {
    DeleteUnlists(s, user, id);
  }
}

module InMemoryTagRepository {
  import opened Wrappers
  import opened Lists
  import opened Ids
  import opened Text
  import opened OwnedStore
  import opened EfMap

  /** Tags by id, listed per (user, workspace) pair. */
  type TagStore = Store<(UserId, WorkspaceId), Tag>

  function GetTags(s: TagStore, user: UserId, workspace: WorkspaceId): seq<Tag> {
    All(s, (user, workspace))
  }

  function GetTag(s: TagStore, user: UserId, workspace: WorkspaceId, id: TagId): (r: Option<Tag>)
    ensures r.Some? <==> Listed(s, (user, workspace), id) && id in s.items
    ensures r.Some? ==> r.value == s.items[id]
  {
    Get(s, (user, workspace), id)
  }

  datatype Created = Created(store: TagStore, tag: Tag)

  function CreateTag(s: TagStore, user: UserId, workspace: WorkspaceId,
                     name: string, color: seq<Int32>, newId: Guid): (r: Created)
    ensures r.tag == Tag(newId, name, color)
    ensures r.store == Add(s, (user, workspace), newId, r.tag)
    ensures GetTag(r.store, user, workspace, newId) == Some(r.tag)
  {
    var tag := Tag(newId, name, color);
    AddThenGet(s, (user, workspace), newId, tag);
    Created(Add(s, (user, workspace), newId, tag), tag)
  }

  datatype Updated = Updated(store: TagStore, tag: Option<Tag>)

  /** Changes the name when it is neither null nor empty and the colour when
      one is given. */
  function UpdateTag(s: TagStore, user: UserId, workspace: WorkspaceId, id: TagId,
                     name: Option<string>, color: Option<seq<Int32>>): (r: Updated)
    ensures GetTag(s, user, workspace, id).None? ==> r == Updated(s, None)
    ensures GetTag(s, user, workspace, id).Some? ==>
              && r.tag.Some? && r.tag.value.id == s.items[id].id
              && r.tag.value.name == (if IsNullOrEmpty(name) then s.items[id].name else name.value)
              && r.tag.value.color == color.GetOr(s.items[id].color)
              && r.store == Replace(s, id, r.tag.value)
  {
    match GetTag(s, user, workspace, id)
    case None => Updated(s, None)
    case Some(t) =>
      var t1 := if !IsNullOrEmpty(name) then t.(name := name.value) else t;
      var t2 := if color.Some? then t1.(color := color.value) else t1;
      Updated(Replace(s, id, t2), Some(t2))
  }

  /** After an update the user reads back the updated tag, and the same
      update applied again changes nothing further. */
  lemma UpdateTagThenGet(s: TagStore, user: UserId, workspace: WorkspaceId, id: TagId,
                         name: Option<string>, color: Option<seq<Int32>>)
    ensures var r := UpdateTag(s, user, workspace, id, name, color);
            && GetTag(r.store, user, workspace, id) == r.tag
            && UpdateTag(r.store, user, workspace, id, name, color) == r
  {
    var r := UpdateTag(s, user, workspace, id, name, color);
    if r.tag.Some? {
      assert GetTag(r.store, user, workspace, id) == r.tag;
      assert Replace(r.store, id, r.tag.value) == r.store;
    }
  }

  function DeleteTag(s: TagStore, user: UserId, workspace: WorkspaceId, id: TagId): (r: Deletion<(UserId, WorkspaceId), Tag>)
    ensures !Listed(s, (user, workspace), id) ==> r == Deletion(s, false)
    ensures Listed(s, (user, workspace), id) ==>
              && r.deleted
              && r.store.items == s.items - {id}
              && r.store.index == s.index[(user, workspace) := RemoveFirst(s.index[(user, workspace)], id)]
  {
    Delete(s, (user, workspace), id)
  }

  /** After a deletion no user finds the tag in any workspace, and with
      repeat-free lists it is off the owner's list too. */
  lemma DeleteTagRemovesEverywhere(s: TagStore, user: UserId, workspace: WorkspaceId, id: TagId,
                                   anyone: UserId, anyWorkspace: WorkspaceId)
    requires Listed(s, (user, workspace), id) && ListsAreSets(s)
    ensures GetTag(DeleteTag(s, user, workspace, id).store, anyone, anyWorkspace, id).None?
    ensures !Listed(DeleteTag(s, user, workspace, id).store, (user, workspace), id)
  {
    DeleteUnlists(s, (user, workspace), id);
  }
}

module InMemoryNoteRepository {
  import opened Wrappers
  import opened Lists
  import opened Ids
  import opened Text
  import opened OwnedStore
  import opened EfMap

  datatype NoteStore = NoteStore(
    notes: Store<UserId, Note>,
    noteTags: set<(NoteId, TagId)>,
    relations: Store<NoteId, NoteRelation>)

  function GetNotes(s: NoteStore, user: UserId): seq<Note> {
    All(s.notes, user)
  }

  function GetNote(s: NoteStore, user: UserId, id: NoteId): (r: Option<Note>)
    ensures r.Some? <==> Listed(s.notes, user, id) && id in s.notes.items
    ensures r.Some? ==> r.value == s.notes.items[id]
  {
    Get(s.notes, user, id)
  }

  datatype Created = Created(store: NoteStore, note: Note)

  /** A new note under the Guid `newId` with the request's name, kind, value
      and file. The requested positions and tags are not used: the note starts
      at the origin with no workspace, tags or relations. */
  function CreateNote(s: NoteStore, user: UserId, m: NoteCreate, newId: Guid): (r: Created)
    ensures r.note == Note(newId, m.name, m.kind, m.value, m.file, EmptyGuid, 0, 0, [], [])
    ensures r.store.notes == Add(s.notes, user, newId, r.note)
    ensures GetNote(r.store, user, newId) == Some(r.note)
    ensures r.store.noteTags == s.noteTags && r.store.relations == s.relations
  {
    var note := Note(newId, m.name, m.kind, m.value, m.file, EmptyGuid, 0, 0, [], []);
    AddThenGet(s.notes, user, newId, note);
    Created(s.(notes := Add(s.notes, user, newId, note)), note)
  }

  datatype Updated = Updated(store: NoteStore, note: Option<Note>)

  /** Name and kind change when neither null nor empty, value and file when
      given. Positions never change, nor do tags, relations or anything else. */
  function UpdateNote(s: NoteStore, user: UserId, id: NoteId, m: NoteUpdate): (r: Updated)
    ensures GetNote(s, user, id).None? ==> r == Updated(s, None)
    ensures GetNote(s, user, id).Some? ==>
              var stored := s.notes.items[id];
              && r.note.Some?
              && r.note.value.name == (if IsNullOrEmpty(m.name) then stored.name else m.name.value)
              && r.note.value.kind == (if IsNullOrEmpty(m.kind) then stored.kind else m.kind.value)
              && r.note.value.value == (if m.value.Some? then m.value else stored.value)
              && r.note.value.file == (if m.file.Some? then m.file else stored.file)
              && r.note.value == stored.(name := r.note.value.name, kind := r.note.value.kind,
                                      value := r.note.value.value, file := r.note.value.file)
              && r.store == s.(notes := Replace(s.notes, id, r.note.value))
  {
    match GetNote(s, user, id)
    case None => Updated(s, None)
    case Some(n) =>
      var n1 := if !IsNullOrEmpty(m.name) then n.(name := m.name.value) else n;
      var n2 := if !IsNullOrEmpty(m.kind) then n1.(kind := m.kind.value) else n1;
      var n3 := if m.value.Some? then n2.(value := m.value) else n2;
      var n4 := if m.file.Some? then n3.(file := m.file) else n3;
      Updated(s.(notes := Replace(s.notes, id, n4)), Some(n4))
  }

  /** After an update the user reads back the updated note, and the same
      update applied again changes nothing further. */
  lemma UpdateNoteThenGet(s: NoteStore, user: UserId, id: NoteId, m: NoteUpdate)
    ensures var r := UpdateNote(s, user, id, m);
            && GetNote(r.store, user, id) == r.note
            && UpdateNote(r.store, user, id, m) == r
  {
    var r := UpdateNote(s, user, id, m);
    if r.note.Some? {
      assert GetNote(r.store, user, id) == r.note;
      assert Replace(r.store.notes, id, r.note.value) == r.store.notes;
    }
  }

  datatype Outcome = Outcome(store: NoteStore, ok: bool)

  function DeleteNote(s: NoteStore, user: UserId, id: NoteId): (r: Outcome)
    ensures !Listed(s.notes, user, id) ==> r == Outcome(s, false)
    ensures Listed(s.notes, user, id) ==>
              && r.ok
              && r.store.notes.items == s.notes.items - {id}
              && r.store.notes.index == s.notes.index[user := RemoveFirst(s.notes.index[user], id)]
              && r.store.noteTags == s.noteTags
              && r.store.relations == s.relations
  {
    var d := Delete(s.notes, user, id);
    Outcome(s.(notes := d.store), d.deleted)
  }

  /** After a deletion no user finds the note, none of its relations can be
      read any more (they stay stored), and with repeat-free lists it is off
      the owner's list. */
  lemma DeleteNoteRemovesEverywhere(s: NoteStore, user: UserId, id: NoteId, anyone: UserId, relation: Guid)
    requires Listed(s.notes, user, id) && ListsAreSets(s.notes)
    ensures var d := DeleteNote(s, user, id).store;
            && GetNote(d, anyone, id).None?
            && GetRelation(d, anyone, id, relation).None?
            && !Listed(d.notes, user, id)
  {
    DeleteUnlists(s.notes, user, id);
  }

  // ---------------------------------------------------------------------------
  // Tags on notes
  // ---------------------------------------------------------------------------

  predicate HasTag(tags: seq<Tag>, id: TagId) {
    exists i :: 0 <= i < |tags| && tags[i].id == id
  }

  /** No tag id appears twice. */
  predicate DistinctTagIds(tags: seq<Tag>) {
    forall i, j :: 0 <= i < j < |tags| ==> tags[i].id != tags[j].id
  }

  /** Records the link and, if the note has no tag with that id, appends a
      placeholder tag (empty name, colour 0,0,0). The tag itself is not looked up. */
  function AttachTag(s: NoteStore, user: UserId, noteId: NoteId, tagId: TagId): (r: Updated)
    ensures GetNote(s, user, noteId).None? ==> r == Updated(s, None)
    ensures GetNote(s, user, noteId).Some? ==>
              && r.note.Some? && HasTag(r.note.value.tags, tagId)
              && r.store.noteTags == s.noteTags + {(noteId, tagId)}
              && r.store.notes == Replace(s.notes, noteId, r.note.value)
              && r.store.relations == s.relations
              && (HasTag(s.notes.items[noteId].tags, tagId) ==> r.note.value == s.notes.items[noteId])
              && (!HasTag(s.notes.items[noteId].tags, tagId) ==>
                    r.note.value == s.notes.items[noteId].(tags := s.notes.items[noteId].tags + [Tag(tagId, "", [0, 0, 0])]))
              && (DistinctTagIds(s.notes.items[noteId].tags) ==> DistinctTagIds(r.note.value.tags))
  {
    match GetNote(s, user, noteId)
    case None => Updated(s, None)
    case Some(n) =>
      var tags := if HasTag(n.tags, tagId) then n.tags else n.tags + [Tag(tagId, "", [0, 0, 0])];
      assert HasTag(tags, tagId) by {
        if !HasTag(n.tags, tagId) { assert tags[|tags| - 1].id == tagId; }
      }
      var n' := n.(tags := tags);
      Updated(NoteStore(Replace(s.notes, noteId, n'), s.noteTags + {(noteId, tagId)}, s.relations), Some(n'))
  }

  /** Attaching the same tag twice is attaching it once. */
  lemma AttachIsIdempotent(s: NoteStore, user: UserId, noteId: NoteId, tagId: TagId)
    ensures var once := AttachTag(s, user, noteId, tagId);
            AttachTag(once.store, user, noteId, tagId) == once
  {
    var once := AttachTag(s, user, noteId, tagId);
    if GetNote(s, user, noteId).Some? {
      assert GetNote(once.store, user, noteId) == once.note;
    }
  }

  /** The note's tags without any tag of this id. */
  function WithoutTag(tags: seq<Tag>, id: TagId): (r: seq<Tag>)
    ensures !HasTag(r, id)
    ensures forall t :: t in r <==> t in tags && t.id != id
    decreases |tags|
  {
    if |tags| == 0 then []
    else
      var rest := WithoutTag(tags[1..], id);
      assert forall t :: t in tags <==> t == tags[0] || t in tags[1..];
      if tags[0].id == id then rest
      else
        assert forall i :: 0 < i < |[tags[0]] + rest| ==> ([tags[0]] + rest)[i] == rest[i - 1];
        [tags[0]] + rest
  }

  /** Drops the link and every tag of that id from the note. The answer is
      "a link was removed, or the note still has tags", so it is true for a
      tag that was never attached to a note that has others. */
  function DetachTag(s: NoteStore, user: UserId, noteId: NoteId, tagId: TagId): (r: Outcome)
    ensures GetNote(s, user, noteId).None? ==> r == Outcome(s, false)
    ensures GetNote(s, user, noteId).Some? ==>
              && r.store.noteTags == s.noteTags - {(noteId, tagId)}
              && r.store.relations == s.relations
              && r.store.notes == Replace(s.notes, noteId,
                   s.notes.items[noteId].(tags := WithoutTag(s.notes.items[noteId].tags, tagId)))
              && (r.ok <==> (noteId, tagId) in s.noteTags || |WithoutTag(s.notes.items[noteId].tags, tagId)| > 0)
  {
    match GetNote(s, user, noteId)
    case None => Outcome(s, false)
    case Some(n) =>
      var removed := (noteId, tagId) in s.noteTags;
      var n' := n.(tags := WithoutTag(n.tags, tagId));
      Outcome(NoteStore(Replace(s.notes, noteId, n'), s.noteTags - {(noteId, tagId)}, s.relations),
              removed || |n'.tags| > 0)
  }

  /** Detaching a tag that was never attached still reports success when the
      note carries some other tag. */
  lemma DetachReportsUnattachedTag(s: NoteStore, user: UserId, noteId: NoteId, tagId: TagId, other: Tag)
    requires GetNote(s, user, noteId).Some?
    requires (noteId, tagId) !in s.noteTags
    requires other in s.notes.items[noteId].tags && other.id != tagId
    ensures DetachTag(s, user, noteId, tagId).ok
  {
    assert other in WithoutTag(s.notes.items[noteId].tags, tagId);
  }

  // ---------------------------------------------------------------------------
  // Relations
  // ---------------------------------------------------------------------------

  /** A relation listed under a note the user can see. */
  function GetRelation(s: NoteStore, user: UserId, noteId: NoteId, id: Guid): (r: Option<NoteRelation>)
    ensures GetNote(s, user, noteId).None? ==> r.None?
    ensures GetNote(s, user, noteId).Some? ==> r == Get(s.relations, noteId, id)
  {
    if GetNote(s, user, noteId).None? then None else Get(s.relations, noteId, id)
  }

  datatype CreatedRelation = CreatedRelation(store: NoteStore, relation: NoteRelation)

  /** A relation from `noteId` to `otherId`, under the Guid `newId`. The note is
      looked up but the relation is created whether or not the user can see it. */
  function CreateRelation(s: NoteStore, user: UserId, noteId: NoteId, otherId: NoteId, name: string, newId: Guid): (r: CreatedRelation)
    ensures r.relation == NoteRelation(newId, [noteId, otherId], name)
    ensures r.store == s.(relations := Add(s.relations, noteId, newId, r.relation))
  {
    var rel := NoteRelation(newId, [noteId, otherId], name);
    CreatedRelation(s.(relations := Add(s.relations, noteId, newId, rel)), rel)
  }

  /** A relation created for a note the user cannot see is stored all the
      same, yet that user cannot read it back; one created for a visible
      note reads back. */
  lemma CreateRelationVisibility(s: NoteStore, user: UserId, noteId: NoteId, otherId: NoteId, name: string, newId: Guid)
    ensures var c := CreateRelation(s, user, noteId, otherId, name, newId);
            && newId in c.store.relations.items
            && (GetNote(s, user, noteId).None? ==> GetRelation(c.store, user, noteId, newId).None?)
            && (GetNote(s, user, noteId).Some? ==> GetRelation(c.store, user, noteId, newId) == Some(c.relation))
  {
    var c := CreateRelation(s, user, noteId, otherId, name, newId);
    AddThenGet(s.relations, noteId, newId, c.relation);
    assert GetNote(c.store, user, noteId) == GetNote(s, user, noteId);
  }

  datatype UpdatedRelation = UpdatedRelation(store: NoteStore, relation: Option<NoteRelation>)

  function UpdateRelation(s: NoteStore, user: UserId, noteId: NoteId, id: Guid, name: Option<string>): (r: UpdatedRelation)
    ensures GetRelation(s, user, noteId, id).None? ==> r == UpdatedRelation(s, None)
    ensures GetRelation(s, user, noteId, id).Some? ==>
              && r.relation.Some?
              && r.relation.value == s.relations.items[id].(name := if IsNullOrEmpty(name) then s.relations.items[id].name else name.value)
              && r.store == s.(relations := Replace(s.relations, id, r.relation.value))
  {
    match GetRelation(s, user, noteId, id)
    case None => UpdatedRelation(s, None)
    case Some(rel) =>
      var rel' := if !IsNullOrEmpty(name) then rel.(name := name.value) else rel;
      UpdatedRelation(s.(relations := Replace(s.relations, id, rel')), Some(rel'))
  }

  /** After an update the user reads back the updated relation, and the same
      update applied again changes nothing further. */
  lemma UpdateRelationThenGet(s: NoteStore, user: UserId, noteId: NoteId, id: Guid, name: Option<string>)
    ensures var r := UpdateRelation(s, user, noteId, id, name);
            && GetRelation(r.store, user, noteId, id) == r.relation
            && UpdateRelation(r.store, user, noteId, id, name) == r
  {
    var r := UpdateRelation(s, user, noteId, id, name);
    if r.relation.Some? {
      assert GetNote(r.store, user, noteId) == GetNote(s, user, noteId);
      assert GetRelation(r.store, user, noteId, id) == r.relation;
      assert Replace(r.store.relations, id, r.relation.value) == r.store.relations;
    }
  }

  function DeleteRelation(s: NoteStore, user: UserId, noteId: NoteId, id: Guid): (r: Outcome)
    ensures GetNote(s, user, noteId).None? || !Listed(s.relations, noteId, id) ==> r == Outcome(s, false)
    ensures GetNote(s, user, noteId).Some? && Listed(s.relations, noteId, id) ==>
              && r.ok
              && r.store.relations.items == s.relations.items - {id}
              && r.store.relations.index == s.relations.index[noteId := RemoveFirst(s.relations.index[noteId], id)]
              && r.store.notes == s.notes
              && r.store.noteTags == s.noteTags
  {
    if GetNote(s, user, noteId).None? then Outcome(s, false)
    else
      var d := Delete(s.relations, noteId, id);
      Outcome(s.(relations := d.store), d.deleted)
  }

  /** After a deletion nobody reads the relation through any note, and with
      repeat-free lists it is off the note's list. */
  lemma DeleteRelationRemovesEverywhere(s: NoteStore, user: UserId, noteId: NoteId, id: Guid,
                                        anyone: UserId, anyNote: NoteId)
    requires GetNote(s, user, noteId).Some? && Listed(s.relations, noteId, id) && ListsAreSets(s.relations)
    ensures var d := DeleteRelation(s, user, noteId, id).store;
            && GetRelation(d, anyone, anyNote, id).None?
            && !Listed(d.relations, noteId, id)
  {
    DeleteUnlists(s.relations, noteId, id);
  }
}

=== FILE: lists.dfy ===
/** The `List<T>` operations the in-memory stores use: `Remove` of the first
    occurrence, and selecting the entries a list of keys still finds in a map. */
module Lists {

  /** `List.Remove(x)`: drops the first occurrence of `x`, if any. */
  function RemoveFirst<T(==,!new)>(s: seq<T>, x: T): (r: seq<T>)
    ensures x !in s ==> r == s
    ensures x in s ==> |r| == |s| - 1
    ensures forall y :: y != x ==> (y in r <==> y in s)
    decreases |s|
  {
    if |s| == 0 then []
    else if s[0] == x then
      assert forall y :: y in s <==> y == s[0] || y in s[1..];
      s[1..]
    else
      assert forall y :: y in s <==> y == s[0] || y in s[1..];
      [s[0]] + RemoveFirst(s[1..], x)
  }

  predicate NoDuplicates<T(==)>(s: seq<T>) {
    forall i, j :: 0 <= i < j < |s| ==> s[i] != s[j]
  }

  lemma TailNoDuplicates<T>(s: seq<T>)
    requires |s| > 0 && NoDuplicates(s)
    ensures NoDuplicates(s[1..]) && s[0] !in s[1..]
  {
    forall i, j | 0 <= i < j < |s[1..]| ensures s[1..][i] != s[1..][j] {
      assert s[1..][i] == s[i + 1] && s[1..][j] == s[j + 1];
    }
    forall k | 0 <= k < |s[1..]| ensures s[1..][k] != s[0] {
      assert s[1..][k] == s[k + 1];
    }
  }

  /** In a list without duplicates, removing an element removes it entirely
      and keeps the list free of duplicates. */
  lemma {:induction false} RemoveFirstFromSet<T(!new)>(s: seq<T>, x: T)
    requires NoDuplicates(s)
    ensures x !in RemoveFirst(s, x)
    ensures NoDuplicates(RemoveFirst(s, x))
    decreases |s|
  {
    if |s| > 0 {
      TailNoDuplicates(s);
      if s[0] != x {
        RemoveFirstFromSet(s[1..], x);
        var rest := RemoveFirst(s[1..], x);
        var r := [s[0]] + rest;
        forall i, j | 0 <= i < j < |r| ensures r[i] != r[j] {
          if i == 0 {
            assert r[j] == rest[j - 1] && r[j] in s[1..];
          } else {
            assert r[i] == rest[i - 1] && r[j] == rest[j - 1];
          }
        }
      }
    }
  }

  /** The values `m` still holds for the keys of `ids`, in list order
      (`ids.Where(m.ContainsKey).Select(id => m[id])`). */
  function Present<K(==,!new), V(==,!new)>(ids: seq<K>, m: map<K, V>): (r: seq<V>)
    ensures |r| <= |ids|
    ensures forall i :: 0 <= i < |ids| && ids[i] in m ==> m[ids[i]] in r
    ensures forall v :: v in r ==> exists k :: k in ids && k in m && m[k] == v
    decreases |ids|
  {
    if |ids| == 0 then []
    else
      var rest := Present(ids[1..], m);
      assert forall i :: 0 < i < |ids| ==> ids[i] == ids[1..][i - 1];
      assert forall k :: k in ids[1..] ==> k in ids;
      if ids[0] in m then [m[ids[0]]] + rest else rest
  }
}

=== FILE: live_session.dfy ===
/** The per-workspace live session: one serial processor of Connect, Disconnect
    and Action events that owns the connected clients, the advisory note locks
    and each user's active connection. Each event is a pure transition from a
    session state to a new state plus the messages it hands to connections'
    outboxes; the session's run loop is a fold of that transition. */
module LiveSession {
  import opened Wrappers
  import opened Ids
  import opened Messages

  /** The session's three tables. Each connection's outbox is addressed by its
      connection id. */
  datatype Session = Session(
    clients: map<ConnectionId, UserId>,
    locks: map<NoteId, UserId>,
    userConnections: map<UserId, ConnectionId>)

  const Initial: Session := Session(map[], map[], map[])

  /** A message handed to one outbox, or to each outbox in a set. The order in
      which a broadcast reaches different outboxes is not observable. */
  datatype Delivery =
    | Direct(to: ConnectionId, msg: WireMessage)
    | Broadcast(recipients: set<ConnectionId>, msg: WireMessage)

  /** The outcome of one event: the next state and the deliveries, in order. */
  datatype Step = Step(session: Session, out: seq<Delivery>)

  const EvictionNotice: string := "New connection from same user"

  function LockedNotice(note: NoteId): string {
    "Note " + FormatGuid(note) + " is already locked"
  }

  // ---------------------------------------------------------------------------
  // What a connection receives
  // ---------------------------------------------------------------------------

  predicate Reaches(d: Delivery, c: ConnectionId) {
    match d
    case Direct(to, _) => to == c
    case Broadcast(recipients, _) => c in recipients
  }

  /** The messages the deliveries put in connection `c`'s outbox, in order. */
  function Received(out: seq<Delivery>, c: ConnectionId): seq<WireMessage>
    decreases |out|
  {
    if |out| == 0 then []
    else (if Reaches(out[0], c) then [out[0].msg] else []) + Received(out[1..], c)
  }

  lemma ReceivedSingle(d: Delivery)
    ensures forall c :: Received([d], c) == if Reaches(d, c) then [d.msg] else []
  {
    assert [d][1..] == [];
  }

  lemma ReceivedAppendAll(a: seq<Delivery>, b: seq<Delivery>)
    ensures forall c :: Received(a + b, c) == Received(a, c) + Received(b, c)
  {
    forall c ensures Received(a + b, c) == Received(a, c) + Received(b, c) {
      ReceivedAppend(a, b, c);
    }
  }

  lemma {:induction false} ReceivedAppend(a: seq<Delivery>, b: seq<Delivery>, c: ConnectionId)
    ensures Received(a + b, c) == Received(a, c) + Received(b, c)
    decreases |a|
  {
    if |a| > 0 {
      assert (a + b)[0] == a[0];
      assert (a + b)[1..] == a[1..] + b;
      ReceivedAppend(a[1..], b, c);
    } else {
      assert a + b == b;
    }
  }

  // ---------------------------------------------------------------------------
  // Presence
  // ---------------------------------------------------------------------------

  /** The users with at least one connection in the session. */
  function Presence(s: Session): set<UserId> {
    s.clients.Values
  }

  /** `l` lists each member of `s` exactly once. */
  ghost predicate ListsExactly(l: seq<Guid>, s: set<Guid>) {
    && (forall x :: x in l <==> x in s)
    && (forall i, j :: 0 <= i < j < |l| ==> l[i] != l[j])
  }

  lemma {:induction false} Minimum(s: set<Guid>) returns (m: Guid)
    requires s != {}
    ensures m in s && forall y :: y in s ==> m <= y
    decreases s
  {
    var x :| x in s;
    if s == {x} {
      m := x;
    } else {
      var m' := Minimum(s - {x});
      m := if x < m' then x else m';
      forall y | y in s ensures m <= y {
        if y != x {
          assert y in s - {x};
        }
      }
    }
  }

  lemma MinimumExists(s: set<Guid>)
    requires s != {}
    ensures exists m :: m in s && forall y :: y in s ==> m <= y
  {
    var m := Minimum(s);
  }

  lemma SortedCons(m: Guid, s: set<Guid>, rest: seq<Guid>)
    requires m in s && forall y :: y in s ==> m <= y
    requires forall x :: x in rest <==> x in s - {m}
    requires forall i, j :: 0 <= i < j < |rest| ==> rest[i] < rest[j]
    ensures forall x :: x in [m] + rest <==> x in s
    ensures forall i, j :: 0 <= i < j < |[m] + rest| ==> ([m] + rest)[i] < ([m] + rest)[j]
  {
    var r := [m] + rest;
    assert forall i :: 0 <= i < |rest| ==> rest[i] in s - {m} && m < rest[i];
    forall i, j | 0 <= i < j < |r| ensures r[i] < r[j] {
      if i > 0 {
        assert r[i] == rest[i - 1] && r[j] == rest[j - 1];
      } else {
        assert r[j] == rest[j - 1];
      }
    }
    forall x ensures x in r <==> x in s {
      if x in s && x != m {
        assert x in s - {m};
      }
    }
  }

  lemma SortedIdsListsExactly(s: set<Guid>)
    ensures ListsExactly(SortedIds(s), s)
  {
    var r := SortedIds(s);
    forall i, j | 0 <= i < j < |r| ensures r[i] != r[j] {
      assert r[i] < r[j];
    }
  }

  /** The least member of a non-empty set of ids. */
  function MinOf(s: set<Guid>): (m: Guid)
    requires s != {}
    ensures m in s && forall y :: y in s ==> m <= y
  {
    MinimumExists(s);
    var m :| m in s && forall y :: y in s ==> m <= y;
    m
  }

  /** The members of a set of ids, in ascending order. */
  function SortedIds(s: set<Guid>): (r: seq<Guid>)
    ensures forall x :: x in r <==> x in s
    ensures forall i, j :: 0 <= i < j < |r| ==> r[i] < r[j]
    decreases |s|
  {
    if s == {} then []
    else
      var m := MinOf(s);
      var rest := SortedIds(s - {m});
      SortedCons(m, s, rest);
      [m] + rest
  }

  // ---------------------------------------------------------------------------
  // Connect
  // ---------------------------------------------------------------------------

  /** The user's recorded active connection is still a client: it will be evicted. */
  predicate Evicts(s: Session, user: UserId) {
    user in s.userConnections && s.userConnections[user] in s.clients
  }

  /** The snapshot a newcomer receives: every present user once, and the locks. */
  ghost predicate IsSnapshot(m: WireMessage, presence: set<UserId>, locks: map<NoteId, UserId>) {
    m.SessionInfo? && m.users.Some? && ListsExactly(m.users.value, presence) && m.locks == Some(locks)
  }

  /** A connection joins. A previous connection of the same user that is still a
      client is told so and dropped; the newcomer becomes the user's active
      connection, receives a snapshot of presence and locks, and every other
      client is told the user joined. */
  function HandleConnect(s: Session, conn: ConnectionId, user: UserId): (r: Step)
    ensures conn in r.session.clients && r.session.clients[conn] == user
    ensures user in r.session.userConnections && r.session.userConnections[user] == conn
    ensures forall u :: u in s.userConnections && u != user ==>
              u in r.session.userConnections && r.session.userConnections[u] == s.userConnections[u]
    ensures r.session.userConnections.Keys == s.userConnections.Keys + {user}
    ensures r.session.locks == s.locks
    ensures forall c :: c in r.session.clients <==>
              c == conn || (c in s.clients && !(Evicts(s, user) && c == s.userConnections[user]))
    ensures forall c :: c in r.session.clients && c != conn ==> r.session.clients[c] == s.clients[c]
    ensures Evicts(s, user) && s.userConnections[user] != conn ==>
              Received(r.out, s.userConnections[user]) == [ServerError(Some(EvictionNotice))]
    ensures !(Evicts(s, user) && s.userConnections[user] == conn) ==>
              |Received(r.out, conn)| == 1 && IsSnapshot(Received(r.out, conn)[0], Presence(r.session), s.locks)
    ensures forall c :: c in r.session.clients && c != conn ==> Received(r.out, c) == [UserJoined(user)]
    ensures forall c :: c !in r.session.clients && !(Evicts(s, user) && c == s.userConnections[user]) ==>
              Received(r.out, c) == []
  {
    var evict := Evicts(s, user);
    var kept := if evict then s.clients - {s.userConnections[user]} else s.clients;
    var clients := kept[conn := user];
    var session := s.(clients := clients, userConnections := s.userConnections[user := conn]);
    var notice := if evict then [Direct(s.userConnections[user], ServerError(Some(EvictionNotice)))] else [];
    var info := SessionInfo(Some(SortedIds(clients.Values)), Some(s.locks));
    SortedIdsListsExactly(clients.Values);
    var joined := Broadcast(clients.Keys - {conn}, UserJoined(user));
    if evict then
      ReceivedSingle(notice[0]);
      ReceivedSingle(Direct(conn, info));
      ReceivedSingle(joined);
      ReceivedAppendAll(notice, [Direct(conn, info)]);
      ReceivedAppendAll(notice + [Direct(conn, info)], [joined]);
      Step(session, notice + [Direct(conn, info)] + [joined])
    else
      ReceivedSingle(Direct(conn, info));
      ReceivedSingle(joined);
      ReceivedAppendAll([Direct(conn, info)], [joined]);
      Step(session, [Direct(conn, info)] + [joined])
  }

  // ---------------------------------------------------------------------------
  // Disconnect
  // ---------------------------------------------------------------------------

  /** A connection leaves. Unknown connections are ignored. Otherwise it stops
      being a client, stops being its user's active connection if it was, every
      lock of the departing user is released and the remaining clients are told. */
  function HandleDisconnect(s: Session, conn: ConnectionId, user: UserId): (r: Step)
    ensures conn !in s.clients ==> r == Step(s, [])
    ensures conn in s.clients ==> r.session.clients == s.clients - {conn}
    ensures conn in s.clients && user in s.userConnections && s.userConnections[user] == conn ==>
              r.session.userConnections == s.userConnections - {user}
    ensures !(user in s.userConnections && s.userConnections[user] == conn) ==>
              r.session.userConnections == s.userConnections
    ensures conn in s.clients ==>
              forall n :: (n in r.session.locks <==> n in s.locks && s.locks[n] != user)
    ensures forall n :: n in r.session.locks ==> n in s.locks && r.session.locks[n] == s.locks[n]
    ensures conn in s.clients ==>
              forall c :: Received(r.out, c) == if c in r.session.clients then [UserLeft(user)] else []
  {
    if conn !in s.clients then Step(s, [])
    else
      var clients := s.clients - {conn};
      var userConnections :=
        if user in s.userConnections && s.userConnections[user] == conn
        then s.userConnections - {user} else s.userConnections;
      var locks := map n | n in s.locks && s.locks[n] != user :: s.locks[n];
      var out := [Broadcast(clients.Keys, UserLeft(user))];
      ReceivedSingle(out[0]);
      Step(Session(clients, locks, userConnections), out)
  }

  // ---------------------------------------------------------------------------
  // Actions
  // ---------------------------------------------------------------------------

  /** A Lock on a note that another user holds: the one action that is refused. */
  predicate LockRefused(s: Session, user: UserId, action: WireMessage) {
    action.Lock? && action.noteId in s.locks && s.locks[action.noteId] != user
  }

  /** The two maps agree everywhere except possibly at `k`. */
  ghost predicate SameExceptAt(a: map<NoteId, UserId>, b: map<NoteId, UserId>, k: NoteId) {
    forall n :: n != k ==> (n in a <==> n in b) && (n in a ==> a[n] == b[n])
  }

  /** An action from connection `conn` acting as `user`. A Lock on a note held by
      someone else is answered with an error to the requester alone (if it is
      still a client) and nothing changes. Otherwise a Lock takes the note, an
      Unlock by the holder frees it (anyone else's Unlock changes nothing), and
      the action is relayed unchanged to every client but the originator. */
  function HandleAction(s: Session, conn: ConnectionId, user: UserId, action: WireMessage): (r: Step)
    ensures r.session.clients == s.clients && r.session.userConnections == s.userConnections
    ensures LockRefused(s, user, action) ==>
              && r.session == s
              && forall c :: Received(r.out, c) ==
                   if c == conn && conn in s.clients then [ServerError(Some(LockedNotice(action.noteId)))] else []
    ensures !LockRefused(s, user, action) ==>
              forall c :: Received(r.out, c) == if c in s.clients && c != conn then [action] else []
    ensures action.Lock? && !LockRefused(s, user, action) ==>
              && action.noteId in r.session.locks && r.session.locks[action.noteId] == user
              && SameExceptAt(r.session.locks, s.locks, action.noteId)
    ensures action.Unlock? ==>
              && (action.noteId in r.session.locks <==>
                    action.noteId in s.locks && s.locks[action.noteId] != user)
              && (action.noteId in r.session.locks ==> r.session.locks[action.noteId] == s.locks[action.noteId])
              && SameExceptAt(r.session.locks, s.locks, action.noteId)
    ensures !action.Lock? && !action.Unlock? ==> r.session == s
  {
    var relay := [Broadcast(s.clients.Keys - {conn}, action)];
    ReceivedSingle(relay[0]);
    match action
    case Lock(_, note) =>
      if note in s.locks && s.locks[note] != user then
        var reply := if conn in s.clients then [Direct(conn, ServerError(Some(LockedNotice(note))))] else [];
        ReceivedSingle(Direct(conn, ServerError(Some(LockedNotice(note)))));
        Step(s, reply)
      else
        Step(s.(locks := s.locks[note := user]), relay)
    case Unlock(_, note) =>
      var locks := if note in s.locks && s.locks[note] == user then s.locks - {note} else s.locks;
      Step(s.(locks := locks), relay)
    case _ =>
      Step(s, relay)
  }

  // ---------------------------------------------------------------------------
  // The run loop
  // ---------------------------------------------------------------------------

  /** One event off the session's queue. Objects of any other type are ignored. */
  function Process(s: Session, e: SessionEvent): Step {
    match e
    case ClientConnect(c, u) => HandleConnect(s, c, u)
    case ClientDisconnect(c, u) => HandleDisconnect(s, c, u)
    case ClientAction(c, u, a) => HandleAction(s, c, u, a)
    case Unrecognised => Step(s, [])
  }

  /** The session's run loop over the events it dequeues before it is cancelled:
      each event is processed completely before the next. */
  function Run(s: Session, events: seq<SessionEvent>): Step
    decreases |events|
  {
    if |events| == 0 then Step(s, [])
    else
      var first := Process(s, events[0]);
      var rest := Run(first.session, events[1..]);
      Step(rest.session, first.out + rest.out)
  }

  /** The session's client count. */
  function ClientCount(s: Session): nat {
    |s.clients|
  }
}

=== FILE: messages.dfy ===
/** The message vocabulary of the live-session protocol: the twelve wire kinds a
    client and the server exchange, identified on the wire by a `type`
    discriminator, and the three internal events a connection handler posts to
    its workspace's session. */
module Messages {
  import opened Wrappers
  import opened Ids

  /** A JSON value at the level the serializer sees it. Guids travel as `JId`;
      the textual encoding (UTF-8, JSON syntax, Guid spelling) is not modelled. */
  datatype Json =
    | JNull
    | JString(s: string)
    | JId(id: Guid)
    | JIdList(ids: seq<Guid>)
    | JIdMap(entries: map<Guid, Guid>)
    | JOther(raw: string)

  /** A JSON object: property name to value. */
  type JsonObject = map<string, Json>

  /** The wire messages. Reference-typed fields that JSON may leave null are
      `Option`s; the opaque Custom payload is any JSON value, `JNull` for null. */
  datatype WireMessage =
    // system messages
    | Ping
    | Pong
    | Auth(token: Option<string>, workspace: Guid)
    | Disconnect
    | SessionInfo(users: Option<seq<Guid>>, locks: Option<map<NoteId, UserId>>)
    | MessageAck(messageId: Guid)
    // session events
    | UserJoined(userId: UserId)
    | UserLeft(userId: UserId)
    | ServerError(message: Option<string>)
    // client actions, relayed by the session
    | Lock(userId: UserId, noteId: NoteId)
    | Unlock(userId: UserId, noteId: NoteId)
    | Custom(userId: UserId, customType: Option<string>, payload: Json)

  /** The actions a client may ask its session to apply and relay. */
  predicate IsAction(m: WireMessage) {
    m.Lock? || m.Unlock? || m.Custom?
  }

  /** The internal events a connection handler posts to its session. The
      outbound channel a Connect carries is identified with its connection id.
      `Unrecognised` stands for any other object put on the session's queue. */
  datatype SessionEvent =
    | ClientConnect(connectionId: ConnectionId, userId: UserId)
    | ClientDisconnect(connectionId: ConnectionId, userId: UserId)
    | ClientAction(connectionId: ConnectionId, userId: UserId, action: WireMessage)
    | Unrecognised

  // ---------------------------------------------------------------------------
  // Kinds and their discriminators
  // ---------------------------------------------------------------------------

  datatype Kind =
    | PingKind | PongKind | AuthKind | DisconnectKind | SessionInfoKind | MessageAckKind
    | UserJoinedKind | UserLeftKind | ServerErrorKind | LockKind | UnlockKind | CustomKind

  const AllKinds: set<Kind> := {
    PingKind, PongKind, AuthKind, DisconnectKind, SessionInfoKind, MessageAckKind,
    UserJoinedKind, UserLeftKind, ServerErrorKind, LockKind, UnlockKind, CustomKind }

  function KindOf(m: WireMessage): Kind {
    match m
    case Ping => PingKind
    case Pong => PongKind
    case Auth(_, _) => AuthKind
    case Disconnect => DisconnectKind
    case SessionInfo(_, _) => SessionInfoKind
    case MessageAck(_) => MessageAckKind
    case UserJoined(_) => UserJoinedKind
    case UserLeft(_) => UserLeftKind
    case ServerError(_) => ServerErrorKind
    case Lock(_, _) => LockKind
    case Unlock(_, _) => UnlockKind
    case Custom(_, _, _) => CustomKind
  }

  /** The value of the `type` property for each kind. */
  function Discriminator(k: Kind): string {
    match k
    case PingKind => "Ping"
    case PongKind => "Pong"
    case AuthKind => "Auth"
    case DisconnectKind => "Disconnect"
    case SessionInfoKind => "SessionInfo"
    case MessageAckKind => "MessageAck"
    case UserJoinedKind => "UserJoined"
    case UserLeftKind => "UserLeft"
    case ServerErrorKind => "ServerError"
    case LockKind => "Lock"
    case UnlockKind => "Unlock"
    case CustomKind => "Custom"
  }

  /** The kind a discriminator names; any other string names none. */
  function KindOfDiscriminator(tag: string): (r: Option<Kind>)
    ensures r.Some? ==> Discriminator(r.value) == tag
  {
    if tag == "Ping" then Some(PingKind)
    else if tag == "Pong" then Some(PongKind)
    else if tag == "Auth" then Some(AuthKind)
    else if tag == "Disconnect" then Some(DisconnectKind)
    else if tag == "SessionInfo" then Some(SessionInfoKind)
    else if tag == "MessageAck" then Some(MessageAckKind)
    else if tag == "UserJoined" then Some(UserJoinedKind)
    else if tag == "UserLeft" then Some(UserLeftKind)
    else if tag == "ServerError" then Some(ServerErrorKind)
    else if tag == "Lock" then Some(LockKind)
    else if tag == "Unlock" then Some(UnlockKind)
    else if tag == "Custom" then Some(CustomKind)
    else None
  }

  /** There are exactly twelve kinds. */
  lemma TwelveKinds()
    ensures |AllKinds| == 12
    ensures forall k :: k in AllKinds
  {
    forall k ensures k in AllKinds {
      match k
      case PingKind =>
      case PongKind =>
      case AuthKind =>
      case DisconnectKind =>
      case SessionInfoKind =>
      case MessageAckKind =>
      case UserJoinedKind =>
      case UserLeftKind =>
      case ServerErrorKind =>
      case LockKind =>
      case UnlockKind =>
      case CustomKind =>
    }
  }

  /** Each kind has its own discriminator, and the kind is recovered from it. */
  lemma DiscriminatorsIdentifyKinds()
    ensures forall k :: KindOfDiscriminator(Discriminator(k)) == Some(k)
    ensures forall k1, k2 :: Discriminator(k1) == Discriminator(k2) ==> k1 == k2
  {
    forall k ensures KindOfDiscriminator(Discriminator(k)) == Some(k) {
      match k
      case PingKind =>
      case PongKind =>
      case AuthKind =>
      case DisconnectKind =>
      case SessionInfoKind =>
      case MessageAckKind =>
      case UserJoinedKind =>
      case UserLeftKind =>
      case ServerErrorKind =>
      case LockKind =>
      case UnlockKind =>
      case CustomKind =>
    }
    forall k1, k2 | Discriminator(k1) == Discriminator(k2) ensures k1 == k2 {
      assert KindOfDiscriminator(Discriminator(k1)) == Some(k1);
    }
  }

  // ---------------------------------------------------------------------------
  // Encoding and decoding
  // ---------------------------------------------------------------------------

  function StringValue(s: Option<string>): Json {
    if s.Some? then JString(s.value) else JNull
  }

  /** A Guid property: absent reads as Guid.Empty; anything but a Guid fails. */
  function ReadGuid(o: JsonObject, name: string): Option<Guid> {
    if name !in o then Some(EmptyGuid)
    else if o[name].JId? then Some(o[name].id)
    else None
  }

  /** A string property: absent or null reads as null; a non-string fails. */
  function ReadString(o: JsonObject, name: string): Option<Option<string>> {
    if name !in o || o[name].JNull? then Some(None)
    else if o[name].JString? then Some(Some(o[name].s))
    else None
  }

  function ReadIdList(o: JsonObject, name: string): Option<Option<seq<Guid>>> {
    if name !in o || o[name].JNull? then Some(None)
    else if o[name].JIdList? then Some(Some(o[name].ids))
    else None
  }

  function ReadIdMap(o: JsonObject, name: string): Option<Option<map<Guid, Guid>>> {
    if name !in o || o[name].JNull? then Some(None)
    else if o[name].JIdMap? then Some(Some(o[name].entries))
    else None
  }

  /** An `object?` property: any value is taken as it is; absent reads as null. */
  function ReadAny(o: JsonObject, name: string): Json {
    if name in o then o[name] else JNull
  }

  /** Deserialization of the polymorphic base record: the `type` property picks
      the kind, each field is read by name, unknown properties are ignored. A
      missing or unknown discriminator, or a field of the wrong shape, is a
      deserialization failure (None). */
  function Decode(o: JsonObject): (r: Option<WireMessage>)
    ensures r.Some? ==> "type" in o && o["type"] == JString(Discriminator(KindOf(r.value)))
  {
    if "type" !in o || !o["type"].JString? then None
    else
      var kind :- KindOfDiscriminator(o["type"].s);
      match kind
      case PingKind => Some(Ping)
      case PongKind => Some(Pong)
      case AuthKind =>
        var token :- ReadString(o, "token");
        var workspace :- ReadGuid(o, "workspace");
        Some(Auth(token, workspace))
      case DisconnectKind => Some(Disconnect)
      case SessionInfoKind =>
        var users :- ReadIdList(o, "users");
        var locks :- ReadIdMap(o, "locks");
        Some(SessionInfo(users, locks))
      case MessageAckKind =>
        var id :- ReadGuid(o, "messageId");
        Some(MessageAck(id))
      case UserJoinedKind =>
        var u :- ReadGuid(o, "userId");
        Some(UserJoined(u))
      case UserLeftKind =>
        var u :- ReadGuid(o, "userId");
        Some(UserLeft(u))
      case ServerErrorKind =>
        var text :- ReadString(o, "message");
        Some(ServerError(text))
      case LockKind =>
        var u :- ReadGuid(o, "userId");
        var n :- ReadGuid(o, "noteId");
        Some(Lock(u, n))
      case UnlockKind =>
        var u :- ReadGuid(o, "userId");
        var n :- ReadGuid(o, "noteId");
        Some(Unlock(u, n))
      case CustomKind =>
        var u :- ReadGuid(o, "userId");
        var ct :- ReadString(o, "customType");
        Some(Custom(u, ct, ReadAny(o, "payload")))
  }

  /** Serialization: the discriminator first, then every field by its
      camel-cased name, nulls included. */
  function Encode(m: WireMessage): (r: JsonObject)
    ensures "type" in r && r["type"] == JString(Discriminator(KindOf(m)))
  {
    var tag := map["type" := JString(Discriminator(KindOf(m)))];
    match m
    case Ping => tag
    case Pong => tag
    case Auth(token, workspace) => tag["token" := StringValue(token)]["workspace" := JId(workspace)]
    case Disconnect => tag
    case SessionInfo(users, locks) =>
      tag["users" := if users.Some? then JIdList(users.value) else JNull]
         ["locks" := if locks.Some? then JIdMap(locks.value) else JNull]
    case MessageAck(id) => tag["messageId" := JId(id)]
    case UserJoined(u) => tag["userId" := JId(u)]
    case UserLeft(u) => tag["userId" := JId(u)]
    case ServerError(text) => tag["message" := StringValue(text)]
    case Lock(u, n) => tag["userId" := JId(u)]["noteId" := JId(n)]
    case Unlock(u, n) => tag["userId" := JId(u)]["noteId" := JId(n)]
    case Custom(u, ct, payload) =>
      tag["userId" := JId(u)]["customType" := StringValue(ct)]["payload" := payload]
  }

  /** Every message survives a serialization round trip. */
  lemma DecodeEncode(m: WireMessage)
    ensures Decode(Encode(m)) == Some(m)
  {
    var tag := Discriminator(KindOf(m));
    assert KindOfDiscriminator(tag) == Some(KindOf(m));
    match m
    case Auth(token, workspace) =>
      assert ReadString(Encode(m), "token") == Some(token);
    case SessionInfo(users, locks) =>
      assert ReadIdList(Encode(m), "users") == Some(users);
    case ServerError(text) =>
      assert ReadString(Encode(m), "message") == Some(text);
    case Custom(u, ct, payload) =>
      assert ReadString(Encode(m), "customType") == Some(ct);
    case _ =>
  }
}

=== FILE: owned_store.dfy ===
/** The shape shared by the dictionary-backed repositories: items by id, and
    for each owner key the list of item ids it may see. An item is reachable
    through an owner only while its id is on that owner's list and the item
    itself is still stored. */
module OwnedStore {
  import opened Wrappers
  import opened Ids
  import opened Lists

  datatype Store<K, V> = Store(items: map<Guid, V>, index: map<K, seq<Guid>>)

  function Empty<K, V>(): Store<K, V> {
    Store(map[], map[])
  }

  /** The owner's list holds the id. */
  predicate Listed<K(==), V>(s: Store<K, V>, owner: K, id: Guid) {
    owner in s.index && id in s.index[owner]
  }

  /** Every item the owner's list still finds, in list order; an owner with
      no list sees nothing. */
  function All<K(==), V(==,!new)>(s: Store<K, V>, owner: K): (r: seq<V>)
    ensures owner !in s.index ==> r == []
    ensures forall id :: Listed(s, owner, id) && id in s.items ==> s.items[id] in r
    ensures forall v :: v in r ==> exists id :: Listed(s, owner, id) && id in s.items && s.items[id] == v
  {
    if owner in s.index then Present(s.index[owner], s.items) else []
  }

  /** The item, if the owner's list holds its id and it is still stored. */
  function Get<K(==), V>(s: Store<K, V>, owner: K, id: Guid): (r: Option<V>)
    ensures r.Some? <==> Listed(s, owner, id) && id in s.items
    ensures r.Some? ==> r.value == s.items[id]
  {
    if Listed(s, owner, id) && id in s.items then Some(s.items[id]) else None
  }

  /** Stores `v` under `id` (overwriting) and appends `id` to the owner's list,
      starting the list if the owner has none. */
  function Add<K(==), V>(s: Store<K, V>, owner: K, id: Guid, v: V): (r: Store<K, V>)
    ensures r.items == s.items[id := v]
    ensures r.index == s.index[owner := (if owner in s.index then s.index[owner] else []) + [id]]
  {
    var ids := if owner in s.index then s.index[owner] else [];
    Store(s.items[id := v], s.index[owner := ids + [id]])
  }

  /** An added item is found through its owner. */
  lemma AddThenGet<K, V>(s: Store<K, V>, owner: K, id: Guid, v: V)
    ensures Get(Add(s, owner, id, v), owner, id) == Some(v)
  {
    var r := Add(s, owner, id, v);
    assert r.index[owner][|r.index[owner]| - 1] == id;
  }

  /** Writes a changed item back in place; no list changes. */
  function Replace<K, V>(s: Store<K, V>, id: Guid, v: V): (r: Store<K, V>)
    ensures r.index == s.index && r.items == s.items[id := v]
  {
    s.(items := s.items[id := v])
  }

  datatype Deletion<K, V> = Deletion(store: Store<K, V>, deleted: bool)

  /** Deletes an item the owner's list holds: the id leaves that list (its
      first occurrence) and the item leaves the store. An id the list does
      not hold is refused and nothing changes. */
  function Delete<K(==), V>(s: Store<K, V>, owner: K, id: Guid): (r: Deletion<K, V>)
    ensures !Listed(s, owner, id) ==> r == Deletion(s, false)
    ensures Listed(s, owner, id) ==>
              && r.deleted
              && r.store.items == s.items - {id}
              && r.store.index == s.index[owner := RemoveFirst(s.index[owner], id)]
  {
    if !Listed(s, owner, id) then Deletion(s, false)
    else Deletion(Store(s.items - {id}, s.index[owner := RemoveFirst(s.index[owner], id)]), true)
  }

  /** After a deletion the item is gone for every owner. */
  lemma DeletedIsGone<K, V>(s: Store<K, V>, owner: K, id: Guid, other: K)
    requires Listed(s, owner, id)
    ensures Get(Delete(s, owner, id).store, other, id).None?
  {
  }

  /** No owner's list repeats an id. */
  ghost predicate ListsAreSets<K, V>(s: Store<K, V>) {
    forall o :: o in s.index ==> NoDuplicates(s.index[o])
  }

  /** With lists that never repeat an id, a deleted id leaves its owner's list
      entirely, and the lists stay free of repeats. */
  lemma DeleteUnlists<K, V>(s: Store<K, V>, owner: K, id: Guid)
    requires ListsAreSets(s) && Listed(s, owner, id)
    ensures !Listed(Delete(s, owner, id).store, owner, id)
    ensures ListsAreSets(Delete(s, owner, id).store)
  {
    RemoveFirstFromSet(s.index[owner], id);
  }
}

=== FILE: password_hasher.dfy ===
/** The stored password-hash format "v1$<iterations>$<salt>$<key>" and its
    check. PBKDF2 (section 5.2 of RFC 8018, with HMAC-SHA256) and Base64
    (section 4 of RFC 4648) stay abstract. */
module PasswordHasher {
  import opened Wrappers
  import opened Text

  type byte = bv8

  const SaltSize := 16
  const KeySize := 32
  const DefaultIterations: Int32 := 100_000
  const Version := "v1"

  /** The 16 random bytes a hash is salted with. */
  type Salt = s: seq<byte> | |s| == SaltSize witness seq(SaltSize, _ => 0)

  /** The primitives the format is built on: key derivation (password, salt,
      iterations, output length), Base64 encoding, and Base64 decoding, which
      fails on malformed text. */
  datatype Primitives = Primitives(
    pbkdf2: (string, seq<byte>, int, int) -> seq<byte>,
    toBase64: seq<byte> -> string,
    fromBase64: string -> Option<seq<byte>>)

  /** The exceptions that escape: PBKDF2 rejects a non-positive iteration count
      or output length, Base64 decoding rejects malformed text. */
  datatype Failure = ArgumentOutOfRange | MalformedBase64

  /** Key derivation with the argument checks PBKDF2 makes before deriving. */
  function Derive(p: Primitives, password: string, salt: seq<byte>, iterations: int, length: int): (r: Result<seq<byte>, Failure>)
    ensures r.Err? <==> iterations <= 0 || length <= 0
    ensures r.Ok? ==> r.value == p.pbkdf2(password, salt, iterations, length)
  {
    if iterations <= 0 || length <= 0 then Err(ArgumentOutOfRange)
    else Ok(p.pbkdf2(password, salt, iterations, length))
  }

  /** The four fields joined with '$'. */
  function Format(iterations: Int32, salt: string, key: string): string {
    Join([Version, FormatInt(iterations), salt, key], '$')
  }

  /** A hash of `password` with the given salt: a 32-byte key, stored with the
      version, the iteration count and the Base64 salt. */
  function Hash(p: Primitives, password: string, salt: Salt, iterations: Int32): (r: Result<string, Failure>)
    ensures r.Err? <==> iterations <= 0
    ensures r.Ok? ==>
              r.value == Format(iterations, p.toBase64(salt), p.toBase64(p.pbkdf2(password, salt, iterations, KeySize)))
  {
    var key :- Derive(p, password, salt, iterations, KeySize);
    Ok(Format(iterations, p.toBase64(salt), p.toBase64(key)))
  }

  /** Checks a password against a stored hash. Anything that is not four
      '$'-separated fields with version "v1" and an int iteration count is a
      mismatch (false); malformed Base64 or an unusable iteration count or key
      length is an error. Otherwise the password matches iff the key derived
      with the stored salt and count equals the stored key. */
  function Verify(p: Primitives, storedHash: Option<string>, password: string): (r: Result<bool, Failure>)
    ensures IsNullOrWhiteSpace(storedHash) ==> r == Ok(false)
    ensures !IsNullOrWhiteSpace(storedHash) && |Split(storedHash.value, '$')| != 4 ==> r == Ok(false)
    ensures !IsNullOrWhiteSpace(storedHash) && |Split(storedHash.value, '$')| == 4 ==>
              var parts := Split(storedHash.value, '$');
              && (parts[0] != Version ==> r == Ok(false))
              && (parts[0] == Version && TryParseInt32(Some(parts[1])).None? ==> r == Ok(false))
              && ((&& parts[0] == Version
                   && TryParseInt32(Some(parts[1])).Some?
                   && (p.fromBase64(parts[2]).None? || p.fromBase64(parts[3]).None?))
                  ==> r == Err(MalformedBase64))
    ensures !IsNullOrWhiteSpace(storedHash) && |Split(storedHash.value, '$')| == 4 ==>
              var parts := Split(storedHash.value, '$');
              (&& parts[0] == Version
               && TryParseInt32(Some(parts[1])).Some?
               && p.fromBase64(parts[2]).Some? && p.fromBase64(parts[3]).Some?) ==>
                var iterations := TryParseInt32(Some(parts[1])).value;
                var expected := p.fromBase64(parts[3]).value;
                r == if iterations <= 0 || |expected| == 0 then Err(ArgumentOutOfRange)
                     else Ok(p.pbkdf2(password, p.fromBase64(parts[2]).value, iterations, |expected|) == expected)
    ensures r == Ok(true) ==>
              var parts := Split(storedHash.value, '$');
              && |parts| == 4 && parts[0] == Version
              && TryParseInt32(Some(parts[1])).Some? && TryParseInt32(Some(parts[1])).value > 0
              && p.fromBase64(parts[3]).Some? && |p.fromBase64(parts[3]).value| > 0
              && p.fromBase64(parts[2]).Some?
              && p.pbkdf2(password, p.fromBase64(parts[2]).value, TryParseInt32(Some(parts[1])).value,
                          |p.fromBase64(parts[3]).value|) == p.fromBase64(parts[3]).value
  {
    if IsNullOrWhiteSpace(storedHash) then Ok(false)
    else
      var parts := Split(storedHash.value, '$');
      if |parts| != 4 then Ok(false)
      else if parts[0] != Version then Ok(false)
      else match TryParseInt32(Some(parts[1]))
        case None => Ok(false)
        case Some(iterations) =>
          match (p.fromBase64(parts[2]), p.fromBase64(parts[3]))
          case (Some(salt), Some(expected)) =>
            var actual :- Derive(p, password, salt, iterations, |expected|);
            Ok(actual == expected)
          case _ => Err(MalformedBase64)
  }

  /** The Base64 alphabet of section 4 of RFC 4648, with its pad character. */
  predicate IsBase64Char(c: char) {
    ('A' <= c <= 'Z') || ('a' <= c <= 'z') || ('0' <= c <= '9') || c == '+' || c == '/' || c == '='
  }

  /** What the round trip needs of the primitives: Base64 text stays in its
      alphabet and decodes back, and PBKDF2 yields the length asked for. */
  ghost predicate WellBehaved(p: Primitives) {
    && (forall b :: p.fromBase64(p.toBase64(b)) == Some(b))
    && (forall b, i :: 0 <= i < |p.toBase64(b)| ==> IsBase64Char(p.toBase64(b)[i]))
    && (forall pw, s, n, len :: len >= 0 ==> |p.pbkdf2(pw, s, n, len)| == len)
  }

  lemma NoDollarInBase64(p: Primitives, b: seq<byte>)
    requires WellBehaved(p)
    ensures '$' !in p.toBase64(b)
  {
    var t := p.toBase64(b);
    forall i | 0 <= i < |t| ensures t[i] != '$' {
      assert IsBase64Char(t[i]);
    }
  }

  /** A stored hash splits back into its four fields. */
  lemma FormatSplits(p: Primitives, iterations: Int32, salt: seq<byte>, key: seq<byte>)
    requires WellBehaved(p)
    ensures Split(Format(iterations, p.toBase64(salt), p.toBase64(key)), '$') ==
              [Version, FormatInt(iterations), p.toBase64(salt), p.toBase64(key)]
  {
    var parts := [Version, FormatInt(iterations), p.toBase64(salt), p.toBase64(key)];
    NoDollarInBase64(p, salt);
    NoDollarInBase64(p, key);
    var f := FormatInt(iterations);
    assert '$' !in f by {
      forall i | 0 <= i < |f| ensures f[i] != '$' {
        assert IsDigit(f[i]) || f[i] == '-';
      }
    }
    assert forall i :: 0 <= i < 4 ==> '$' !in parts[i];
    SplitJoin(parts, '$');
  }

  /** A password verifies against its own hash, for every positive iteration
      count, given well-behaved primitives. */
  lemma VerifyHash(p: Primitives, password: string, salt: Salt, iterations: Int32)
    requires WellBehaved(p) && iterations > 0
    ensures Hash(p, password, salt, iterations).Ok?
    ensures Verify(p, Some(Hash(p, password, salt, iterations).value), password) == Ok(true)
  {
    var key := p.pbkdf2(password, salt, iterations, KeySize);
    var stored := Hash(p, password, salt, iterations).value;
    FormatSplits(p, iterations, salt, key);
    var parts := Split(stored, '$');
    assert parts[0] == Version;
    ParseFormatInt32(iterations);
    assert !IsWhiteSpace(stored[0]) by {
      assert stored == Version + "$" + Join(parts[1..], '$');
    }
    assert |key| == KeySize;
  }

  /** A different password fails against the hash exactly when its derived key
      differs from the stored one. */
  lemma VerifyOtherPassword(p: Primitives, password: string, other: string, salt: Salt, iterations: Int32)
    requires WellBehaved(p) && iterations > 0
    ensures Verify(p, Some(Hash(p, password, salt, iterations).value), other) ==
              Ok(p.pbkdf2(other, salt, iterations, KeySize) == p.pbkdf2(password, salt, iterations, KeySize))
  {
    var key := p.pbkdf2(password, salt, iterations, KeySize);
    var stored := Hash(p, password, salt, iterations).value;
    FormatSplits(p, iterations, salt, key);
    ParseFormatInt32(iterations);
    assert !IsWhiteSpace(stored[0]) by {
      var parts := Split(stored, '$');
      assert stored == Version + "$" + Join(parts[1..], '$');
    }
  }
}

=== FILE: session_client.dfy ===
// The per-connection protocol handler: the Auth handshake, inbound dispatch,
// the heartbeat, frame assembly and the teardown rule, as a state machine
// over the events one WebSocket connection observes.

module SessionClient {
  import opened Wrappers
  import opened Ids
  import opened Text
  import opened Messages

  // ---------------------------------------------------------------------------
  // Close codes and effects
  // ---------------------------------------------------------------------------

  /** The two close statuses the handler uses. */
  datatype CloseStatus = NormalClosure | PolicyViolation

  /** Status codes as assigned in section 7.4.1 of RFC 6455. */
  function CloseCode(s: CloseStatus): (code: nat)
    ensures 1000 <= code <= 1011
    ensures s.NormalClosure? <==> code == 1000
    ensures s.PolicyViolation? <==> code == 1008
  {
    match s
    case NormalClosure => 1000
    case PolicyViolation => 1008
  }

  /** What the handler does to the outside world, in order: a frame to the
      client, a close of the socket, or an event queued to the live session. */
  datatype Effect =
    | Send(message: WireMessage)
    | Close(status: CloseStatus, reason: string)
    | Submit(event: SessionEvent)

  // ---------------------------------------------------------------------------
  // Handshake
  // ---------------------------------------------------------------------------

  datatype AuthOutcome =
    | Rejected(reason: string)
    | Accepted(user: UserId, workspace: WorkspaceId)

  /** The Auth message's payload is usable: a non-blank token and a workspace id. */
  predicate GoodPayload(m: WireMessage)
    requires m.Auth?
  {
    !IsNullOrWhiteSpace(m.token) && m.workspace != EmptyGuid
  }

  /** The decision on the first frame. `first` is the decoded first message
      (None when the socket closed, failed or sent something undecodable);
      `resolveToken` is the token store's lookup and `visible` the workspace
      store's "this user can open this workspace". */
  function Authenticate(first: Option<WireMessage>,
                        resolveToken: string -> Option<UserId>,
                        visible: (UserId, WorkspaceId) -> bool): (r: AuthOutcome)
    ensures r.Accepted? <==>
              && first.Some? && first.value.Auth? && GoodPayload(first.value)
              && resolveToken(first.value.token.value).Some?
              && visible(resolveToken(first.value.token.value).value, first.value.workspace)
    ensures r.Accepted? ==>
              r.user == resolveToken(first.value.token.value).value && r.workspace == first.value.workspace
    ensures first.None? ==> r == Rejected("Expected Auth message")
    ensures first.Some? && !first.value.Auth? ==> r == Rejected("First message must be Auth")
    ensures first.Some? && first.value.Auth? && !GoodPayload(first.value) ==>
              r == Rejected("Invalid Auth payload")
    ensures (first.Some? && first.value.Auth? && GoodPayload(first.value) &&
             resolveToken(first.value.token.value).None?) ==> r == Rejected("Invalid token")
    ensures (first.Some? && first.value.Auth? && GoodPayload(first.value) &&
             resolveToken(first.value.token.value).Some? &&
             !visible(resolveToken(first.value.token.value).value, first.value.workspace)) ==>
              r == Rejected("Workspace not found or access denied")
    ensures r.Rejected? && r.reason == "Workspace not found or access denied" ==>
              first.Some? && first.value.Auth? && resolveToken(first.value.token.value).Some?
  {
    match first
    case None => Rejected("Expected Auth message")
    case Some(m) =>
      if !m.Auth? then Rejected("First message must be Auth")
      else if !GoodPayload(m) then Rejected("Invalid Auth payload")
      else
        var user := resolveToken(m.token.value);
        if user.None? then Rejected("Invalid token")
        else if !visible(user.value, m.workspace) then Rejected("Workspace not found or access denied")
        else Accepted(user.value, m.workspace)
  }

  // ---------------------------------------------------------------------------
  // The authenticated handler
  // ---------------------------------------------------------------------------

  /** Time is measured in DateTime ticks of 100 ns. */
  const TicksPerSecond := 10_000_000
  /** The heartbeat timer fires every 5 s. */
  const PingInterval := 5 * TicksPerSecond
  /** A pong is overdue once more than 10 s have passed since the ping. */
  const PingTimeout := 10 * TicksPerSecond

  /** An authenticated handler. `active` is false once the message loop has
      ended (the socket was closed or a receive came back empty). */
  datatype Handler = Handler(conn: ConnectionId, user: UserId, workspace: WorkspaceId,
                             lastPingSent: int, waitingForPong: bool, active: bool)

  /** A handler right after authentication; `created` is when it was constructed,
      which is what the last-ping time starts as. */
  function Start(conn: ConnectionId, user: UserId, workspace: WorkspaceId, created: int): Handler {
    Handler(conn, user, workspace, created, false, true)
  }

  datatype Turn = Turn(handler: Handler, effects: seq<Effect>)

  /** One decoded client message. A Pong clears the wait, a Ping is answered,
      a Disconnect closes normally, the three actions are handed to the session
      tagged with this connection and user, anything else is ignored. */
  function HandleClientMessage(h: Handler, m: WireMessage): (r: Turn)
    ensures m.Pong? ==> r == Turn(h.(waitingForPong := false), [])
    ensures m.Ping? ==> r == Turn(h, [Send(Pong)])
    ensures m.Disconnect? ==>
              r == Turn(h.(active := false), [Close(NormalClosure, "Client requested disconnect")])
    ensures IsAction(m) ==> r == Turn(h, [Submit(ClientAction(h.conn, h.user, m))])
    ensures !(m.Pong? || m.Ping? || m.Disconnect? || IsAction(m)) ==> r == Turn(h, [])
    ensures r.handler.conn == h.conn && r.handler.user == h.user && r.handler.workspace == h.workspace
  {
    match m
    case Pong => Turn(h.(waitingForPong := false), [])
    case Ping => Turn(h, [Send(Pong)])
    case Disconnect => Turn(h.(active := false), [Close(NormalClosure, "Client requested disconnect")])
    case Lock(_, _) => Turn(h, [Submit(ClientAction(h.conn, h.user, m))])
    case Unlock(_, _) => Turn(h, [Submit(ClientAction(h.conn, h.user, m))])
    case Custom(_, _, _) => Turn(h, [Submit(ClientAction(h.conn, h.user, m))])
    case _ => Turn(h, [])
  }

  /** The heartbeat tick as the handler performs it: an overdue pong closes the
      connection; otherwise a Ping goes out and its time is recorded, whether
      or not an earlier ping is still unanswered. */
  function PingTick(h: Handler, now: int): (r: Turn)
    ensures h.waitingForPong && now - h.lastPingSent > PingTimeout ==>
              r == Turn(h.(active := false), [Close(NormalClosure, "Ping timeout")])
    ensures !(h.waitingForPong && now - h.lastPingSent > PingTimeout) ==>
              && r.effects == [Send(Ping)]
              && r.handler == h.(waitingForPong := true, lastPingSent := now)
  {
    if h.waitingForPong && now - h.lastPingSent > PingTimeout then
      Turn(h.(active := false), [Close(NormalClosure, "Ping timeout")])
    else
      Turn(h.(waitingForPong := true, lastPingSent := now), [Send(Ping)])
  }

  /** The heartbeat tick with the time of the first unanswered ping kept: a
      further Ping while waiting leaves the recorded time alone, so a client
      that stops answering is closed once the timeout has passed. */
  function PingTickKeepingFirst(h: Handler, now: int): (r: Turn)
    ensures h.waitingForPong && now - h.lastPingSent > PingTimeout ==>
              r == Turn(h.(active := false), [Close(NormalClosure, "Ping timeout")])
    ensures !(h.waitingForPong && now - h.lastPingSent > PingTimeout) ==>
              && r.effects == [Send(Ping)]
              && r.handler.waitingForPong && r.handler.active == h.active
              && r.handler.lastPingSent == (if h.waitingForPong then h.lastPingSent else now)
  {
    if h.waitingForPong && now - h.lastPingSent > PingTimeout then
      Turn(h.(active := false), [Close(NormalClosure, "Ping timeout")])
    else if h.waitingForPong then
      Turn(h, [Send(Ping)])
    else
      Turn(h.(waitingForPong := true, lastPingSent := now), [Send(Ping)])
  }

  /** A run of heartbeat ticks with no client traffic in between. */
  function Ticks(h: Handler, times: seq<int>, keepFirst: bool): Turn
    decreases |times|
  {
    if |times| == 0 || !h.active then Turn(h, [])
    else
      var t := if keepFirst then PingTickKeepingFirst(h, times[0]) else PingTick(h, times[0]);
      var rest := Ticks(t.handler, times[1..], keepFirst);
      Turn(rest.handler, t.effects + rest.effects)
  }

  /** Consecutive instants are at most the timeout apart. */
  ghost predicate Dense(start: int, times: seq<int>) {
    (|times| > 0 ==> times[0] - start <= PingTimeout) &&
    forall i :: 0 < i < |times| ==> times[i] - times[i - 1] <= PingTimeout
  }

  /** As written, a client that never answers is never timed out as long as
      ticks keep arriving no more than 10 s apart, which the 5 s timer does:
      every tick resets the last-ping time before the check can trip. */
  lemma {:induction false} SilentClientIsNeverTimedOut(h: Handler, times: seq<int>)
    requires h.active && Dense(h.lastPingSent, times)
    ensures Ticks(h, times, false).handler.active
    ensures Ticks(h, times, false).effects == seq(|times|, _ => Send(Ping))
    decreases |times|
  {
    if |times| > 0 {
      var t := PingTick(h, times[0]);
      assert t.handler.lastPingSent == times[0];
      assert Dense(t.handler.lastPingSent, times[1..]);
      SilentClientIsNeverTimedOut(t.handler, times[1..]);
      assert t.effects + seq(|times| - 1, _ => Send(Ping)) == seq(|times|, _ => Send(Ping));
    }
  }

  /** The same silent client, ticked every 5 s from when the handler was
      created, for as long as one likes. */
  lemma RegularTicksNeverTimeOut(h: Handler, n: nat)
    requires h.active
    ensures Ticks(h, seq(n, i => h.lastPingSent + (i + 1) * PingInterval), false).handler.active
  {
    var times := seq(n, i => h.lastPingSent + (i + 1) * PingInterval);
    assert Dense(h.lastPingSent, times);
    SilentClientIsNeverTimedOut(h, times);
  }

  /** Keeping the first ping's time, a client that never answers is closed at
      the first tick more than the timeout after that ping. */
  lemma {:induction false} SilentClientTimesOut(h: Handler, times: seq<int>)
    requires h.active && h.waitingForPong
    requires |times| > 0 && times[|times| - 1] - h.lastPingSent > PingTimeout
    ensures !Ticks(h, times, true).handler.active
    ensures Close(NormalClosure, "Ping timeout") in Ticks(h, times, true).effects
    decreases |times|
  {
    var t := PingTickKeepingFirst(h, times[0]);
    if times[0] - h.lastPingSent > PingTimeout {
      assert Ticks(h, times, true).effects == t.effects + Ticks(t.handler, times[1..], true).effects;
      assert t.effects[0] == Close(NormalClosure, "Ping timeout");
    } else {
      assert |times| > 1;
      assert t.handler == h;
      SilentClientTimesOut(h, times[1..]);
    }
  }

  /** From a fresh start, the first tick sends a ping; with the first ping's time
      kept, any later tick more than 10 s after it closes the connection. */
  lemma SilentClientTimesOutFromStart(h: Handler, first: int, times: seq<int>)
    requires h.active && !h.waitingForPong
    requires |times| > 0 && times[|times| - 1] - first > PingTimeout
    ensures !Ticks(h, [first] + times, true).handler.active
  {
    var t := PingTickKeepingFirst(h, first);
    assert t.handler.lastPingSent == first && t.handler.waitingForPong && t.handler.active;
    assert ([first] + times)[1..] == times;
    SilentClientTimesOut(t.handler, times);
  }

  // ---------------------------------------------------------------------------
  // The message loop
  // ---------------------------------------------------------------------------

  /** What wakes the loop: a received client message (None when the receive
      came back empty), messages queued by the session, a timer tick, or the
      request being aborted. */
  datatype LoopEvent =
    | Inbound(message: Option<WireMessage>)
    | Outbound(messages: seq<WireMessage>)
    | Tick(now: int)
    | Aborted

  function SendAll(ms: seq<WireMessage>): (r: seq<Effect>)
    ensures |r| == |ms| && forall i :: 0 <= i < |ms| ==> r[i] == Send(ms[i])
  {
    seq(|ms|, i requires 0 <= i < |ms| => Send(ms[i]))
  }

  /** One turn of the loop. An empty receive ends it; so does an abort. Every
      message the session queued is forwarded in order. A tick runs the
      heartbeat as the handler performs it (`keepFirst` false) or with the
      first unanswered ping's time kept (`keepFirst` true). */
  function LoopStep(h: Handler, e: LoopEvent, keepFirst: bool): (r: Turn)
    ensures r.handler.conn == h.conn && r.handler.user == h.user && r.handler.workspace == h.workspace
    ensures forall x :: x in r.effects && x.Submit? ==>
              && x.event.ClientAction? && x.event.connectionId == h.conn && x.event.userId == h.user
              && IsAction(x.event.action)
    ensures e == Inbound(None) || e.Aborted? ==> !r.handler.active && r.effects == []
    ensures e.Outbound? ==> r == Turn(h, SendAll(e.messages))
    ensures e.Tick? && h.waitingForPong && e.now - h.lastPingSent > PingTimeout ==>
              !r.handler.active && r.effects == [Close(NormalClosure, "Ping timeout")]
    ensures e.Tick? && !(h.waitingForPong && e.now - h.lastPingSent > PingTimeout) ==>
              && r.effects == [Send(Ping)]
              && r.handler.waitingForPong && r.handler.active == h.active
              && r.handler.lastPingSent == (if keepFirst && h.waitingForPong then h.lastPingSent else e.now)
  {
    match e
    case Inbound(None) => Turn(h.(active := false), [])
    case Inbound(Some(m)) => HandleClientMessage(h, m)
    case Outbound(ms) => Turn(h, SendAll(ms))
    case Tick(now) => if keepFirst then PingTickKeepingFirst(h, now) else PingTick(h, now)
    case Aborted => Turn(h.(active := false), [])
  }

  /** The loop runs while the handler is active. */
  function Loop(h: Handler, events: seq<LoopEvent>, keepFirst: bool): Turn
    decreases |events|
  {
    if |events| == 0 || !h.active then Turn(h, [])
    else
      var t := LoopStep(h, events[0], keepFirst);
      var rest := Loop(t.handler, events[1..], keepFirst);
      Turn(rest.handler, t.effects + rest.effects)
  }

  /** Everything the loop hands to the session is an action, wrapped with this
      handler's own connection and user; nothing else reaches the session. */
  lemma {:induction false} LoopSubmitsOnlyOwnActions(h: Handler, events: seq<LoopEvent>, keepFirst: bool)
    ensures var r := Loop(h, events, keepFirst);
            && r.handler.conn == h.conn && r.handler.user == h.user
            && forall x :: x in r.effects && x.Submit? ==>
                 && x.event.ClientAction? && x.event.connectionId == h.conn && x.event.userId == h.user
                 && IsAction(x.event.action)
    decreases |events|
  {
    if |events| > 0 && h.active {
      var t := LoopStep(h, events[0], keepFirst);
      LoopSubmitsOnlyOwnActions(t.handler, events[1..], keepFirst);
    }
  }

  /** Once the loop has stopped, later events have no effect. */
  lemma {:induction false} LoopStopsForGood(h: Handler, events: seq<LoopEvent>, more: seq<LoopEvent>, keepFirst: bool)
    requires !Loop(h, events, keepFirst).handler.active
    ensures Loop(h, events + more, keepFirst) == Loop(h, events, keepFirst)
    decreases |events|
  {
    if |events| > 0 && h.active {
      var t := LoopStep(h, events[0], keepFirst);
      assert (events + more)[0] == events[0];
      assert (events + more)[1..] == events[1..] + more;
      LoopStopsForGood(t.handler, events[1..], more, keepFirst);
    }
  }

  /** Timer ticks as loop events. */
  function TickEvents(times: seq<int>): (r: seq<LoopEvent>)
    ensures |r| == |times| && forall i :: 0 <= i < |times| ==> r[i] == Tick(times[i])
  {
    seq(|times|, i requires 0 <= i < |times| => Tick(times[i]))
  }

  /** A loop that only sees timer ticks behaves as the bare heartbeat does. */
  lemma {:induction false} LoopOfTicks(h: Handler, times: seq<int>, keepFirst: bool)
    ensures Loop(h, TickEvents(times), keepFirst) == Ticks(h, times, keepFirst)
    decreases |times|
  {
    if |times| > 0 && h.active {
      var t := LoopStep(h, Tick(times[0]), keepFirst);
      assert TickEvents(times)[1..] == TickEvents(times[1..]);
      LoopOfTicks(t.handler, times[1..], keepFirst);
    }
  }

  /** In this loop, where every wake-up is a whole event, the heartbeat as
      written never closes a silent client while ticks arrive no more than
      10 s apart; with the first ping's time kept, the same loop closes it
      once a tick comes more than 10 s after that ping. The handler's
      overlapping receives, which this loop does not have, are a separate
      matter. */
  lemma SilentClientInTheLoop(h: Handler, times: seq<int>)
    requires h.active
    ensures Dense(h.lastPingSent, times) ==> Loop(h, TickEvents(times), false).handler.active
    ensures h.waitingForPong && |times| > 0 && times[|times| - 1] - h.lastPingSent > PingTimeout ==>
              !Loop(h, TickEvents(times), true).handler.active
  {
    LoopOfTicks(h, times, false);
    LoopOfTicks(h, times, true);
    if Dense(h.lastPingSent, times) {
      SilentClientIsNeverTimedOut(h, times);
    }
    if h.waitingForPong && |times| > 0 && times[|times| - 1] - h.lastPingSent > PingTimeout {
      SilentClientTimesOut(h, times);
    }
  }

  // ---------------------------------------------------------------------------
  // A whole connection
  // ---------------------------------------------------------------------------

  /** How far the hand-over to the session got once authenticated: the request
      was aborted while queuing Connect, or while waiting for the session's
      first message, or that message arrived (None if the read came back empty). */
  datatype Handshake =
    | AbortedAtConnect
    | AbortedAtReply
    | Replied(first: Option<WireMessage>)

  datatype Connection = Connection(effects: seq<Effect>, finished: bool)

  /** The handler's lifecycle. A rejected first frame closes with a policy
      violation and nothing reaches the session. Once accepted, the session
      for the workspace is obtained, Connect is queued, the session's first
      message is forwarded, the loop runs, and on the way out - however the
      loop ended, and even when Connect itself was aborted - exactly one
      Disconnect is queued. An unfinished loop has not reached teardown yet.
      `keepFirst` chooses the heartbeat the loop runs: false is the handler
      as written. */
  function Lifecycle(conn: ConnectionId, created: int,
                     first: Option<WireMessage>,
                     resolveToken: string -> Option<UserId>,
                     visible: (UserId, WorkspaceId) -> bool,
                     handshake: Handshake, events: seq<LoopEvent>, keepFirst: bool): (r: Connection)
    ensures Authenticate(first, resolveToken, visible).Rejected? ==>
              r == Connection([Close(PolicyViolation, Authenticate(first, resolveToken, visible).reason)], true)
  {
    match Authenticate(first, resolveToken, visible)
    case Rejected(reason) => Connection([Close(PolicyViolation, reason)], true)
    case Accepted(user, workspace) =>
      var leave := [Submit(ClientDisconnect(conn, user))];
      match handshake
      case AbortedAtConnect => Connection(leave, true)
      case AbortedAtReply => Connection([Submit(ClientConnect(conn, user))] + leave, true)
      case Replied(reply) =>
        var forwarded := if reply.Some? then [Send(reply.value)] else [];
        var loop := Loop(Start(conn, user, workspace, created), events, keepFirst);
        var prefix := [Submit(ClientConnect(conn, user))] + forwarded + loop.effects;
        if loop.handler.active then Connection(prefix, false)
        else Connection(prefix + leave, true)
  }

  /** How many times the effects queue a Disconnect. */
  function Disconnects(effects: seq<Effect>): nat {
    if |effects| == 0 then 0
    else (if effects[0].Submit? && effects[0].event.ClientDisconnect? then 1 else 0) + Disconnects(effects[1..])
  }

  lemma {:induction false} DisconnectsAppend(a: seq<Effect>, b: seq<Effect>)
    ensures Disconnects(a + b) == Disconnects(a) + Disconnects(b)
    decreases |a|
  {
    if |a| > 0 {
      assert (a + b)[0] == a[0];
      assert (a + b)[1..] == a[1..] + b;
      DisconnectsAppend(a[1..], b);
    } else {
      assert a + b == b;
    }
  }

  lemma {:induction false} NoDisconnectsWithoutOne(effects: seq<Effect>)
    requires forall x :: x in effects && x.Submit? ==> !x.event.ClientDisconnect?
    ensures Disconnects(effects) == 0
    decreases |effects|
  {
    if |effects| > 0 {
      assert forall x :: x in effects[1..] ==> x in effects;
      NoDisconnectsWithoutOne(effects[1..]);
    }
  }

  /** The teardown rule. A finished connection queues exactly one Disconnect,
      for its own connection and user, as its last effect, if and only if it
      was authenticated; a rejected one queues nothing at all. Every event that
      reaches the session carries this connection's id and the authenticated
      user, and Connect, when queued, comes first. */
  lemma Teardown(conn: ConnectionId, created: int, first: Option<WireMessage>,
                 resolveToken: string -> Option<UserId>, visible: (UserId, WorkspaceId) -> bool,
                 handshake: Handshake, events: seq<LoopEvent>, keepFirst: bool)
    ensures var auth := Authenticate(first, resolveToken, visible);
            var r := Lifecycle(conn, created, first, resolveToken, visible, handshake, events, keepFirst);
            && (auth.Rejected? ==> forall x :: x in r.effects ==> !x.Submit?)
            && (r.finished ==> Disconnects(r.effects) == (if auth.Accepted? then 1 else 0))
            && (r.finished && auth.Accepted? ==>
                  r.effects[|r.effects| - 1] == Submit(ClientDisconnect(conn, auth.user)))
            && (!r.finished ==> auth.Accepted? && Disconnects(r.effects) == 0)
            && (auth.Accepted? ==> forall x :: x in r.effects && x.Submit? ==>
                  !x.event.Unrecognised? && x.event.connectionId == conn && x.event.userId == auth.user)
            && (auth.Accepted? && !handshake.AbortedAtConnect? ==>
                  r.effects[0] == Submit(ClientConnect(conn, auth.user)))
  {
    var auth := Authenticate(first, resolveToken, visible);
    if auth.Accepted? {
      var user := auth.user;
      var leave := [Submit(ClientDisconnect(conn, user))];
      match handshake
      case AbortedAtConnect =>
      case AbortedAtReply =>
        DisconnectsAppend([Submit(ClientConnect(conn, user))], leave);
      case Replied(reply) =>
        var forwarded := if reply.Some? then [Send(reply.value)] else [];
        var h := Start(conn, user, auth.workspace, created);
        var loop := Loop(h, events, keepFirst);
        LoopSubmitsOnlyOwnActions(h, events, keepFirst);
        NoDisconnectsWithoutOne(loop.effects);
        var head := [Submit(ClientConnect(conn, user))] + forwarded;
        assert Disconnects(head) == 0 by {
          NoDisconnectsWithoutOne(head);
        }
        DisconnectsAppend(head, loop.effects);
        var prefix := head + loop.effects;
        assert [Submit(ClientConnect(conn, user))] + forwarded + loop.effects == prefix;
        DisconnectsAppend(prefix, leave);
        assert prefix[0] == Submit(ClientConnect(conn, user));
    }
  }

  // ---------------------------------------------------------------------------
  // Receiving one message
  // ---------------------------------------------------------------------------

  type byte = bv8

  /** The receive buffer holds 8 KiB, so no single receive returns more. */
  const ChunkSize := 8 * 1024
  /** A message that grows past 256 KiB before its last fragment is dropped. */
  const MaxBuffered := 256 * 1024

  /** What one receive into the buffer yields: a data fragment (`last` marks the
      end of the message), a close frame, or a failure (socket error or
      cancellation). */
  datatype Receipt =
    | Fragment(data: seq<byte>, last: bool)
    | CloseReceived
    | ReceiveFailed

  predicate FitsBuffer(x: Receipt) {
    x.Fragment? ==> |x.data| <= ChunkSize
  }

  /** The outcome of assembling a message: its bytes and how many receipts it
      took, "null" after that many receipts, or not yet decided when the
      receipts run out. */
  datatype Assembly =
    | Complete(payload: seq<byte>, used: nat)
    | Null(used: nat)
    | Incomplete

  /** The reference definition: fragments accumulate until the last one; a
      close or failure gives null; after a non-final fragment, more than
      256 KiB buffered gives null. */
  function Assemble(receipts: seq<Receipt>, buffered: seq<byte>): Assembly
    decreases |receipts|
  {
    if |receipts| == 0 then Incomplete
    else match receipts[0]
      case CloseReceived => Null(1)
      case ReceiveFailed => Null(1)
      case Fragment(data, last) =>
        var acc := buffered + data;
        if last then Complete(acc, 1)
        else if |acc| > MaxBuffered then Null(1)
        else match Assemble(receipts[1..], acc)
          case Complete(p, n) => Complete(p, n + 1)
          case Null(n) => Null(n + 1)
          case Incomplete => Incomplete
  }

  /** The largest message that gets through is one buffer past the limit. */
  lemma {:induction false} AssembledSizeBound(receipts: seq<Receipt>, buffered: seq<byte>)
    requires |buffered| <= MaxBuffered
    requires forall i :: 0 <= i < |receipts| ==> FitsBuffer(receipts[i])
    ensures Assemble(receipts, buffered).Complete? ==>
              |Assemble(receipts, buffered).payload| <= MaxBuffered + ChunkSize
    ensures Assemble(receipts, buffered).Complete? ==> Assemble(receipts, buffered).used <= |receipts|
    decreases |receipts|
  {
    if |receipts| > 0 && receipts[0].Fragment? && !receipts[0].last {
      var acc := buffered + receipts[0].data;
      if |acc| <= MaxBuffered {
        AssembledSizeBound(receipts[1..], acc);
      }
    }
  }

  /** A decided assembly used at least one receipt and no more than there were. */
  lemma {:induction false} AssemblyUsesReceipts(receipts: seq<Receipt>, buffered: seq<byte>)
    ensures Assemble(receipts, buffered).Complete? || Assemble(receipts, buffered).Null? ==>
              1 <= Assemble(receipts, buffered).used <= |receipts|
    decreases |receipts|
  {
    if |receipts| > 0 && receipts[0].Fragment? && !receipts[0].last {
      AssemblyUsesReceipts(receipts[1..], buffered + receipts[0].data);
    }
  }

  /** The receive loop: reads receipts one at a time into a buffer until the
      message is complete or dropped. */
  method ReceiveMessage(receipts: seq<Receipt>) returns (r: Assembly)
    ensures r == Assemble(receipts, [])
  {
    var buffer: seq<byte> := [];
    var i := 0;
    r := Incomplete;
    while i < |receipts| && r.Incomplete?
      invariant 0 <= i <= |receipts|
      invariant r.Incomplete? ==> |buffer| <= MaxBuffered
      invariant r.Incomplete? ==> Assemble(receipts, []) == Shift(Assemble(receipts[i..], buffer), i)
      invariant !r.Incomplete? ==> r == Assemble(receipts, [])
      decreases |receipts| - i
    {
      var x := receipts[i];
      if !x.Fragment? {
        r := Null(i + 1);
      } else {
        buffer := buffer + x.data;
        if x.last {
          r := Complete(buffer, i + 1);
        } else if |buffer| > MaxBuffered {
          r := Null(i + 1);
        } else {
          assert receipts[i..][1..] == receipts[i + 1..];
        }
      }
      i := i + 1;
    }
    if r.Incomplete? {
      assert receipts[i..] == [];
    }
  }

  /** The outcome of an assembly that starts `k` receipts in. */
  function Shift(a: Assembly, k: nat): (r: Assembly)
    ensures r.Incomplete? <==> a.Incomplete?
  {
    match a
    case Complete(p, n) => Complete(p, n + k)
    case Null(n) => Null(n + k)
    case Incomplete => Incomplete
  }

  /** A whole receive: assembled bytes are decoded by `decode` (UTF-8 and
      JSON, which give None on any failure); a dropped message is null. */
  function Receive(receipts: seq<Receipt>, decode: seq<byte> -> Option<WireMessage>): (r: Option<Option<WireMessage>>)
    ensures r.None? <==> Assemble(receipts, []).Incomplete?
    ensures Assemble(receipts, []).Null? ==> r == Some(None)
    ensures Assemble(receipts, []).Complete? ==> r == Some(decode(Assemble(receipts, []).payload))
  {
    match Assemble(receipts, [])
    case Complete(p, _) => Some(decode(p))
    case Null(_) => Some(None)
    case Incomplete => None
  }
}

=== FILE: session_properties.dfy ===
/** What the live session keeps true across its event sequence: one connection
    per user, held locks that only their holder releases, and, for traces whose
    actions come from current clients, lock holders that are still connected. */
module SessionProperties {
  import opened Wrappers
  import opened Ids
  import opened Messages
  import opened LiveSession

  // ---------------------------------------------------------------------------
  // Single active connection per user
  // ---------------------------------------------------------------------------

  /** Every client is its user's recorded active connection. */
  ghost predicate OneConnectionPerUser(s: Session) {
    forall c :: c in s.clients ==>
      s.clients[c] in s.userConnections && s.userConnections[s.clients[c]] == c
  }

  /** Under the invariant no user has two connections in the session. */
  lemma NoUserTwice(s: Session, c1: ConnectionId, c2: ConnectionId)
    requires OneConnectionPerUser(s)
    requires c1 in s.clients && c2 in s.clients && s.clients[c1] == s.clients[c2]
    ensures c1 == c2
  {
  }

  lemma ProcessKeepsOneConnectionPerUser(s: Session, e: SessionEvent)
    requires OneConnectionPerUser(s)
    ensures OneConnectionPerUser(Process(s, e).session)
  {
    match e
    case ClientConnect(conn, user) =>
      var r := HandleConnect(s, conn, user).session;
      forall c | c in r.clients
        ensures r.clients[c] in r.userConnections && r.userConnections[r.clients[c]] == c
      {
        if c != conn {
          assert c in s.clients && r.clients[c] == s.clients[c];
        }
      }
    case ClientDisconnect(conn, user) =>
    case ClientAction(conn, user, action) =>
    case Unrecognised =>
  }

  /** The invariant holds after any sequence of events, whatever their ids. */
  lemma {:induction false} RunKeepsOneConnectionPerUser(s: Session, events: seq<SessionEvent>)
    requires OneConnectionPerUser(s)
    ensures OneConnectionPerUser(Run(s, events).session)
    decreases |events|
  {
    if |events| > 0 {
      ProcessKeepsOneConnectionPerUser(s, events[0]);
      RunKeepsOneConnectionPerUser(Process(s, events[0]).session, events[1..]);
    }
  }

  // ---------------------------------------------------------------------------
  // Lock mutual exclusion
  // ---------------------------------------------------------------------------

  /** The event releases note `n`: an Unlock by its holder, or the holder's
      departure through a connection that was a client. */
  ghost predicate Releases(s: Session, e: SessionEvent, n: NoteId)
    requires n in s.locks
  {
    || (e.ClientAction? && e.action.Unlock? && e.action.noteId == n && e.userId == s.locks[n])
    || (e.ClientDisconnect? && e.connectionId in s.clients && e.userId == s.locks[n])
  }

  /** No event hands a held note to another user: a lock keeps its holder until
      it is released, and only the holder's Unlock or departure releases it. */
  lemma HeldLocksAreNeverTaken(s: Session, e: SessionEvent, n: NoteId)
    requires n in s.locks
    ensures n in Process(s, e).session.locks ==> Process(s, e).session.locks[n] == s.locks[n]
    ensures n !in Process(s, e).session.locks <==> Releases(s, e, n)
  {
  }

  /** Locking twice is locking once. */
  lemma LockIsIdempotent(s: Session, conn: ConnectionId, user: UserId, note: NoteId, claimed: UserId)
    requires !LockRefused(s, user, Lock(claimed, note))
    ensures var once := HandleAction(s, conn, user, Lock(claimed, note)).session;
            !LockRefused(once, user, Lock(claimed, note))
            && HandleAction(once, conn, user, Lock(claimed, note)).session == once
  {
  }

  // ---------------------------------------------------------------------------
  // Lock holders are present, for well-formed traces
  // ---------------------------------------------------------------------------

  /** A user's recorded connection, when it is a client, belongs to that user. */
  ghost predicate Coherent(s: Session) {
    forall u :: u in s.userConnections && s.userConnections[u] in s.clients ==>
      s.clients[s.userConnections[u]] == u
  }

  /** Every lock holder has an active connection that is a client. */
  ghost predicate LockHoldersPresent(s: Session) {
    forall n :: n in s.locks ==>
      s.locks[n] in s.userConnections && s.userConnections[s.locks[n]] in s.clients
  }

  ghost predicate Healthy(s: Session) {
    OneConnectionPerUser(s) && Coherent(s) && LockHoldersPresent(s)
  }

  /** An event as a connection handler that behaves would post it: a Connect
      with an id never seen before, a Disconnect carrying its connection's own
      user, and an Action from a connection that is still a client, acting as
      its own user. */
  ghost predicate WellFormedEvent(s: Session, e: SessionEvent) {
    match e
    case ClientConnect(c, _) =>
      c !in s.clients && forall u :: u in s.userConnections ==> s.userConnections[u] != c
    case ClientDisconnect(c, u) => c in s.clients ==> s.clients[c] == u
    case ClientAction(c, u, _) => c in s.clients && s.clients[c] == u
    case Unrecognised => true
  }

  ghost predicate WellFormedTrace(s: Session, events: seq<SessionEvent>)
    decreases |events|
  {
    |events| == 0 ||
      (WellFormedEvent(s, events[0]) && WellFormedTrace(Process(s, events[0]).session, events[1..]))
  }

  lemma ProcessKeepsHealthy(s: Session, e: SessionEvent)
    requires Healthy(s) && WellFormedEvent(s, e)
    ensures Healthy(Process(s, e).session)
  {
    ProcessKeepsOneConnectionPerUser(s, e);
    var r := Process(s, e).session;
    match e
    case ClientConnect(conn, user) =>
      forall u | u in r.userConnections && r.userConnections[u] in r.clients
        ensures r.clients[r.userConnections[u]] == u
      {
        if u != user {
          var c := s.userConnections[u];
          assert c != conn;
          if Evicts(s, user) && c == s.userConnections[user] {
            assert false;
          }
        }
      }
      forall n | n in r.locks
        ensures r.locks[n] in r.userConnections && r.userConnections[r.locks[n]] in r.clients
      {
        var h := s.locks[n];
        if h != user {
          var c := s.userConnections[h];
          if Evicts(s, user) && c == s.userConnections[user] {
            assert false;
          }
        }
      }
    case ClientDisconnect(conn, user) =>
      if conn in s.clients {
        forall n | n in r.locks
          ensures r.locks[n] in r.userConnections && r.userConnections[r.locks[n]] in r.clients
        {
          var h := s.locks[n];
          assert h != user;
          assert s.userConnections[h] != conn;
        }
      }
    case ClientAction(conn, user, action) =>
    case Unrecognised =>
  }

  /** Along a well-formed trace every lock holder stays connected. */
  lemma {:induction false} RunKeepsHealthy(s: Session, events: seq<SessionEvent>)
    requires Healthy(s) && WellFormedTrace(s, events)
    ensures Healthy(Run(s, events).session)
    decreases |events|
  {
    if |events| > 0 {
      ProcessKeepsHealthy(s, events[0]);
      RunKeepsHealthy(Process(s, events[0]).session, events[1..]);
    }
  }

  /** Without the well-formedness of actions, a lock can outlive every
      connection of its holder. A user's first connection is evicted by a
      second one; the second leaves; the first, whose handler is still running,
      locks a note; then the first leaves too, and its Disconnect is ignored
      because it is no longer a client. The lock is never released. */
  lemma EvictedConnectionLeavesStaleLock()
    ensures var u: UserId := 1;
            var n: NoteId := 7;
            var s := Run(Initial, [
                       ClientConnect(10, u), ClientConnect(11, u), ClientDisconnect(11, u),
                       ClientAction(10, u, Lock(u, n)), ClientDisconnect(10, u)]).session;
            && n in s.locks && s.locks[n] == u
            && s.clients == map[]
            && !LockHoldersPresent(s)
  {
    var u: UserId := 1;
    var n: NoteId := 7;
    var s1 := Process(Initial, ClientConnect(10, u)).session;
    assert s1.clients == map[10 := u] && s1.userConnections == map[u := 10];
    var s2 := Process(s1, ClientConnect(11, u)).session;
    assert Evicts(s1, u);
    assert s2.clients == map[11 := u] && s2.userConnections == map[u := 11];
    var s3 := Process(s2, ClientDisconnect(11, u)).session;
    assert s3.clients == map[] && s3.userConnections == map[];
    var s4 := Process(s3, ClientAction(10, u, Lock(u, n))).session;
    assert s4.locks == map[n := u];
    var s5 := Process(s4, ClientDisconnect(10, u)).session;
    assert s5 == s4;
    var events := [ClientConnect(10, u), ClientConnect(11, u), ClientDisconnect(11, u),
                   ClientAction(10, u, Lock(u, n)), ClientDisconnect(10, u)];
    assert Run(s4, events[4..]).session == s5 by {
      assert events[4..][1..] == [];
    }
    assert Run(s3, events[3..]).session == s5 by {
      assert events[3..][1..] == events[4..];
    }
    assert Run(s2, events[2..]).session == s5 by {
      assert events[2..][1..] == events[3..];
    }
    assert Run(s1, events[1..]).session == s5 by {
      assert events[1..][1..] == events[2..];
    }
  }

  // ---------------------------------------------------------------------------
  // Client count
  // ---------------------------------------------------------------------------

  /** Replacing one key of a map by a new one keeps its size. */
  lemma ReplaceKeepsSize(a: map<ConnectionId, UserId>, b: map<ConnectionId, UserId>,
                         prev: ConnectionId, conn: ConnectionId)
    requires prev in a && conn !in a
    requires forall c :: c in b <==> c == conn || (c in a && c != prev)
    ensures |b| == |a|
  {
    assert b.Keys == (a.Keys - {prev}) + {conn};
  }

  /** Adding a new key to a map grows it by one. */
  lemma AddGrowsSize(a: map<ConnectionId, UserId>, b: map<ConnectionId, UserId>, conn: ConnectionId)
    requires conn !in a
    requires forall c :: c in b <==> c == conn || c in a
    ensures |b| == |a| + 1
  {
    assert b.Keys == a.Keys + {conn};
  }

  /** A Connect with a new connection id adds one client, unless it evicts the
      user's previous connection, in which case the count stays the same. */
  lemma ConnectClientCount(s: Session, conn: ConnectionId, user: UserId)
    requires conn !in s.clients
    ensures ClientCount(HandleConnect(s, conn, user).session) ==
              ClientCount(s) + (if Evicts(s, user) then 0 else 1)
  {
    var r := HandleConnect(s, conn, user).session;
    if Evicts(s, user) {
      ReplaceKeepsSize(s.clients, r.clients, s.userConnections[user], conn);
    } else {
      AddGrowsSize(s.clients, r.clients, conn);
    }
  }

  // ---------------------------------------------------------------------------
  // A worked scenario
  // ---------------------------------------------------------------------------

  // Users A = 1 and B = 2 on connections 10 and 20, and note 7.
  const ScenarioJoined := Session(map[10 := 1, 20 := 2], map[], map[1 := 10, 2 := 20])
  const ScenarioLocked := ScenarioJoined.(locks := map[7 := 1])

  lemma ScenarioJoin()
    ensures Run(Initial, [ClientConnect(10, 1), ClientConnect(20, 2)]).session == ScenarioJoined
  {
    var events := [ClientConnect(10, 1), ClientConnect(20, 2)];
    var s1 := Process(Initial, events[0]).session;
    assert s1 == Session(map[10 := 1], map[], map[1 := 10]);
    assert events[1..][1..] == [];
    assert Process(s1, events[1]).session == ScenarioJoined;
  }

  lemma ScenarioLock()
    ensures var st := Process(ScenarioJoined, ClientAction(10, 1, Lock(1, 7)));
            && st.session == ScenarioLocked
            && Received(st.out, 20) == [Lock(1, 7)] && Received(st.out, 10) == []
  {
  }

  lemma ScenarioConflict()
    ensures var st := Process(ScenarioLocked, ClientAction(20, 2, Lock(2, 7)));
            && st.session == ScenarioLocked
            && Received(st.out, 20) == [ServerError(Some(LockedNotice(7)))] && Received(st.out, 10) == []
  {
  }

  lemma ScenarioLeave()
    ensures var st := Process(ScenarioLocked, ClientDisconnect(10, 1));
            && st.session.clients == map[20 := 2] && st.session.locks == map[]
            && Received(st.out, 20) == [UserLeft(1)]
  {
  }

  /** Clients A and B join; A locks a note and B sees the relayed Lock; B's Lock
      on the same note earns B an error and nothing else; A leaves, B is told,
      and the note is free again. */
  lemma TwoClientsContendForANote()
    ensures var s2 := Run(Initial, [ClientConnect(10, 1), ClientConnect(20, 2)]).session;
            var step3 := Process(s2, ClientAction(10, 1, Lock(1, 7)));
            var step4 := Process(step3.session, ClientAction(20, 2, Lock(2, 7)));
            var step5 := Process(step4.session, ClientDisconnect(10, 1));
            && Received(step3.out, 20) == [Lock(1, 7)] && Received(step3.out, 10) == []
            && step3.session.locks == map[7 := 1]
            && Received(step4.out, 20) == [ServerError(Some(LockedNotice(7)))]
            && Received(step4.out, 10) == []
            && step4.session == step3.session
            && Received(step5.out, 20) == [UserLeft(1)]
            && 7 !in step5.session.locks
  {
    ScenarioJoin();
    ScenarioLock();
    ScenarioConflict();
    ScenarioLeave();
  }
}

=== FILE: session_registry.dfy ===
// The registry of live sessions, one per workspace, taken one call at a time.

module SessionRegistry {
  import opened Wrappers
  import opened Ids

  /** One live session instance: the workspace it was created for and a serial
      number telling instances apart (a new one is started for every entry the
      registry adds). */
  datatype SessionHandle = SessionHandle(workspace: WorkspaceId, serial: nat)

  type Registry = map<WorkspaceId, SessionHandle>

  /** Every entry's session belongs to the workspace it is filed under. */
  predicate WellKeyed(reg: Registry) {
    forall w :: w in reg ==> reg[w].workspace == w
  }

  datatype Lookup = Lookup(registry: Registry, session: SessionHandle)

  /** Insert-if-absent: a workspace already present keeps its session; an absent
      one gets a new session started under serial `serial`. */
  function GetOrCreate(reg: Registry, workspace: WorkspaceId, serial: nat): (r: Lookup)
    ensures workspace in reg ==> r == Lookup(reg, reg[workspace])
    ensures workspace !in reg ==>
              && r.session == SessionHandle(workspace, serial)
              && r.registry == reg[workspace := r.session]
              && |r.registry| == |reg| + 1
    ensures workspace in r.registry && r.registry[workspace] == r.session
    ensures WellKeyed(reg) ==> WellKeyed(r.registry) && r.session.workspace == workspace
  {
    if workspace in reg then Lookup(reg, reg[workspace])
    else
      var session := SessionHandle(workspace, serial);
      Lookup(reg[workspace := session], session)
  }

  /** Two lookups of the same workspace, one after the other, find the same
      session, whatever serial the second would have used. */
  lemma GetOrCreateIsStable(reg: Registry, workspace: WorkspaceId, serial1: nat, serial2: nat)
    ensures var first := GetOrCreate(reg, workspace, serial1);
            var second := GetOrCreate(first.registry, workspace, serial2);
            second.session == first.session && second.registry == first.registry
  {
  }

  datatype Removal = Removal(registry: Registry, cancelled: Option<SessionHandle>)

  /** Removing an absent workspace does nothing; removing a present one drops
      the entry and cancels its session. */
  function Remove(reg: Registry, workspace: WorkspaceId): (r: Removal)
    ensures workspace !in reg ==> r == Removal(reg, None)
    ensures workspace in reg ==>
              && r.cancelled == Some(reg[workspace])
              && workspace !in r.registry
              && (forall w :: w in r.registry <==> w in reg && w != workspace)
              && (forall w :: w in r.registry ==> r.registry[w] == reg[w])
              && |r.registry| == |reg| - 1
  {
    if workspace in reg then Removal(reg - {workspace}, Some(reg[workspace]))
    else Removal(reg, None)
  }

  /** The number of live sessions: one per registered workspace. */
  function ActiveSessionCount(reg: Registry): (n: nat)
    ensures n == |reg.Keys|
    ensures n == 0 <==> reg == map[]
  {
    |reg|
  }

  /** Creating a session for an absent workspace raises the count by one and
      finding an existing one leaves it; removing a present workspace lowers
      it by one and removing an absent one leaves it. */
  lemma ActiveSessionCountFollowsRegistry(reg: Registry, workspace: WorkspaceId, serial: nat)
    ensures ActiveSessionCount(GetOrCreate(reg, workspace, serial).registry)
              == ActiveSessionCount(reg) + (if workspace in reg then 0 else 1)
    ensures ActiveSessionCount(Remove(reg, workspace).registry)
              == ActiveSessionCount(reg) - (if workspace in reg then 1 else 0)
  {
  }

  /** Removal undoes a creation: removing a workspace that was just created
      restores the registry and cancels exactly the new session. */
  lemma RemoveUndoesCreate(reg: Registry, workspace: WorkspaceId, serial: nat)
    requires workspace !in reg
    ensures var created := GetOrCreate(reg, workspace, serial);
            var removed := Remove(created.registry, workspace);
            removed.registry == reg && removed.cancelled == Some(created.session)
  {
    var created := GetOrCreate(reg, workspace, serial);
    assert created.registry - {workspace} == reg;
  }

  /** Shutdown: every registered workspace is removed in turn and each of their
      sessions cancelled once. */
  method StopAll(reg: Registry) returns (r: Registry, cancelled: set<SessionHandle>)
    ensures r == map[] && ActiveSessionCount(r) == 0
    ensures cancelled == reg.Values
  {
    r := reg;
    cancelled := {};
    var pending := reg.Keys;
    while pending != {}
      invariant pending == r.Keys && pending <= reg.Keys
      invariant forall w :: w in r ==> r[w] == reg[w]
      invariant cancelled == set w | w in reg.Keys - pending :: reg[w]
      decreases |pending|
    {
      var w :| w in pending;
      var removal := Remove(r, w);
      r := removal.registry;
      cancelled := cancelled + {removal.cancelled.value};
      pending := pending - {w};
    }
    assert reg.Keys - pending == reg.Keys;
  }
}

=== FILE: text.dfy ===
/** The .NET string helpers the core relies on: whitespace tests, `Split`/`Join`
    on one separator character, and 32-bit integer formatting and `int.TryParse`. */
module Text {
  import opened Wrappers

  /** `char.IsWhiteSpace`: the Unicode space separators, the line and paragraph
      separators, and the control characters U+0009..U+000D, U+0085. */
  predicate IsWhiteSpace(c: char) {
    || c == ' ' || ('\t' <= c <= '\r') || c == '\U{0085}' || c == '\U{00A0}'
    || c == '\U{1680}' || ('\U{2000}' <= c <= '\U{200A}') || c == '\U{2028}' || c == '\U{2029}'
    || c == '\U{202F}' || c == '\U{205F}' || c == '\U{3000}'
  }

  /** `string.IsNullOrWhiteSpace`. */
  predicate IsNullOrWhiteSpace(s: Option<string>) {
    s.None? || forall i :: 0 <= i < |s.value| ==> IsWhiteSpace(s.value[i])
  }

  /** `string.IsNullOrEmpty`. */
  predicate IsNullOrEmpty(s: Option<string>) {
    s.None? || |s.value| == 0
  }

  /** Ordinal `StartsWith`. */
  predicate StartsWith(s: string, prefix: string) {
    |prefix| <= |s| && s[..|prefix|] == prefix
  }

  function UpperAscii(c: char): char {
    if 'a' <= c <= 'z' then c - 'a' + 'A' else c
  }

  /** Case-insensitive equality of two strings, folding ASCII letters only. */
  predicate EqualsIgnoreCase(a: string, b: string) {
    |a| == |b| && forall i :: 0 <= i < |a| ==> UpperAscii(a[i]) == UpperAscii(b[i])
  }

  // ---------------------------------------------------------------------------
  // Split and Join on one separator character
  // ---------------------------------------------------------------------------

  /** `s.Split(sep)`: the pieces between separators, empty pieces included. */
  function Split(s: string, sep: char): (r: seq<string>)
    ensures |r| >= 1
    ensures forall i :: 0 <= i < |r| ==> sep !in r[i]
    decreases |s|
  {
    if |s| == 0 then [""]
    else
      var rest := Split(s[1..], sep);
      if s[0] == sep then [""] + rest
      else [[s[0]] + rest[0]] + rest[1..]
  }

  /** `string.Join(sep, parts)`. */
  function Join(parts: seq<string>, sep: char): string
    decreases |parts|
  {
    if |parts| == 0 then ""
    else if |parts| == 1 then parts[0]
    else parts[0] + [sep] + Join(parts[1..], sep)
  }

  lemma {:induction false} SplitWithoutSeparator(a: string, sep: char)
    requires sep !in a
    ensures Split(a, sep) == [a]
    decreases |a|
  {
    if |a| > 0 {
      SplitWithoutSeparator(a[1..], sep);
      assert [a[0]] + a[1..] == a;
    }
  }

  lemma {:induction false} SplitAfterPiece(a: string, b: string, sep: char)
    requires sep !in a
    ensures Split(a + [sep] + b, sep) == [a] + Split(b, sep)
    decreases |a|
  {
    var s := a + [sep] + b;
    if |a| == 0 {
      assert s[1..] == b;
    } else {
      assert s[1..] == a[1..] + [sep] + b;
      SplitAfterPiece(a[1..], b, sep);
      assert [a[0]] + a[1..] == a;
    }
  }

  /** Splitting a join gives back the parts, when no part holds the separator. */
  lemma {:induction false} SplitJoin(parts: seq<string>, sep: char)
    requires |parts| >= 1
    requires forall i :: 0 <= i < |parts| ==> sep !in parts[i]
    ensures Split(Join(parts, sep), sep) == parts
    decreases |parts|
  {
    if |parts| == 1 {
      SplitWithoutSeparator(parts[0], sep);
    } else {
      SplitJoin(parts[1..], sep);
      SplitAfterPiece(parts[0], Join(parts[1..], sep), sep);
      assert [parts[0]] + parts[1..] == parts;
    }
  }

  /** Joining the pieces of a split gives back the string. */
  lemma {:induction false} JoinSplit(s: string, sep: char)
    ensures Join(Split(s, sep), sep) == s
    decreases |s|
  {
    if |s| > 0 {
      var rest := Split(s[1..], sep);
      JoinSplit(s[1..], sep);
      if s[0] == sep {
        assert ([""] + rest)[1..] == rest;
        assert [s[0]] + s[1..] == s;
      } else {
        var r := [[s[0]] + rest[0]] + rest[1..];
        if |rest| == 1 {
          assert s == [s[0]] + rest[0];
        } else {
          assert r[1..] == rest[1..];
          assert Join(rest, sep) == rest[0] + [sep] + Join(rest[1..], sep);
          assert s == [s[0]] + s[1..];
        }
      }
    }
  }

  // ---------------------------------------------------------------------------
  // 32-bit integers: `int.ToString()` and `int.TryParse`
  // ---------------------------------------------------------------------------

  const MinInt32: int := -0x8000_0000
  const MaxInt32: int := 0x7FFF_FFFF

  predicate IsInt32(n: int) {
    MinInt32 <= n <= MaxInt32
  }

  /** The values of a C# `int`. */
  type Int32 = n: int | IsInt32(n)

  predicate IsDigit(c: char) {
    '0' <= c <= '9'
  }

  predicate AllDigits(s: string) {
    forall i :: 0 <= i < |s| ==> IsDigit(s[i])
  }

  /** The number spelled by a run of decimal digits. */
  function DigitsValue(s: string): nat
    requires AllDigits(s)
    decreases |s|
  {
    if |s| == 0 then 0
    else DigitsValue(s[..|s| - 1]) * 10 + (s[|s| - 1] - '0') as nat
  }

  /** The decimal digits of `n`, without leading zeros. */
  function FormatNat(n: nat): (r: string)
    ensures |r| >= 1 && AllDigits(r)
  {
    if n < 10 then ['0' + n as char]
    else FormatNat(n / 10) + ['0' + (n % 10) as char]
  }

  /** `n.ToString()` for an int: a minus sign for negatives, then the digits. */
  function FormatInt(n: int): (r: string)
    ensures |r| >= 1 && IsDigit(r[|r| - 1])
    ensures forall i :: 0 <= i < |r| ==> IsDigit(r[i]) || r[i] == '-'
  {
    if n < 0 then "-" + FormatNat(-n) else FormatNat(n)
  }

  /** The white space `int.TryParse` skips before and after the number. */
  predicate IsNumberWhite(c: char) {
    c == ' ' || ('\t' <= c <= '\r')
  }

  function TrimStart(s: string): (r: string)
    ensures |r| <= |s|
    decreases |s|
  {
    if |s| > 0 && IsNumberWhite(s[0]) then TrimStart(s[1..]) else s
  }

  function TrimEnd(s: string): (r: string)
    ensures |r| <= |s|
    decreases |s|
  {
    if |s| > 0 && IsNumberWhite(s[|s| - 1]) then TrimEnd(s[..|s| - 1]) else s
  }

  /** `int.TryParse(s, out n)` under NumberStyles.Integer: optional surrounding
      white space, an optional sign, one or more decimal digits, and a value
      that fits in 32 bits. A null string does not parse. */
  function TryParseInt32(s: Option<string>): (r: Option<int>)
    ensures r.Some? ==> IsInt32(r.value)
    ensures s.None? ==> r.None?
  {
    if s.None? then None
    else
      var t := TrimEnd(TrimStart(s.value));
      if |t| == 0 then None
      else
        var signed := t[0] == '-' || t[0] == '+';
        var digits := if signed then t[1..] else t;
        if |digits| == 0 || !AllDigits(digits) then None
        else
          var v: int := if t[0] == '-' then -(DigitsValue(digits) as int) else DigitsValue(digits);
          if IsInt32(v) then Some(v) else None
  }

  lemma {:induction false} DigitsOfFormatNat(n: nat)
    ensures DigitsValue(FormatNat(n)) == n
  {
    if n >= 10 {
      var f := FormatNat(n / 10) + ['0' + (n % 10) as char];
      assert f[..|f| - 1] == FormatNat(n / 10);
      DigitsOfFormatNat(n / 10);
    }
  }

  /** `int.TryParse` reads back what `ToString` wrote, for every 32-bit int. */
  lemma ParseFormatInt32(n: int)
    requires IsInt32(n)
    ensures TryParseInt32(Some(FormatInt(n))) == Some(n)
  {
    var f := FormatInt(n);
    assert !IsNumberWhite(f[0]);
    assert TrimStart(f) == f;
    assert !IsNumberWhite(f[|f| - 1]);
    assert TrimEnd(f) == f;
    if n < 0 {
      assert f[1..] == FormatNat(-n);
      DigitsOfFormatNat(-n);
    } else {
      DigitsOfFormatNat(n);
    }
  }
}

=== FILE: wrappers.dfy ===
/** Option and Result: the model's stand-ins for C# `null` and for thrown exceptions. */
module Wrappers {

  /** A value that may be absent, as a nullable reference or `T?` in the source. */
  datatype Option<+T> = None | Some(value: T) {

    predicate IsFailure() {
      None?
    }

    function PropagateFailure<U>(): Option<U>
      requires None?
    {
      None
    }

    function Extract(): T
      requires Some?
    {
      value
    }

    /** The value, or `default` when absent (the source's `??`). */
    function GetOr(default: T): T {
      match this
      case Some(v) => v
      case None => default
    }
  }

  /** Either a value or the error the source would have thrown. */
  datatype Result<+R, +E> = Ok(value: R) | Err(error: E) {

    predicate IsFailure() {
      Err?
    }

    function PropagateFailure<U>(): Result<U, E>
      requires Err?
    {
      Err(error)
    }

    function Extract(): R
      requires Ok?
    {
      value
    }
  }
}
